=== FILE: README.md ===
# GoToStop in Dafny

GoToStop is an iOS app and widget that shows the next departures of chosen
lines at a stop, from a departure-board API whose journey references are
HAFAS strings. This project models
the sequential logic under its SwiftUI and WidgetKit glue, and proves
properties of it:

- the widget's fetch coordinator, a three-branch step over two durable sets of
  widget hashes (ready to reload and request in flight);
- the request fingerprint, which is SHA-256 over the URL path and the name-sorted
  query items, cut to 16 hex digits;
- the departure-board request builder and the bearer/header error order;
- the background download completion, which files a finished download under its
  request's fingerprint;
- both copies of the keyed JSON cache store, with the defect in clearing it;
- the string codecs: the HAFAS journey reference, the `L=` stop id, the widget's
  trip and stop identifiers, the widget deep link and the app's parser for it;
- the mapping of response records to domain records, the schedule rows, the
  window of the stop-schedule fetch and the trip-selection toggle.

SHA-256, dates, the file system's contents, the network and code that is not
part of this model are parameters of the functions that need them. Swift's
`split` (which omits empty pieces), `joined`, `filter`, `compactMap`,
`first(where:)` and stable sorting are defined once, in the modules
`Strings`, `Seqs` and `Sorting`.

## Model

| member | source | states |
|---|---|---|
| ApiResponses.DirectionId | GoToStopAPI/NetworkManager/ResponseModels/DepartureBoardResponse.swift:83-102 | the direction id is a '#'-separated component of the journey reference that follows a `TO` component; with no reference there is none |
| ApiResponses.Title | GoToStopAPI/NetworkManager/ResponseModels/DepartureBoardResponse.swift:83-106 | the title is a '#'-separated component of the journey reference that follows a `ZB` component; with no reference there is none |
| ApiResponses.AccessorsOfRef | GoToStopAPI/NetworkManager/ResponseModels/DepartureBoardResponse.swift:89-98 | for a reference whose components are before + [key, value] + after with key absent from before, the accessor yields value |
| ApiResponses.KeyLastYieldsNothing | GoToStopAPI/NetworkManager/ResponseModels/DepartureBoardResponse.swift:94-96 | a key that is the last component has no successor, so the accessor yields nothing |
| ApiResponses.BoardDirectionId | GoToStopAPI/NetworkManager/ResponseModels/DepartureBoard.swift:80-91 | the board variant yields nothing when the reference or its string is missing, and otherwise the successor of the first `TO` |
| ApiResponses.BoardDirectionIdAgrees | GoToStopAPI/NetworkManager/ResponseModels/DepartureBoard.swift:80-91 | the board variant and the response accessor give the same direction id for the same reference |
| ApiResponses.IdComponents | GoToStopAPI/NetworkManager/ResponseModels/StopLocationResponse.swift:21-25 | the id's '@'-separated components, none of them empty; a missing id has none |
| ApiResponses.IdComponent | GoToStopAPI/NetworkManager/ResponseModels/StopLocationResponse.swift:27-34 | the value after `key=` in the first component carrying that prefix, and nothing when no component has it |
| ApiResponses.LocationId | GoToStopAPI/NetworkManager/ResponseModels/StopLocationResponse.swift:36-38 | the location id is the value of the first `L=` component |
| ApiResponses.LocationIdOfTerminated | GoToStopAPI/NetworkManager/ResponseModels/StopLocationResponse.swift:21-38 | an id written with '@' after each component yields the value of its first `L=` component, whatever follows |
| ApiResponses.LocationIdAbsent | GoToStopAPI/NetworkManager/ResponseModels/StopLocationResponse.swift:30-31 | an id with no `L=` component yields no location id |
| ApiResponses.LocationIdOfNilId | GoToStopAPI/NetworkManager/ResponseModels/StopLocationResponse.swift:22 | a missing id yields no location id |
| ApiResponses.LocationIdOfExample | GoToStopAPI/NetworkManager/ResponseModels/StopLocationResponse.swift:11-38 | the documented example id yields the location id 3001974, its extId |
| ApiModels.FromResponse | GoToStopAPI/DomainModels/Departure.swift:20-44 | a departure exists iff name, first product with catOut and line, stop id, direction and direction id are all present; its fields are those values and both times come from the date formatter |
| ApiModels.StopNameNotRequired | GoToStopAPI/DomainModels/Departure.swift:21-29 | changing the stop name never changes the mapped departure |
| ApiModels.CategoryKeptVerbatim | GoToStopAPI/DomainModels/Departure.swift:25-37 | any catOut string, known category or not, is kept as the category |
| ApiModels.LineIdIgnoresProductLineId | GoToStopAPI/DomainModels/Departure.swift:26 | the line id is the product's `line`; the product's `lineId` plays no part |
| ApiModels.StopFromResponse | GoToStopAPI/DomainModels/StopLocation.swift:22-30 | a stop exists iff extId and name are present, and then carries them |
| ApiModels.StopFromResponseReadsOnlyExtIdAndName | GoToStopAPI/DomainModels/StopLocation.swift:22-30 | two responses with the same extId and name map to the same stop |
| JourneyRef.RefComponents | GoToStopCore/GoToStopCore/Sources/GoToStopCore/NetworkManager/ResponseModels/DepartureBoardResponse.swift:116-120 | the reference's '#'-separated components, none empty and none holding '#'; a missing reference has none |
| JourneyRef.ComponentAfter | GoToStopCore/GoToStopCore/Sources/GoToStopCore/NetworkManager/ResponseModels/DepartureBoardResponse.swift:122-131 | nothing when the key is absent or last; otherwise the component right after the key's first occurrence |
| JourneyRef.ComponentAfterFindsValue | GoToStopCore/GoToStopCore/Sources/GoToStopCore/NetworkManager/ResponseModels/DepartureBoardResponse.swift:122-131 | with the key absent before it, the value right after the key is found |
| JourneyRef.ComponentAfterInTerminatedRef | GoToStopCore/GoToStopCore/Sources/GoToStopCore/NetworkManager/ResponseModels/DepartureBoardResponse.swift:116-131 | the same holds for a reference written with '#' after every component |
| JourneyRef.ComponentAfterLastKey | GoToStopCore/GoToStopCore/Sources/GoToStopCore/NetworkManager/ResponseModels/DepartureBoardResponse.swift:127-129 | a key in last position yields nothing |
| JourneyRef.ComponentAfterUsesFirstKey | GoToStopCore/GoToStopCore/Sources/GoToStopCore/NetworkManager/ResponseModels/DepartureBoardResponse.swift:124 | later occurrences of the key are ignored |
| JourneyRef.RefComponentsIgnoreOuterSeparators | GoToStopCore/GoToStopCore/Sources/GoToStopCore/NetworkManager/ResponseModels/DepartureBoardResponse.swift:116-120 | separators around the reference change none of its components |
| JourneyRef.RefComponentsOfJoined | GoToStopCore/GoToStopCore/Sources/GoToStopCore/NetworkManager/ResponseModels/DepartureBoardResponse.swift:116-120 | splitting a reference joined from separator-free, non-empty components gives them back |
| CoreResponses.DirectionId | GoToStopCore/GoToStopCore/Sources/GoToStopCore/NetworkManager/ResponseModels/DepartureBoardResponse.swift:133-135 | the direction id is a component of the reference that follows `TO`; none without a reference |
| CoreResponses.Title | GoToStopCore/GoToStopCore/Sources/GoToStopCore/NetworkManager/ResponseModels/DepartureBoardResponse.swift:137-139 | the title is a component of the reference that follows `ZB`; none without a reference |
| CoreResponses.NilRefYieldsNothing | GoToStopCore/GoToStopCore/Sources/GoToStopCoreTests/ResponseModels/DepartureResponseTests.swift:53-59 | a missing reference yields neither direction id nor title |
| CoreResponses.TitleOfShortRef | GoToStopCore/GoToStopCore/Sources/GoToStopCoreTests/ResponseModels/DepartureResponseTests.swift:41-45 | the reference `#ZB#Bus M32#PC#` has the title "Bus M32" |
| CoreResponses.DirectionIdOfShortRef | GoToStopCore/GoToStopCore/Sources/GoToStopCoreTests/ResponseModels/DepartureResponseTests.swift:47-51 | the reference `2\|#VN#FT#1331#TO#3000529#TT#` has the direction id "3000529" |
| CoreResponses.KeyInLastPositionYieldsNothing | GoToStopCore/GoToStopCore/Sources/GoToStopCoreTests/ResponseModels/DepartureResponseTests.swift:61-71 | `#ZB#` has no title and `#TO#` no direction id |
| CoreResponses.FullMockTitle | GoToStopCore/GoToStopCore/Sources/GoToStopCoreTests/ResponseModelsTests.swift:15-43 | the full test reference has the title "Bus M32" |
| CoreResponses.FullMockDirectionId | GoToStopCore/GoToStopCore/Sources/GoToStopCoreTests/ResponseModelsTests.swift:15-50 | the full test reference has the direction id "3000529" |
| CoreModels.Time | GoToStopCore/GoToStopCore/Sources/GoToStopCore/DomainModels/Departure.swift:24-26 | the time is the real-time estimate when present, else the timetable time |
| CoreModels.MessageLink | GoToStopCore/GoToStopCore/Sources/GoToStopCore/DomainModels/Departure.swift:78-79 | the link entry has a non-empty url and lies in a channel with entries, and it is the first such entry of the first such channel |
| CoreModels.MessageOf | GoToStopCore/GoToStopCore/Sources/GoToStopCore/DomainModels/Departure.swift:77-89 | active defaults to false, header and text to empty, and the url description and url come from the link entry |
| CoreModels.GetMessages | GoToStopCore/GoToStopCore/Sources/GoToStopCore/DomainModels/Departure.swift:75-91 | one message per entry in order, and none when the block or its list is missing |
| CoreModels.MessageDefaults | GoToStopCore/GoToStopCore/Sources/GoToStopCore/DomainModels/Departure.swift:84-88 | a message with no fields is inactive with empty header and text and no link |
| CoreModels.MessageLinkFound | GoToStopCore/GoToStopCore/Sources/GoToStopCore/DomainModels/Departure.swift:78-81 | channels without entries are skipped, and the first entry with a url text is linked |
| CoreModels.MessageLinkStopsAtFirstChannel | GoToStopCore/GoToStopCore/Sources/GoToStopCore/DomainModels/Departure.swift:78-79 | when the first channel with entries has no url text there is no link, whatever later channels hold |
| CoreModels.FromResponse | GoToStopCore/GoToStopCore/Sources/GoToStopCore/DomainModels/Departure.swift:38-71 | a departure exists iff name, first product with catOut and line, stop, stop id, direction and direction id are present; the category falls back to unknown, cancelled defaults to false and reachable to true |
| CoreModels.NoProductNoDeparture | GoToStopCore/GoToStopCore/Sources/GoToStopCoreTests/DomainModels/DepartureDomainModelTests.swift:151-157 | an empty product list gives no departure |
| CoreModels.UnrecognisedCategoryIsUnknown | GoToStopCore/GoToStopCore/Sources/GoToStopCore/DomainModels/Departure.swift:50 | a catOut naming no category maps to unknown |
| CoreModels.FlagDefaults | GoToStopCore/GoToStopCore/Sources/GoToStopCore/DomainModels/Departure.swift:53-54 | without flags a departure is neither cancelled nor unreachable |
| CoreModels.LineIdIgnoresProductLineId | GoToStopCore/GoToStopCore/Sources/GoToStopCore/DomainModels/Departure.swift:45 | the line id is the product's `line`; its `lineId` plays no part |
| CoreModels.MissingScheduleHasNoScheduledTime | GoToStopCore/GoToStopCore/Sources/GoToStopCore/DomainModels/Departure.swift:51 | a missing date or time string gives no timetable time |
| CoreModels.MakeStopLocation | GoToStopCore/GoToStopCore/Sources/GoToStopCore/DomainModels/StopLocation.swift:16-26 | the stop carries the given id and name, with both coordinates defaulting to nil |
| CoreModels.Location | GoToStopCore/GoToStopCore/Sources/GoToStopCore/DomainModels/StopLocation.swift:30-37 | there is a coordinate iff both latitude and longitude are known |
| CoreModels.DefaultStopHasNoLocation | GoToStopCore/GoToStopCore/Sources/GoToStopCore/DomainModels/StopLocation.swift:19-32 | a stop made without coordinates has no location |
| CoreModels.StopFromResponse | GoToStopCore/GoToStopCore/Sources/GoToStopCore/DomainModels/StopLocation.swift:41-50 | a stop exists iff extId and name are present; its location id is the extId and the coordinates are copied |
| CoreModels.StopFromResponseIgnoresId | GoToStopCore/GoToStopCore/Sources/GoToStopCore/DomainModels/StopLocation.swift:41-50 | the HAFAS id string plays no part in the stop |
| CoreModels.SortedByDistance | GoToStopCore/GoToStopCore/Sources/GoToStopCore/DomainModels/StopLocation.swift:54-55 | without a location the stops keep their order |
| TransportCategories.FromRawValue | GoToStopCore/GoToStopCore/Sources/GoToStopCore/DomainModels/TransportCategory.swift:8-18 | the case whose raw value is the string, and none for any other string |
| TransportCategories.RawValueRoundTrip | GoToStopCore/GoToStopCore/Sources/GoToStopCore/DomainModels/TransportCategory.swift:8-18 | every case is read back from its raw value |
| TransportCategories.RawValueInjective | GoToStopCore/GoToStopCore/Sources/GoToStopCore/DomainModels/TransportCategory.swift:8-18 | distinct cases have distinct raw values |
| TransportCategories.CategoryOrUnknown | GoToStopCore/GoToStopCore/Sources/GoToStopCore/DomainModels/Departure.swift:50 | the named case when the string is a raw value, unknown otherwise |
| TransportCategories.Emoji | GoToStopCore/GoToStopCore/Sources/GoToStopCore/DomainModels/TransportCategory.swift:20-34 | the rail cases share one symbol, and bus, tram, underground and unknown each have their own |
| ServerDates.ServerDate | GoToStopCore/GoToStopCore/Sources/GoToStopCore/DateFormatter/ServerDateFormatter.swift:17-20 | nothing when either string is missing; otherwise the formatter's reading of date, a space, and time |
| RequestModels.MakeRequest | GoToStopCore/GoToStopCore/Sources/GoToStopCore/NetworkManager/RequestModels/DepartureBoardRequest.swift:44-60 | every field holds the argument given for it |
| RequestModels.OnlyStopIdRequired | GoToStopCore/GoToStopCore/Sources/GoToStopCore/NetworkManager/RequestModels/DepartureBoardRequest.swift:44-52 | a request made from a stop id alone has every filter nil |
| RequestModels.NoValidation | GoToStopCore/GoToStopCore/Sources/GoToStopCore/NetworkManager/RequestModels/DepartureBoardRequest.swift:29-59 | any duration and journey limit are stored, even outside the documented range |
| ScheduleItems.Time | GoToStop/StopDetails/ScheduleItem.swift:19 | the real-time estimate when present, else the timetable time |
| ScheduleItems.MinutesLeft | GoToStop/StopDetails/ScheduleItem.swift:20-24 | nothing without a time; otherwise the whole minutes until it, rounded up and never below zero |
| ScheduleItems.DepartedShowsZero | GoToStop/StopDetails/ScheduleItem.swift:22 | a departure that has left shows zero minutes |
| ScheduleItems.MinutesLeftNeverGrows | GoToStop/StopDetails/ScheduleItem.swift:20-24 | the countdown never grows as the clock moves on |
| ScheduleItems.TimeDiffers | GoToStop/StopDetails/ScheduleItem.swift:25-28 | true iff both times are known and they differ |
| ScheduleItems.ScheduleItemOf | GoToStop/StopDetails/ScheduleItem.swift:32-41 | it never fails, and the row carries the departure's name, direction, times and flags |
| ScheduleItems.ScheduleItemKeepsTime | GoToStop/StopDetails/ScheduleItem.swift:19-41 | a row shows its departure's own time |
| ScheduleItems.TimeLeIsTotalPreorder | GoToStop/StopDetails/StopScheduleViewModel.swift:114 | ordering rows by time is total and transitive |
| ScheduleItems.TripValueOf | GoToStop/StopDetails/StopScheduleViewModel.swift:33-39 | the trip takes category, line id, name, direction and direction id from the departure |
| ScheduleItems.TripValueIgnoresTimes | GoToStop/StopDetails/StopScheduleViewModel.swift:33-39 | departures that agree on those five fields give the same trip, whatever their times and flags |
| ScheduleItems.CeilMinutes | GoToStop/StopDetails/ScheduleItem.swift:22 | the least number of whole minutes covering the seconds |
| FileSystem.RemoveItem | GoToStopCore/GoToStopCore/Sources/GoToStopCore/NetworkManager/CacheFileManager/CacheFileManager.swift:104 | removing fails iff the file is missing, and otherwise drops only that file |
| FileSystem.MoveItem | GoToStopCore/GoToStopCore/Sources/GoToStopCore/NetworkManager/CacheFileManager/CacheFileManager.swift:46 | moving fails iff the source is missing or the target exists, and otherwise puts the file, unchanged, under the new name and keeps every other file |
| FileSystem.CopyItem | GoToStopCore/GoToStopCore/Sources/GoToStopCore/NetworkManager/CacheFileManager/CacheFileManager.swift:37 | copying fails iff the source is missing or the target exists, and otherwise adds the copy, created now |
| FileSystem.MoveItemBack | GoToStopCore/GoToStopCore/Sources/GoToStopCore/NetworkManager/CacheFileManager/CacheFileManager.swift:46 | moving a file away and back restores the directory |
| CacheStore.JsonNameInjective | GoToStopCore/GoToStopCore/Sources/GoToStopCore/NetworkManager/CacheFileManager/CacheFileManager.swift:34 | two keys share a `.json` file name iff they are equal |
| CacheStore.DeleteFile | GoToStopCore/GoToStopCore/Sources/GoToStopCore/NetworkManager/CacheFileManager/CacheFileManager.swift:101-106 | the key's file is gone and every other file is kept |
| CacheStore.SaveCacheFile | GoToStopCore/GoToStopCore/Sources/GoToStopCore/NetworkManager/CacheFileManager/CacheFileManager.swift:32-39 | it deadlocks on the queue, fails without a caches folder, and succeeds iff the download exists, storing it under the key with the current date; a missing download still deletes the old file |
| CacheStore.GetCachedData | GoToStopCore/GoToStopCore/Sources/GoToStopCore/NetworkManager/CacheFileManager/CacheFileManager.swift:50-60 | it changes nothing, and returns the key's bytes, or nil for an absent key |
| CacheStore.GetCacheDate | GoToStopCore/GoToStopCore/Sources/GoToStopCore/NetworkManager/CacheFileManager/CacheFileManager.swift:67-75 | it changes nothing, and returns the creation date of the key's file, or nil for an absent key |
| CacheStore.RenameCacheFile | GoToStopCore/GoToStopCore/Sources/GoToStopCore/NetworkManager/CacheFileManager/CacheFileManager.swift:41-48 | it succeeds iff the old key has a file and the keys differ; afterwards the new key holds the old key's file and the old key has none, and every other file, of another key or not a cache entry at all, is present and unchanged exactly when it was before |
| CacheStore.RenameLeavesOtherKeys | GoToStopCore/GoToStopCore/Sources/GoToStopCore/NetworkManager/CacheFileManager/CacheFileManager.swift:41-48 | renaming leaves the entry of every third key, and every file that is not a cache entry, as it was |
| CacheStore.JsonFileOfStem | GoToStopCore/GoToStopCore/Sources/GoToStopCore/NetworkManager/CacheFileManager/CacheFileManager.swift:82-83 | a `.json` file is the file of its stem |
| CacheStore.StemOfJsonName | GoToStopCore/GoToStopCore/Sources/GoToStopCore/NetworkManager/CacheFileManager/CacheFileManager.swift:82-83 | a key's file is a `.json` file whose stem is the key |
| CacheStore.GetCacheFilenames | GoToStopCore/GoToStopCore/Sources/GoToStopCore/NetworkManager/CacheFileManager/CacheFileManager.swift:77-85 | it changes nothing, and every name listed is the stem of a `.json` file of the directory |
| CacheStore.GetCacheFilenamesListsKeys | GoToStopCore/GoToStopCore/Sources/GoToStopCore/NetworkManager/CacheFileManager/CacheFileManager.swift:77-85 | when the listing is the directory, a key is listed iff it has a file |
| CacheStore.ClearCacheFile | GoToStopCore/GoToStopCore/Sources/GoToStopCore/NetworkManager/CacheFileManager/CacheFileManager.swift:87-91 | it removes the key's file and nothing else |
| CacheStore.ClearAllBody | GoToStopCore/GoToStopCore/Sources/GoToStopCore/NetworkManager/CacheFileManager/CacheFileManager.swift:94-98 | a listing requested while the queue is held deadlocks and changes nothing |
| CacheStore.ClearAllCacheFiles | GoToStopCore/GoToStopCore/Sources/GoToStopCore/NetworkManager/CacheFileManager/CacheFileManager.swift:93-99 | as written it never returns and changes nothing, because the listing syncs on the queue it already holds |
| CacheStore.DeleteAll | GoToStopCore/GoToStopCore/Sources/GoToStopCore/NetworkManager/CacheFileManager/CacheFileManager.swift:95-97 | the files of the listed keys are gone and every other file is kept |
| CacheStore.ClearAllCacheFilesFixed | GoToStopCore/GoToStopCore/Sources/GoToStopCore/NetworkManager/CacheFileManager/CacheFileManager.swift:93-99 | with the listing taken on the held queue, clearing succeeds whenever there is a caches folder |
| CacheStore.ClearAllFixedEmptiesStore | GoToStopCore/GoToStopCore/Sources/GoToStopCore/NetworkManager/CacheFileManager/CacheFileManager.swift:93-99 | the corrected clearing leaves no `.json` file and keeps every other file |
| CacheStore.SaveThenGet | GoToStopCore/GoToStopCore/Sources/GoToStopCore/NetworkManager/CacheFileManager/CacheFileManager.swift:32-75 | a saved file reads back as the saved bytes, with the save's date |
| CacheStore.SaveLeavesOtherKeys | GoToStopCore/GoToStopCore/Sources/GoToStopCore/NetworkManager/CacheFileManager/CacheFileManager.swift:32-39 | saving touches no other key |
| CacheStore.SaveFromMissingSourceLosesEntry | GoToStopCore/GoToStopCore/Sources/GoToStopCore/NetworkManager/CacheFileManager/CacheFileManager.swift:35-37 | saving from a missing download fails but has already deleted the key's previous file |
| CacheStore.ClearLeavesOtherKeys | GoToStopCore/GoToStopCore/Sources/GoToStopCore/NetworkManager/CacheFileManager/CacheFileManager.swift:87-106 | clearing touches no other key, and clearing an absent key changes nothing |
| CacheStore.RenameMissingLosesTarget | GoToStopCore/GoToStopCore/Sources/GoToStopCore/NetworkManager/CacheFileManager/CacheFileManager.swift:45-46 | renaming a missing key fails, but the new key's file is already deleted |
| CacheStore.RenameToSelfLosesEntry | GoToStopCore/GoToStopCore/Sources/GoToStopCore/NetworkManager/CacheFileManager/CacheFileManager.swift:45-46 | renaming a key onto itself deletes its file |
| CacheStore.ClearAllNeverClears | GoToStopCore/GoToStopCore/Sources/GoToStopCore/NetworkManager/CacheFileManager/CacheFileManager.swift:93-99 | clearing everything never returns and leaves the store as it was |
| LegacyCacheStore.SaveThenGetCacheFile | GoToStopAPI/NetworkManager/CacheFileManager/CacheFileManager.swift:32-51 | saving replaces the key's file, reading returns the saved bytes, and every other key keeps its file |
| LegacyCacheStore.AbsentKeyReadsNil | GoToStopAPI/NetworkManager/CacheFileManager/CacheFileManager.swift:41-61 | an absent key reads as nil without an error and has no date |
| LegacyCacheStore.ClearOnlyTheKey | GoToStopAPI/NetworkManager/CacheFileManager/CacheFileManager.swift:73-92 | clearing removes only the key's file and changes nothing for an absent key |
| LegacyCacheStore.ListingNamesKeys | GoToStopAPI/NetworkManager/CacheFileManager/CacheFileManager.swift:63-71 | when the listing is the directory, a key is listed iff it has a file |
| LegacyCacheStore.ClearAllDeadlocks | GoToStopAPI/NetworkManager/CacheFileManager/CacheFileManager.swift:79-85 | this copy too never returns from clearing everything |
| LegacyCacheStore.NoFolderFails | GoToStopAPI/NetworkManager/CacheFileManager/CacheFileManager.swift:19-24 | every call fails with noCacheFolderFound when there is no caches folder |
| Urls.FirstNamed | GoToStop/App/GoToStopApp.swift:70 | the first item carrying the name, and none iff no item carries it |
| Urls.AllNamed | GoToStop/App/GoToStopApp.swift:90-91 | exactly the items carrying the name, taken from the list |
| Urls.FirstNamedIsFirstOfAllNamed | GoToStop/App/GoToStopApp.swift:70-91 | the first item with a name is the head of all items with that name |
| Urls.ValueNamed | GoToStop/App/GoToStopApp.swift:70 | the value is that of the first item with the name, and there is none when no item has the name |
| Urls.AllNamedAppend | GoToStop/App/GoToStopApp.swift:90-91 | selecting by name distributes over concatenation |
| Urls.AllNamedOfUniform | GoToStop/App/GoToStopApp.swift:90-91 | items that all carry the name are all selected, in order |
| Fingerprint.NameLeIsTotalPreorder | GoToStopAPI/Extensions/URLComponents+.swift:18 | ordering items by name is total and transitive |
| Fingerprint.ComponentsHash | GoToStopAPI/Extensions/URLComponents+.swift:11-23 | none iff the query items are missing; otherwise the first 16 hex digits of the SHA-256 of the path followed by each item's name and value in name order |
| Fingerprint.EmptyItemsHashPath | GoToStopAPI/Extensions/URLComponents+.swift:17-22 | an empty item list hashes the path alone |
| Fingerprint.HashIgnoresSchemeHostPort | GoToStopAPI/Extensions/URLComponents+.swift:22 | components that agree on path and items share their fingerprint |
| Fingerprint.DistinctNamesNoTies | GoToStopAPI/Extensions/URLComponents+.swift:18 | items with distinct names never tie in the name order |
| Fingerprint.HashPermutationInvariant | GoToStopAPI/Extensions/URLComponents+.swift:17-20 | reordering items with distinct names keeps the fingerprint |
| Fingerprint.Normalize | GoToStopAPI/Extensions/URLComponents+.swift:19 | an item as the fingerprint reads it, a missing value read as "" |
| Fingerprint.HashSeesValuesAsNormalized | GoToStopAPI/Extensions/URLComponents+.swift:17-22 | item lists that agree once missing values read as "" share their fingerprint |
| Fingerprint.NilValueHashesAsEmpty | GoToStopAPI/Extensions/URLComponents+.swift:19 | a nil value and an empty value fingerprint alike |
| Fingerprint.NameValueBoundaryCollision | GoToStopAPI/Extensions/URLComponents+.swift:19-20 | with no separator, the items ("ab", "c") and ("a", "bc") differ but collide |
| Fingerprint.RequestHash | GoToStopAPI/Extensions/URLRequest+.swift:11-20 | a fingerprint iff the request has a URL, its components and their query items; it is 16 lower-case hex digits |
| Fingerprint.RequestHashIgnoresMethodAndHeaders | GoToStopAPI/Extensions/URLRequest+.swift:11-20 | requests for the same URL share their fingerprint, whatever the method and headers |
| Fingerprint.RequestHashOfComponents | GoToStopAPI/Extensions/URLRequest+.swift:19 | a request hashes as its URL's components do |
| Fingerprint.PrivateRequestHash | GoToStopAPI/NetworkManager/NetworkManager.swift:271-288 | the private copy's fingerprint, when present, is 16 lower-case hex digits |
| Fingerprint.PrivateRequestHashAgrees | GoToStopAPI/NetworkManager/NetworkManager.swift:271-288 | the private copy computes the same fingerprint as the public extensions |
| BackgroundSession.DownloadData | GoToStopAPI/NetworkManager/BackgroundSessionManager.swift:30-34 | one new task for the request is appended with a fresh identifier, and earlier tasks are kept |
| BackgroundSession.DownloadTwiceMakesTwoTasks | GoToStopAPI/NetworkManager/BackgroundSessionManager.swift:30-34 | downloading one request twice makes two distinct tasks; nothing deduplicates |
| BackgroundSession.DidFinishDownloading | GoToStopAPI/NetworkManager/BackgroundSessionManager.swift:36-55 | without an original request or its fingerprint nothing is written; otherwise the file is saved under the fingerprint and a failed save is dropped |
| BackgroundSession.FinishedDownloadIsCachedUnderFingerprint | GoToStopAPI/NetworkManager/BackgroundSessionManager.swift:36-55 | a finished download reads back from the cache under its request's fingerprint |
| BackgroundSession.SameUrlSameCacheKey | GoToStopAPI/NetworkManager/BackgroundSessionManager.swift:37-44 | two requests for one URL file their downloads under the same key |
| BackgroundSession.QuerylessDownloadIsDropped | GoToStopAPI/NetworkManager/BackgroundSessionManager.swift:37-40 | a request whose URL has no query has no fingerprint, so its download is dropped |
| BackgroundSession.DidFinishEvents | GoToStopAPI/NetworkManager/BackgroundSessionManager.swift:57-60 | the stored completion handler, if any, is called exactly once |
| NetworkManager.ApiBearer | GoToStopAPI/NetworkManager/NetworkManager.swift:19-23 | a bearer iff the info dictionary holds a non-empty string under API_BEARER, and then it is that string |
| NetworkManager.EndpointComponents | GoToStopAPI/NetworkManager/NetworkManager.swift:37 | https, host www.rmv.de, no port, path /hapi followed by the endpoint, and the given query items |
| NetworkManager.StopLocationsQueryItems | GoToStopAPI/NetworkManager/NetworkManager.swift:49-52 | exactly the search text, type S and withProducts 0, in that order |
| NetworkManager.StopLocationsComponents | GoToStopAPI/NetworkManager/NetworkManager.swift:49-55 | the location.name endpoint with the search query |
| NetworkManager.DurationText | GoToStopAPI/NetworkManager/NetworkManager.swift:153-155 | a duration is sent iff set, as decimal text that reads back as the duration |
| NetworkManager.BoardFieldsDistinct | GoToStopAPI/NetworkManager/NetworkManager.swift:138-155 | the board's parameter names are pairwise distinct |
| NetworkManager.BoardFieldsValues | GoToStopAPI/NetworkManager/NetworkManager.swift:138-155 | each optional field sits at its own place in the parameter list |
| NetworkManager.FieldValueAt | GoToStopAPI/NetworkManager/NetworkManager.swift:138-155 | with distinct names, the value read under an item's name is that item's value |
| NetworkManager.DepartureBoardQueryItems | GoToStopAPI/NetworkManager/NetworkManager.swift:137-155 | the items are exactly the stop id followed by direction, lines, date, time and duration, in that order, each present iff set and carrying its value; nothing else is sent |
| NetworkManager.FilterBoardFields | GoToStopAPI/NetworkManager/NetworkManager.swift:137-161 | dropping the items without a value from the six fields leaves the set ones in their fixed order |
| NetworkManager.NoneNamedInBoard | GoToStopAPI/NetworkManager/NetworkManager.swift:141-155 | no query item carries the name of a direction, lines or duration field left unset |
| NetworkManager.FilterKeepsDistinct | GoToStopAPI/NetworkManager/NetworkManager.swift:141-155 | leaving out items keeps names distinct |
| NetworkManager.FilterKeepsValues | GoToStopAPI/NetworkManager/NetworkManager.swift:141-155 | leaving out the unset items keeps every name's value |
| NetworkManager.DepartureBoardComponents | GoToStopAPI/NetworkManager/NetworkManager.swift:137-161 | the departureBoard endpoint with the board query |
| NetworkManager.RequestOfItems | GoToStopAPI/NetworkManager/NetworkManager.swift:137-155 | reading a query back: a request iff there is an id, with the filters read by name and no journey limit |
| NetworkManager.DepartureBoardQueryRoundTrip | GoToStopAPI/NetworkManager/NetworkManager.swift:137-161 | reading the query back gives the request with only its journey limit cleared |
| NetworkManager.UnsetFieldsNotSent | GoToStopAPI/NetworkManager/NetworkManager.swift:141-155 | an unset field sends no item at all |
| NetworkManager.PrepareUrlRequest | GoToStopAPI/NetworkManager/NetworkManager.swift:165-181 | a missing bearer fails before a missing URL; otherwise the request has the URL, a bearer authorisation header and a JSON accept header |
| NetworkManager.PreparedRequestFingerprint | GoToStopAPI/NetworkManager/NetworkManager.swift:271-288 | a prepared request hashes as its components, whatever the bearer |
| NetworkManager.RequestDepartures | GoToStopAPI/NetworkManager/NetworkManager.swift:129-135 | it fails iff there is no bearer, and otherwise hands on a request for the board URL |
| NetworkManager.DepartureFingerprintIgnoresMaxJourneys | GoToStopAPI/NetworkManager/NetworkManager.swift:137-161 | every board request has a fingerprint, and requests differing only in journey limit share it |
| NetworkManager.StopOfEntry | GoToStopAPI/NetworkManager/NetworkManager.swift:60-65 | a coordinate entry gives no stop, and a stop entry gives its mapped stop |
| NetworkManager.StopLocations | GoToStopAPI/NetworkManager/NetworkManager.swift:59-65 | at most one stop per entry, each from a stop entry |
| NetworkManager.CoordinatesDropped | GoToStopAPI/NetworkManager/NetworkManager.swift:62 | coordinate entries are dropped wherever they appear |
| NetworkManager.StopEntryKept | GoToStopAPI/NetworkManager/NetworkManager.swift:63 | a stop entry with id and name is kept after the stops before it |
| NetworkManager.Departures | GoToStopAPI/NetworkManager/NetworkManager.swift:107 | none without a departure list; otherwise at most one departure per response, each mapped from one |
| NetworkManager.IncompleteDepartureDropped | GoToStopAPI/NetworkManager/NetworkManager.swift:107 | a response lacking a required field is dropped without disturbing the others |
| NetworkManager.CompleteDepartureKept | GoToStopAPI/NetworkManager/NetworkManager.swift:107 | a response that maps to a departure is kept, in its place between the departures before and after it |
| NetworkManager.TempName | GoToStopAPI/NetworkManager/NetworkManager.swift:219 | the temporary file is named by the task identifier with extension tmp |
| NetworkManager.CompletedName | GoToStopAPI/NetworkManager/NetworkManager.swift:244 | the completed file is named by the fingerprint with the task identifier as extension |
| NetworkManager.SaveReceivedData | GoToStopAPI/NetworkManager/NetworkManager.swift:216-234 | the first chunk creates the task's temporary file, later chunks are appended, and no other file changes |
| NetworkManager.ReceiveAllAppends | GoToStopAPI/NetworkManager/NetworkManager.swift:216-234 | chunks received into an existing temporary file are all appended in order |
| NetworkManager.ReceiveAllCollects | GoToStopAPI/NetworkManager/NetworkManager.swift:216-234 | a whole download lands in a fresh temporary file created with the first chunk |
| NetworkManager.HandleCompletedDataTask | GoToStopAPI/NetworkManager/NetworkManager.swift:236-250 | without a fingerprint nothing changes; otherwise the temporary file is renamed to the fingerprint and task identifier, and a failed rename changes nothing |
| NetworkManager.GetSavedResponse | GoToStopAPI/NetworkManager/NetworkManager.swift:200-214 | none without a fingerprint; a response found is the data of a listed file whose stem is the fingerprint |
| NetworkManager.CompletedTaskIsFound | GoToStopAPI/NetworkManager/NetworkManager.swift:200-250 | after its temporary file is renamed, a completed download is found again under its request |
| IntentParameters.TripFromIdentifier | GoToStopWidget/Widget/IntentParameters/Trip.swift:69-83 | a trip iff the identifier has exactly five '#'-separated pieces; fields are the pieces in order, a category piece that is no raw value reads as unknown, and the identifier is kept |
| IntentParameters.TripOf | GoToStopWidget/Widget/IntentParameters/Trip.swift:85-101 | the identifier joins name, direction, category raw value, line id and direction id with '#', and the fields are the departure's |
| IntentParameters.RawValueIsPiece | GoToStopWidget/Widget/IntentParameters/Trip.swift:89 | no category raw value is empty or contains '#' |
| IntentParameters.TripRoundTrip | GoToStopWidget/Widget/IntentParameters/Trip.swift:69-101 | a trip made from a departure reads back from its identifier when no text field is empty or contains '#' |
| IntentParameters.UnknownCategoryFallsBack | GoToStopWidget/Widget/IntentParameters/Trip.swift:73 | an identifier whose third piece is no category still parses, as an unknown-category trip |
| IntentParameters.MockTripParses | GoToStopWidget/Widget/IntentParameters/Trip.swift:26-83 | the mock's identifier parses to exactly the mock |
| IntentParameters.StopFromIdentifier | GoToStopWidget/Widget/IntentParameters/StopLocation.swift:36-44 | a stop iff the identifier has exactly two '#'-separated pieces, location id and name, and the identifier is kept |
| IntentParameters.StopOf | GoToStopWidget/Widget/IntentParameters/StopLocation.swift:46-58 | the identifier joins location id and name with '#', and both fields are copied |
| IntentParameters.StopRoundTrip | GoToStopWidget/Widget/IntentParameters/StopLocation.swift:36-58 | a stop reads back from its identifier when location id and name are non-empty and free of '#' |
| IntentParameters.StopNameWithSeparatorIsLost | GoToStopWidget/Widget/IntentParameters/StopLocation.swift:37-51 | a name containing '#' gives an identifier with too many pieces, which does not parse |
| WidgetEntries.ItemTime | GoToStopWidget/Widget/GoToStopWidgetProviderHelper.swift:142 | a row has a time iff it has a real-time or a timetable time, and the real-time estimate wins |
| WidgetEntries.MakeEntry | GoToStopWidget/Widget/GoToStopWidgetEntry.swift:17-27 | the entry holds the date, data, stop and trips it is given |
| WidgetEntries.DefaultEntryHasNoStopOrTrips | GoToStopWidget/Widget/GoToStopWidgetEntry.swift:20-21 | an entry made without stop and trips has neither |
| WidgetEntries.WidgetQueryItems | GoToStopWidget/Widget/GoToStopWidgetEntry.swift:36-43 | the stop item first when there is a stop, then one trip item per trip in order; a stop item is present iff there is a stop |
| WidgetEntries.WidgetComponents | GoToStopWidget/Widget/GoToStopWidgetEntry.swift:32-43 | the scheme gotostop, host widget, empty path, and the entry's query |
| WidgetEntries.MakeWidgetUrl | GoToStopWidget/Widget/GoToStopWidgetEntry.swift:31-46 | every entry has a link, made of those components |
| WidgetCoordinator.WidgetHash | GoToStopWidget/Widget/GoToStopWidgetProviderHelper.swift:32-39 | the hash is the SHA-256 of the location id followed by each trip's line id and direction id, the keys taken in line-id order |
| WidgetCoordinator.WidgetHashReadsOnlyKeys | GoToStopWidget/Widget/GoToStopWidgetProviderHelper.swift:32-39 | widgets agreeing on location id and on the line and direction ids of their trips share a hash, whatever the names, categories and identifiers |
| WidgetCoordinator.LineIdLeIsTotalPreorder | GoToStopWidget/Widget/GoToStopWidgetProviderHelper.swift:34 | ordering by line id is total and transitive |
| WidgetCoordinator.WidgetHashIgnoresTripOrder | GoToStopWidget/Widget/GoToStopWidgetProviderHelper.swift:33-36 | reordering the trips keeps the hash when no two trips with one line id differ in direction |
| WidgetCoordinator.WidgetUrl | GoToStopWidget/Widget/GoToStopWidgetProviderHelper.swift:40-55 | the link always exists and its query is the stop item followed by one trip item per trip |
| WidgetCoordinator.WidgetUrlIsEntryUrl | GoToStopWidget/Widget/GoToStopWidgetProviderHelper.swift:40-55 | the helper's link is the link of an entry naming its stop and trips |
| WidgetCoordinator.DepartureRequests | GoToStopWidget/Widget/GoToStopWidgetProviderHelper.swift:191-200 | one request per trip, in order, at the widget's stop, for the trip's line and direction, with a 960-minute window and nothing else set |
| WidgetCoordinator.UntilFailure | GoToStopWidget/Widget/GoToStopWidgetProviderHelper.swift:204-210 | the steps that succeed, in order, up to the first that fails; when it stops early, the next step failed |
| WidgetCoordinator.RequestDeparturesAllOrNothing | GoToStopWidget/Widget/GoToStopWidgetProviderHelper.swift:202-211 | with a bearer every trip's request is issued; without one none is |
| WidgetCoordinator.CachedDeparturesAppend | GoToStopWidget/Widget/GoToStopWidgetProviderHelper.swift:218-234 | the cached departures of two runs of requests follow each other |
| WidgetCoordinator.CachedDeparturesOfOne | GoToStopWidget/Widget/GoToStopWidgetProviderHelper.swift:221-231 | a request with a cached board contributes the whole board; one with nothing cached or an unreadable cache contributes nothing |
| WidgetCoordinator.ScheduledTripOf | GoToStopWidget/Widget/GoToStopWidgetProviderHelper.swift:269-279 | it never fails; it copies name, direction, flags and times, and has warnings iff some message is active |
| WidgetCoordinator.DepartureTimeLeIsTotalPreorder | GoToStopWidget/Widget/GoToStopWidgetProviderHelper.swift:247 | ordering departures by time, undated first, is total and transitive |
| WidgetCoordinator.ScheduledTrips | GoToStopWidget/Widget/GoToStopWidgetProviderHelper.swift:243-250 | at most the first 100 departures in time order, each made a scheduled trip |
| WidgetCoordinator.ScheduledTripsAreEarliest | GoToStopWidget/Widget/GoToStopWidgetProviderHelper.swift:246-248 | the departures taken are a time-ordered rearrangement of all of them |
| WidgetCoordinator.ItemAt | GoToStopWidget/Widget/GoToStopWidgetProviderHelper.swift:281-292 | the row copies every field of the scheduled trip and carries the update time |
| WidgetCoordinator.ItemsAt | GoToStopWidget/Widget/GoToStopWidgetProviderHelper.swift:139-144 | every row shown at a date has a time no earlier than the date and is the row of one of the trips, at most one row per trip; every trip with such a time is shown |
| WidgetCoordinator.ItemsAtAppend | GoToStopWidget/Widget/GoToStopWidgetProviderHelper.swift:139-144 | the rows keep the trips' order: picking them distributes over concatenation |
| WidgetCoordinator.ItemsAtOne | GoToStopWidget/Widget/GoToStopWidgetProviderHelper.swift:139-144 | a single trip shows exactly its own row, once, when its time is not before the date, and nothing otherwise |
| WidgetCoordinator.WidgetEntries | GoToStopWidget/Widget/GoToStopWidgetProviderHelper.swift:124-162 | one entry per update date, in order, each holding the rows still ahead at it, stamped now, with the helper's link |
| WidgetCoordinator.EmptyEntries | GoToStopWidget/Widget/GoToStopWidgetProviderHelper.swift:112-122 | a single entry dated now, with no rows and the helper's link |
| WidgetCoordinator.GetWidgetEntries | GoToStopWidget/Widget/GoToStopWidgetProviderHelper.swift:66-110 | ready: entries from the cached boards, the cache cleared up to the first failure, and the hash unmarked ready whatever the clearing did; active: one empty entry, the deferred check started, nothing else changed; otherwise: one empty entry, the hash marked active and the requests issued |
| WidgetCoordinator.DeferredCheck | GoToStopWidget/Widget/GoToStopWidgetProviderHelper.swift:87-96 | with requests still in progress nothing changes; otherwise the hash moves from active to ready and every timeline reloads |
| WidgetCoordinator.GetWidgetEntriesKeepsMarks | GoToStopWidget/Widget/GoToStopWidgetProviderHelper.swift:66-110 | a timeline call keeps ready and active disjoint, never adds a ready mark, and touches no other widget's marks |
| WidgetCoordinator.DeferredCheckKeepsMarks | GoToStopWidget/Widget/GoToStopWidgetProviderHelper.swift:87-96 | the deferred check keeps the marks disjoint and touches no other widget's marks |
| WidgetCoordinator.WidgetLifecycle | GoToStopWidget/Widget/GoToStopWidgetProviderHelper.swift:66-110 | from no marks: the first call marks the widget active, the second waits, the finished check marks it ready, and the third builds one entry per update date and clears the marks |
| WidgetCoordinator.LateCheckMarksReadyWithoutRequest | GoToStopWidget/Widget/GoToStopWidgetProviderHelper.swift:84-96 | a check that finishes after the ready mark was consumed marks the widget ready again with no request behind it |
| WidgetViewModel.MapDepartures | GoToStopWidget/WidgetViewModel.swift:27-36 | name, from and to come from the first departure, each "-" when missing or when there is none; the times are exactly the real-time texts present |
| WidgetViewModel.TimesKeepOrder | GoToStopWidget/WidgetViewModel.swift:34 | the times of a later run of departures follow those of an earlier one |
| WidgetViewModel.LaterDeparturesAddOnlyTimes | GoToStopWidget/WidgetViewModel.swift:29-34 | only the first departure names the line, stop and direction; the others add only times |
| WidgetViewModel.GetWidgetData | GoToStopWidget/WidgetViewModel.swift:21-25 | every field is "-" and there are no times |
| DeepLinks.StrictTrip | GoToStop/App/GoToStopApp.swift:115-135 | a trip iff the string has exactly five '#'-separated pieces and the third is a category raw value; the fields are the pieces in order |
| DeepLinks.StrictTripImpliesWidgetTrip | GoToStop/App/GoToStopApp.swift:115-135 | whatever the app reads, the widget reads too, with the same fields |
| DeepLinks.UnknownCategoryOnlyWidgetAccepts | GoToStop/App/GoToStopApp.swift:122-125 | an identifier with an unknown category is read by the widget but dropped by the app |
| DeepLinks.LinkValuesAppend | GoToStop/App/GoToStopApp.swift:90-92 | the trip values of two runs of items follow each other |
| DeepLinks.LinkTripFromItem | GoToStop/App/GoToStopApp.swift:90-93 | every trip read from a link comes from one of its trip items |
| DeepLinks.LinkValuesOfOne | GoToStop/App/GoToStopApp.swift:90-92 | a single trip item with a value contributes exactly that value |
| DeepLinks.UnreadableValueDropped | GoToStop/App/GoToStopApp.swift:93 | a value the app cannot read contributes no trip |
| DeepLinks.UnreadableTripDropped | GoToStop/App/GoToStopApp.swift:90-93 | a trip item the app cannot read leaves the other trips as they are |
| DeepLinks.NumberTrips | GoToStop/App/GoToStopApp.swift:98-106 | one trip item per trip, in order, with consecutive fresh identifiers and the trip's five fields |
| DeepLinks.GetStopScheduleParameters | GoToStop/App/GoToStopApp.swift:61-112 | parameters iff the link has components, a non-empty query, and a first stop item whose value has exactly two '#'-pieces; the stop is those pieces and the trips are the readable trip items in order |
| DeepLinks.WidgetTrips | GoToStopWidget/Widget/IntentParameters/Trip.swift:85-101 | the widget's trips, one per departure in order |
| DeepLinks.TripIdReadBack | GoToStop/App/GoToStopApp.swift:115-135 | the identifier of a departure's trip reads back in the app as that departure's trip |
| DeepLinks.WidgetLinkStop | GoToStop/App/GoToStopApp.swift:70-88 | the stop item of the widget link reads back as its stop |
| DeepLinks.LinkValuesOfOther | GoToStop/App/GoToStopApp.swift:91 | an item of another name contributes no trip value |
| DeepLinks.WidgetLinkValues | GoToStop/App/GoToStopApp.swift:90-92 | the trip values of the widget link are the trips' identifiers |
| DeepLinks.WidgetLinkTrips | GoToStop/App/GoToStopApp.swift:90-93 | the trip items of the widget link read back, in order, as the departures' trips |
| DeepLinks.WidgetLinkRoundTrip | GoToStop/App/GoToStopApp.swift:61-112 | opening the widget link recovers its stop and, in order, the trip of every departure it was made for, when no field is empty or contains '#' |
| DeepLinks.NoStopNoSchedule | GoToStop/App/GoToStopApp.swift:70-73 | a link without a stop opens nothing, whatever trips it carries |
| StopSchedule.FetchDurationAsWritten | GoToStop/StopDetails/StopScheduleViewModel.swift:92 | the window traps iff there are no trips, and otherwise lies between 60 and 480 minutes in whole hours |
| StopSchedule.FetchDuration | GoToStop/StopDetails/StopScheduleViewModel.swift:92 | the guarded window lies between 60 and 480, equals the written one whenever that is defined, and is 480 with no trips |
| StopSchedule.FetchDurationTable | GoToStop/StopDetails/StopScheduleViewModel.swift:92 | eight hours for one trip, four for two, two for three or four, and one from five trips on |
| StopSchedule.FetchDurationShrinks | GoToStop/StopDetails/StopScheduleViewModel.swift:92 | more trips never widen the window |
| StopSchedule.ScheduleRequests | GoToStop/StopDetails/StopScheduleViewModel.swift:95-102 | one request per trip, in order, at the stop, for the trip's line and direction, with the shared window and nothing else set |
| StopSchedule.ScheduleRequestsQuery | GoToStop/StopDetails/StopScheduleViewModel.swift:95-102 | the server is sent the stop id first, the trip's line and direction and the window, and no date or time |
| StopSchedule.ScheduleItemsOf | GoToStop/StopDetails/StopScheduleViewModel.swift:104-115 | an error gives no rows; otherwise exactly one row per departure, ordered by time |
| StopSchedule.ScheduleIgnoresArrivalOrder | GoToStop/StopDetails/StopScheduleViewModel.swift:107-114 | the rows do not depend on the order the answers arrive in when no two rows share a time |
| StopSchedule.Init | GoToStop/StopDetails/StopScheduleViewModel.swift:58-71 | the stop, trips and rows as given (the rows are empty by default), with one departure-board request per trip, for that stop |
| StopSchedule.HandleWidgetUrl | GoToStop/StopDetails/StopScheduleViewModel.swift:73-86 | a link that does not read changes and fetches nothing; one that does replaces stop and trips, keeps the rows, and fetches for the new trips |
| StopSchedule.FetchCompleted | GoToStop/StopDetails/StopScheduleViewModel.swift:112-114 | an answer replaces the rows and nothing else |
| StopSchedule.WidgetLinkSchedulesItsTrips | GoToStop/StopDetails/StopScheduleViewModel.swift:73-102 | opening the widget link asks, at its stop, for exactly the lines and directions of its departures, in order |
| StopSchedule.EmptyTripsTrap | GoToStop/StopDetails/StopScheduleViewModel.swift:80-92 | a widget link with a stop and no trips opens a schedule with no trips, whose window as written is undefined |
| SelectTrips.RemoveAt | GoToStop/SelectTrips/SelectTripsViewModel.swift:36 | removing at an index drops exactly that element and keeps the order of the rest |
| SelectTrips.HandleTripTap | GoToStop/SelectTrips/SelectTripsViewModel.swift:33-40 | an item not selected is appended; a selected item has its first occurrence removed |
| SelectTrips.TapTwiceRestores | GoToStop/SelectTrips/SelectTripsViewModel.swift:33-40 | tapping an unselected item twice restores the selection |
| SelectTrips.UntapKeepsOthers | GoToStop/SelectTrips/SelectTripsViewModel.swift:34-36 | untapping a selected item of a duplicate-free selection removes it and keeps every other item |
| SelectTrips.TapKeepsOthers | GoToStop/SelectTrips/SelectTripsViewModel.swift:37-38 | tapping an unselected item adds it and keeps every other item |
| SelectTrips.TapFlipsMembership | GoToStop/SelectTrips/SelectTripsViewModel.swift:33-40 | a tap flips the item's membership, keeps every other item's, and keeps the selection free of duplicates |
| SelectTrips.SameTripTwoSelections | GoToStop/SelectTrips/SelectTripsViewModel.swift:20-40 | rows for one trip with different identifiers are selected separately |
| SelectTrips.LocationIdWithPrefix | GoToStop/SelectTrips/SelectTripsViewModel.swift:103-110 | a location id found is an '@'-component of the id carrying the prefix `L=`; none without an id |
| SelectTrips.LocationIdWithPrefixAgrees | GoToStop/SelectTrips/SelectTripsViewModel.swift:103-110 | this id is found iff the response's location id is, and it is that value with the `L=` prefix kept |
| SelectTrips.TripValueOf | GoToStop/SelectTrips/SelectTripsViewModel.swift:66-82 | a trip iff a first product with line and catOut, a name, a direction and a direction id are present, and then its fields are those values |
| SelectTrips.Dedup | GoToStop/SelectTrips/SelectTripsViewModel.swift:90 | each value once: no duplicates, and exactly the values of the input |
| SelectTrips.KeyLeTotal | GoToStop/SelectTrips/SelectTripsViewModel.swift:84-88 | any two trips are ordered one way or the other by category, line and direction |
| SelectTrips.KeyLeTransitive | GoToStop/SelectTrips/SelectTripsViewModel.swift:84-88 | the category, line, direction order is transitive |
| SelectTrips.KeyLeIsTotalPreorder | GoToStop/SelectTrips/SelectTripsViewModel.swift:84-88 | the three sort keys together form a total preorder |
| SelectTrips.NumberTrips | GoToStop/SelectTrips/SelectTripsViewModel.swift:90-91 | one row per trip, in order, with consecutive fresh identifiers |
| SelectTrips.GetTrips | GoToStop/SelectTrips/SelectTripsViewModel.swift:52-99 | without a stop, its id or its location id, or when the board fails, the rows stay as they were; otherwise they are the rows for the departures at the stop |
| SelectTrips.TripRowsDistinct | GoToStop/SelectTrips/SelectTripsViewModel.swift:90-92 | no trip has two rows and no two rows share an identifier |
| SelectTrips.TripRowsOrdered | GoToStop/SelectTrips/SelectTripsViewModel.swift:84-92 | the rows are ordered by category, line and direction |
| SelectTrips.StopTripsCover | GoToStop/SelectTrips/SelectTripsViewModel.swift:64-82 | a trip is listed iff some departure at the stop maps to it |
| SelectTrips.SortedTripsCover | GoToStop/SelectTrips/SelectTripsViewModel.swift:90-92 | deduplicating and sorting keeps exactly the listed trips |
| SelectTrips.NumberTripsCover | GoToStop/SelectTrips/SelectTripsViewModel.swift:91 | the rows carry exactly the numbered trips |
| SelectTrips.TripRowsCover | GoToStop/SelectTrips/SelectTripsViewModel.swift:64-92 | there is a row for a trip iff some departure at the stop maps to it |
| SelectTrips.SetOrderDoesNotShow | GoToStop/SelectTrips/SelectTripsViewModel.swift:90-92 | whatever order the set yields its values in, the sorted rows are the same when no two trips tie on the sort keys |

## Left out

- SwiftUI, WidgetKit, ActivityKit and AppIntents views, timelines and entry points are not modelled. They are presentation and host plumbing. This covers the debug menu, welcome and main screens, `SelectStopViewModel` and `GoToStopIntent`.
- URLSession and all network I/O are not modelled: the async calls, the foreground session and the API facade. What a request returns is a parameter.
- JSON decoding is not modelled. Response records are taken as already decoded, with every optional field an `Option`.
- Task groups hand results back in completion order. The model takes any order as a parameter, and `StopSchedule.ScheduleIgnoresArrivalOrder` proves that the rows do not depend on it.
- StopSchedule.ScheduleIgnoresArrivalOrder: holds only when no two rows share a time. Rows with equal times keep their arrival order under Swift's stable sort, so the arrival order then does show through.
- WidgetCoordinator.WidgetHashIgnoresTripOrder: holds only when no two trips with one `lineId` differ in `directionId`. The hash sorts by `lineId` alone, so trips with equal line ids keep their given order, which shows only when their direction ids differ.
- The coordinator's deferred `Task` runs after a sleep and can race with other calls. It is modelled as a separate atomic step, `WidgetCoordinator.DeferredCheck`. Interleavings inside a step are not modelled.
- The in-flight query, `getCachedDepartures(for:)` and `removeCachedDepartures(for:)` are called by the widget helper but are not part of this model. They are oracles: a `bool` for the in-flight query, and the `cached` and `remove` functions of `WidgetCoordinator.World`.
- The widget helper passes `widgetUrl:` to the entry initialiser, but the entry type does not show that parameter. The entry is modelled by `WidgetEntries.MakeEntry`, and its link by `WidgetEntries.MakeWidgetUrl`. `WidgetCoordinator.WidgetUrlIsEntryUrl` proves that the helper's `widgetUrl` is the same link.
- The widget's schedule-item type, with `relatedTime`, `hasWarnings` and `time`, is not part of this model. Its `time` is taken to be the real-time departure when present and the scheduled one otherwise, as in the domain `Departure`.
- `makeUpdateDates` is not modelled because it is calendar arithmetic. The widget's update dates are the `dates` parameter of `WidgetCoordinator.WidgetEntries`, and the current time is a parameter too.
- `getLogsIfNeeded`, the logger and log export are not modelled. They only produce logs.
- SHA-256 from CryptoKit, as in FIPS 180-4, is the parameter `sha`, which returns 64 lowercase hex digits. Its collision resistance is not modelled.
- Percent-encoding and the URL syntax that Foundation's `URLComponents` handles are not modelled. A URL is modelled by the components Foundation makes of it, or by their absence.
- `ServerDateFormatter` is not modelled. The formatter is the parameter `parse` of `ServerDates.ServerDate`, which keeps only the guard that gives nothing when either string is missing.
- Swift's `.localizedStandard` string comparison, used in the sort descriptors, is modelled as code-point lexicographic order. Case and diacritic folding are not modelled.
- Core Location, its authorization and floating-point distances are not modelled.
- CoreModels.SortedByDistance: with a location, the distance ordering is the parameter `byDistance`, so only the case without a location, which returns the input unchanged, says anything about the source. The source's comparator returns true in its default case and is not an order.
- `ceil` in `minutesLeft` works on floating-point seconds. It is modelled over whole seconds as a ceiling division by 60.
- `UUID()` is modelled as consecutive natural numbers taken from a `nextId` parameter.
- Iterating a Swift `Set` has an unspecified order. Deduplicating through a set is modelled as keeping first occurrences, and every property stated about it holds for any order.
- `UserDefaults` and the JSON-backed `Settings` are not modelled. The two hash sets are plain sets that start empty.
- `processSelectedTrips` in the trip-selection view model is not modelled. It builds intent parameters with a `line:` argument that the trip type does not take, and it only hands them to WidgetKit.
- `TripQuery.suggestedEntities` is not modelled. It is AppIntents plumbing over the cache and settings.
- StopSchedule.Init: fetches with the corrected window, `StopSchedule.FetchDuration`, which is eight hours when there are no trips. The source divides by zero there and traps; `StopSchedule.EmptyTripsTrap` models that trap, as listed under Findings.
- StopSchedule.HandleWidgetUrl: fetches with the corrected window as well, so a link whose trips all fail to parse fetches over eight hours instead of trapping as the source does.
- Strings are modelled as sequences of Unicode scalar values. Swift's `split(separator:)` and `hasPrefix` work on grapheme clusters (`Character`), which is not modelled. The `#` split of journey references and the `@` split of location ids, with their prefix tests, can therefore differ from the source's when a separator is followed by a combining mark.
- Swift traps such as index out of range and force unwraps are not modelled as crashes, except for the division by zero under Findings.
- Plain records with no logic and legacy duplicates are not modelled: the `DepartureLine` types, `GoToStopWidgetData`, the legacy copies `GoToStopAPI/DepartureBoard.swift` and `GoToStop/DepartureBoard.swift` (the response models in `GoToStopAPI/NetworkManager/ResponseModels/DepartureBoard.swift` are modelled) and `GoToStop/StopSchedule`.

## Findings

| source | as written | input that shows it | evidently intended | confidence | as-written member | corrected member |
|---|---|---|---|---|---|---|
| GoToStopCore/GoToStopCore/Sources/GoToStopCore/NetworkManager/CacheFileManager/CacheFileManager.swift:93-99 | `clearAllCacheFiles` calls `getCacheFilenames` inside `serialQueue.sync`, and `getCacheFilenames` (line 78) syncs on the same serial queue again, so the call never returns | any call, on any store | list the file names and delete each, once, on the queue | not executed | CacheStore.ClearAllNeverClears | CacheStore.ClearAllFixedEmptiesStore |
| GoToStop/StopDetails/StopScheduleViewModel.swift:92 | the window is `60 * max(1, min(8 / tripItems.count, 8))`, which divides by zero when there are no trips | a widget link with a stop and no trip the app can parse, opened through `handleWidgetURL` | the widest window, or no fetch at all, when there are no trips | not executed | StopSchedule.EmptyTripsTrap | StopSchedule.FetchDuration |

=== FILE: api_models.dfy ===
/** The older domain records of the API package: a departure that keeps the
    raw category string and does not need the stop name, and a stop location
    of id and name only. */
module ApiModels {
  import opened Wrappers
  import opened ServerDates
  import opened TransportCategories
  import R = ApiResponses

  datatype Departure = Departure(
    name: string,
    stopId: string,
    category: string,
    lineId: string,
    scheduledTime: Option<Date>,
    realTime: Option<Date>,
    direction: string,
    directionId: string)

  /** What this `Departure.init?(_:)` insists on: name, a first product with
      `catOut` and `line`, stop id, direction, and a direction id. */
  predicate HasRequiredFields(r: R.DepartureResponse) {
    && r.name.Some?
    && r.product.Some? && |r.product.value| > 0
    && r.stopid.Some?
    && r.product.value[0].catOut.Some?
    && r.product.value[0].line.Some?
    && r.direction.Some?
    && R.DirectionId(r).Some?
  }

  /** `Departure.init?(_:)` of the API package. */
  function FromResponse(r: R.DepartureResponse, parseDate: string -> Option<Date>): (d: Option<Departure>)
    ensures d.Some? <==> HasRequiredFields(r)
    ensures d.Some? ==>
              && d.value.name == r.name.value
              && d.value.stopId == r.stopid.value
              && d.value.category == r.product.value[0].catOut.value
              && d.value.lineId == r.product.value[0].line.value
              && d.value.direction == r.direction.value
              && d.value.directionId == R.DirectionId(r).value
    ensures d.Some? ==> d.value.scheduledTime == ServerDate(r.date, r.time, parseDate)
                        && d.value.realTime == ServerDate(r.rtDate, r.rtTime, parseDate)
  {
    if !HasRequiredFields(r) then None
    else
      var product := r.product.value[0];
      Some(Departure(
        r.name.value,
        r.stopid.value,
        product.catOut.value,
        product.line.value,
        ServerDate(r.date, r.time, parseDate),
        ServerDate(r.rtDate, r.rtTime, parseDate),
        r.direction.value,
        R.DirectionId(r).value))
  }

  /** Unlike the core mapping, the stop name is not needed: it plays no part. */
  lemma StopNameNotRequired(r: R.DepartureResponse, stop: Option<string>, parseDate: string -> Option<Date>)
    ensures FromResponse(r.(stop := stop), parseDate) == FromResponse(r, parseDate)
  {
  }

  /** Any category string is kept as it is, known or not. */
  lemma CategoryKeptVerbatim(r: R.DepartureResponse, cat: string, parseDate: string -> Option<Date>)
    requires HasRequiredFields(r)
    ensures var p := r.product.value[0];
            var r' := r.(product := Some(r.product.value[0 := p.(catOut := Some(cat))]));
            FromResponse(r', parseDate).Some? && FromResponse(r', parseDate).value.category == cat
  {
    var p := r.product.value[0];
    var r' := r.(product := Some(r.product.value[0 := p.(catOut := Some(cat))]));
    assert R.DirectionId(r') == R.DirectionId(r);
  }

  /** The line id is the product's `line`; its `lineId` field plays no part. */
  lemma LineIdIgnoresProductLineId(r: R.DepartureResponse, other: Option<string>, parseDate: string -> Option<Date>)
    requires r.product.Some? && |r.product.value| > 0
    ensures var p := r.product.value[0];
            var r' := r.(product := Some(r.product.value[0 := p.(lineId := other)]));
            FromResponse(r', parseDate) == FromResponse(r, parseDate)
  {
  }

  datatype StopLocation = StopLocation(locationId: string, name: string)

  /** `StopLocation.init?(_:)` of the API package: needs `extId` and name. */
  function StopFromResponse(r: R.StopLocationResponse): (s: Option<StopLocation>)
    ensures s.Some? <==> r.extId.Some? && r.name.Some?
    ensures s.Some? ==> s.value.locationId == r.extId.value && s.value.name == r.name.value
  {
    match (r.extId, r.name)
    case (Some(extId), Some(name)) => Some(StopLocation(extId, name))
    case _ => None
  }

  /** Only `extId` and name are read: id and coordinates play no part. */
  lemma StopFromResponseReadsOnlyExtIdAndName(r: R.StopLocationResponse, s: R.StopLocationResponse)
    requires r.extId == s.extId && r.name == s.name
    ensures StopFromResponse(r) == StopFromResponse(s)
  {
  }

  /** The API package's plain `Trip` record: what the app keeps of a chosen
      line and direction. */
  datatype Trip = Trip(
    name: string,
    direction: string,
    category: TransportCategory,
    lineId: string,
    directionId: string)
}

=== FILE: api_responses.dfy ===
/** The older response records of the API package: its copy of the departure
    response with the same journey-reference accessors, the `DepartureBoard`
    variant whose `directionId` is written out separately, and the stop
    location response whose `locationId` is read from the `@`-separated id. */
module ApiResponses {
  import opened Wrappers
  import opened Strings
  import opened JourneyRef

  datatype JourneyDetailRefResponse = JourneyDetailRefResponse(ref: Option<string>)

  datatype ProductResponse = ProductResponse(
    name: Option<string>,
    line: Option<string>,
    lineId: Option<string>,
    catOut: Option<string>)

  /** The API copy has no messages and decodes the coordinates as required. */
  datatype DepartureResponse = DepartureResponse(
    journeyDetailRef: Option<JourneyDetailRefResponse>,
    product: Option<seq<ProductResponse>>,
    name: Option<string>,
    stop: Option<string>,
    stopid: Option<string>,
    stopExtId: Option<string>,
    lon: real,
    lat: real,
    time: Option<string>,
    date: Option<string>,
    rtTime: Option<string>,
    rtDate: Option<string>,
    reachable: Option<bool>,
    cancelled: Option<bool>,
    direction: Option<string>)

  function Ref(r: DepartureResponse): Option<string>
  {
    match r.journeyDetailRef
    case None => None
    case Some(j) => j.ref
  }

  /** The component after the first `TO` of the journey reference. */
  function DirectionId(r: DepartureResponse): (d: Option<string>)
    ensures Ref(r).None? ==> d.None?
    ensures d.Some? ==> d.value in RefComponents(Ref(r)) && IsPiece(d.value, '#')
  {
    ComponentAfter(RefComponents(Ref(r)), "TO")
  }

  /** The component after the first `ZB` of the journey reference. */
  function Title(r: DepartureResponse): (t: Option<string>)
    ensures Ref(r).None? ==> t.None?
    ensures t.Some? ==> t.value in RefComponents(Ref(r)) && IsPiece(t.value, '#')
  {
    ComponentAfter(RefComponents(Ref(r)), "ZB")
  }

  /** Both accessors take the successor of the first occurrence of their key,
      and a key in last position yields nothing. */
  lemma AccessorsOfRef(r: DepartureResponse, before: seq<string>, key: string, value: string, after: seq<string>)
    requires Ref(r).Some?
    requires RefComponents(Ref(r)) == before + [key, value] + after && key !in before
    requires key == "TO" || key == "ZB"
    ensures key == "TO" ==> DirectionId(r) == Some(value)
    ensures key == "ZB" ==> Title(r) == Some(value)
  {
    ComponentAfterFindsValue(before, key, value, after);
  }

  lemma KeyLastYieldsNothing(r: DepartureResponse, before: seq<string>)
    requires "TO" !in before && "ZB" !in before
    ensures RefComponents(Ref(r)) == before + ["TO"] ==> DirectionId(r) == None
    ensures RefComponents(Ref(r)) == before + ["ZB"] ==> Title(r) == None
  {
    ComponentAfterLastKey(before, "TO");
    ComponentAfterLastKey(before, "ZB");
  }

  /** `DepartureBoard.Departure`: only its journey reference takes part in
      any computation. */
  datatype BoardDeparture = BoardDeparture(journeyDetailRef: Option<JourneyDetailRefResponse>)

  /** `Departure.directionId` of `DepartureBoard.swift`: gives up when the
      reference or its string is missing, when `TO` does not occur, or when
      `TO` is the last component. */
  function BoardDirectionId(d: BoardDeparture): (r: Option<string>)
    ensures d.journeyDetailRef.None? || d.journeyDetailRef.value.ref.None? ==> r.None?
    ensures r.Some? ==> "TO" in Split(d.journeyDetailRef.value.ref.value, '#')
    ensures r.Some? ==>
              var parts := Split(d.journeyDetailRef.value.ref.value, '#');
              exists i :: 0 <= i < |parts| - 1 && parts[i] == "TO" && parts[i + 1] == r.value
                          && "TO" !in parts[..i]
  {
    match d.journeyDetailRef
    case None => None
    case Some(j) =>
      match j.ref
      case None => None
      case Some(ref) =>
        var parts := Split(ref, '#');
        match FirstIndexOf(parts, "TO")
        case None => None
        case Some(i) =>
          if i + 1 < |parts| then
            assert "TO" !in parts[..i] by {
              assert forall k :: 0 <= k < i ==> parts[..i][k] == parts[k];
            }
            Some(parts[i + 1])
          else None
  }

  /** The variant agrees with the accessor of the response copy: a missing
      string and the empty string both have no components. */
  lemma BoardDirectionIdAgrees(d: BoardDeparture, r: DepartureResponse)
    requires r.journeyDetailRef == d.journeyDetailRef
    ensures BoardDirectionId(d) == DirectionId(r)
  {
  }

  /** The stop records of the location search, with the fields the app reads. */
  datatype StopLocationResponse = StopLocationResponse(
    id: Option<string>,
    extId: Option<string>,
    name: Option<string>,
    lon: Option<real>,
    lat: Option<real>)

  /** `(id ?? "").split(separator: "@")`. */
  function IdComponents(r: StopLocationResponse): (parts: seq<string>)
    ensures r.id.None? ==> parts == []
    ensures forall i :: 0 <= i < |parts| ==> IsPiece(parts[i], '@')
  {
    Split(r.id.GetOr(""), '@')
  }

  /** The text after `key=` in the first id component starting with `key=`. */
  function IdComponent(r: StopLocationResponse, key: string): (v: Option<string>)
    ensures v.None? <==> forall i :: 0 <= i < |IdComponents(r)| ==> !HasPrefix(IdComponents(r)[i], key + "=")
    ensures v.Some? ==> exists k :: 0 <= k < |IdComponents(r)| && IdComponents(r)[k] == key + "=" + v.value
                          && forall i :: 0 <= i < k ==> !HasPrefix(IdComponents(r)[i], key + "=")
  {
    var prefix := key + "=";
    match FirstWithPrefix(IdComponents(r), prefix)
    case None => None
    case Some(c) =>
      assert c == prefix + c[|prefix|..];
      Some(c[|prefix|..])
  }

  function LocationId(r: StopLocationResponse): (v: Option<string>)
    ensures r.id.None? ==> v.None?
  {
    IdComponent(r, "L")
  }

  /** A response with only an id. */
  function MockStop(id: Option<string>): StopLocationResponse
  {
    StopLocationResponse(id, None, None, None, None)
  }

  /** An id written out with an `@` after every component (and perhaps one in
      front) yields the value of its first `L=` component; empty segments and
      later `L=` components play no part. */
  lemma LocationIdOfTerminated(before: seq<string>, value: string, after: seq<string>, lead: bool)
    requires forall i :: 0 <= i < |before| ==> IsPiece(before[i], '@') && !HasPrefix(before[i], "L=")
    requires forall i :: 0 <= i < |after| ==> IsPiece(after[i], '@')
    requires '@' !in value
    ensures var id := Terminated(before + ["L=" + value] + after, '@');
            LocationId(MockStop(Some(if lead then ['@'] + id else id))) == Some(value)
  {
    var p := "L=" + value;
    var parts := before + [p] + after;
    PieceOfConcat("L=", value, '@');
    assert HasPrefix(p, "L=") by {
      assert p[..2] == "L=";
    }
    PiecesOfConcat(before, p, after, '@');
    var id := Terminated(parts, '@');
    SplitTerminated(parts, '@');
    SplitDropsLeadingSeparator(id, '@');
    var full := if lead then ['@'] + id else id;
    assert IdComponents(MockStop(Some(full))) == parts;
    FirstWithPrefixFinds(before, p, after, "L=");
    LocationIdOfFirst(MockStop(Some(full)), value);
  }

  /** An id whose first `L=` component is `L=value` has the location id `value`. */
  lemma LocationIdOfFirst(r: StopLocationResponse, value: string)
    requires FirstWithPrefix(IdComponents(r), "L=") == Some("L=" + value)
    ensures LocationId(r) == Some(value)
  {
    assert "L" + "=" == "L=";
    assert ("L=" + value)[2..] == value;
  }

  lemma PiecesOfConcat(before: seq<string>, p: string, after: seq<string>, c: char)
    requires forall i :: 0 <= i < |before| ==> IsPiece(before[i], c)
    requires forall i :: 0 <= i < |after| ==> IsPiece(after[i], c)
    requires IsPiece(p, c)
    ensures var parts := before + [p] + after;
            forall i :: 0 <= i < |parts| ==> IsPiece(parts[i], c)
  {
    var parts := before + [p] + after;
    forall i | 0 <= i < |parts|
      ensures IsPiece(parts[i], c)
    {
      if i < |before| {
        assert parts[i] == before[i];
      } else if i > |before| {
        assert parts[i] == after[i - |before| - 1];
      }
    }
  }

  /** An id without an `L=` component yields nothing. */
  lemma LocationIdAbsent(parts: seq<string>)
    requires forall i :: 0 <= i < |parts| ==> IsPiece(parts[i], '@') && !HasPrefix(parts[i], "L=")
    ensures LocationId(MockStop(Some(Terminated(parts, '@')))) == None
  {
    SplitTerminated(parts, '@');
    var r := MockStop(Some(Terminated(parts, '@')));
    assert IdComponents(r) == parts;
    assert "L" + "=" == "L=";
  }

  /** A missing id yields nothing. */
  lemma LocationIdOfNilId()
    ensures LocationId(MockStop(None)) == None
  {
  }

  /** The documented example id
      `A=1@O=F Kuhwaldstraße@X=8640584@Y=50116885@U=80@L=3001974@B=1@p=1734544410@`
      in two runs around its `L=` component. */
  function ExampleIdLead(): seq<string>
  {
    ["A=1", "O=F Kuhwaldstraße", "X=8640584", "Y=50116885", "U=80"]
  }

  function ExampleIdEnd(): seq<string>
  {
    ["B=1", "p=1734544410"]
  }

  lemma ExampleIdRunsArePieces()
    ensures forall i :: 0 <= i < |ExampleIdLead()| ==>
              IsPiece(ExampleIdLead()[i], '@') && !HasPrefix(ExampleIdLead()[i], "L=")
    ensures forall i :: 0 <= i < |ExampleIdEnd()| ==> IsPiece(ExampleIdEnd()[i], '@')
  {
    var before := ExampleIdLead();
    forall i | 0 <= i < |before|
      ensures IsPiece(before[i], '@') && !HasPrefix(before[i], "L=")
    {
      assert before[i][0] != 'L' && before[i][..2][0] == before[i][0];
    }
  }

  /** The example id has the location id "3001974". */
  lemma LocationIdOfExample()
    ensures LocationId(MockStop(Some(Terminated(ExampleIdLead() + ["L=3001974"] + ExampleIdEnd(), '@'))))
            == Some("3001974")
  {
    var before, after := ExampleIdLead(), ExampleIdEnd();
    ExampleIdRunsArePieces();
    assert "L=" + "3001974" == "L=3001974";
    assert before + ["L=" + "3001974"] + after == before + ["L=3001974"] + after;
    LocationIdOfTerminated(before, "3001974", after, false);
  }
}

=== FILE: background_session.dfy ===
/** The API package's background session manager: every download request
    becomes a new task, and a finished download is filed in the cache under
    the fingerprint of the task's original request. The URL session itself is
    not part of this model; its tasks are a list. */
module BackgroundSession {
  import opened Wrappers
  import opened ServerDates
  import opened FileSystem
  import opened Urls
  import opened Fingerprint
  import C = CacheStore

  /** The tasks created so far, and the next task identifier. */
  datatype Session = Session(tasks: seq<Task>, nextId: nat)

  /** `downloadData(with:)`: a new task for the request, whatever is already
      in flight. */
  function DownloadData(s: Session, request: UrlRequest): (r: Session)
    ensures |r.tasks| == |s.tasks| + 1
    ensures r.tasks[..|s.tasks|] == s.tasks
    ensures r.tasks[|s.tasks|] == Task(s.nextId, Some(request))
    ensures r.nextId > s.nextId
  {
    Session(s.tasks + [Task(s.nextId, Some(request))], s.nextId + 1)
  }

  /** Downloading the same request twice makes two tasks: there is no
      deduplication of requests in flight. */
  lemma DownloadTwiceMakesTwoTasks(s: Session, request: UrlRequest)
    ensures var r := DownloadData(DownloadData(s, request), request);
            |r.tasks| == |s.tasks| + 2
            && r.tasks[|s.tasks|].originalRequest == r.tasks[|s.tasks| + 1].originalRequest
            && r.tasks[|s.tasks|].identifier != r.tasks[|s.tasks| + 1].identifier
  {
  }

  /** `urlSession(_:downloadTask:didFinishDownloadingTo:)`: the downloaded
      file (`location`, `None` when it has gone) is saved under the original
      request's fingerprint. Without a fingerprint nothing is written; an
      error of the save is logged and dropped. */
  function DidFinishDownloading(store: C.Store, task: Task, location: Option<Bytes>, now: Date,
                                sha: string -> Digest): (r: C.Store)
    ensures task.originalRequest.None? ==> r == store
    ensures task.originalRequest.Some? && RequestHash(task.originalRequest.value, sha).None? ==> r == store
    ensures task.originalRequest.Some? && RequestHash(task.originalRequest.value, sha).Some? ==>
              r == C.SaveCacheFile(store, RequestHash(task.originalRequest.value, sha).value, location, now, false).store
  {
    match task.originalRequest
    case None => store
    case Some(request) =>
      match RequestHash(request, sha)
      case None => store
      case Some(key) => C.SaveCacheFile(store, key, location, now, false).store
  }

  /** A finished download can be read back from the cache under the
      fingerprint of its request. */
  lemma FinishedDownloadIsCachedUnderFingerprint(store: C.Store, request: UrlRequest, id: nat, data: Bytes,
                                                 now: Date, sha: string -> Digest)
    requires store.Some? && RequestHash(request, sha).Some?
    ensures var r := DidFinishDownloading(store, Task(id, Some(request)), Some(data), now, sha);
            C.GetCachedData(r, RequestHash(request, sha).value, false).result == Success(Some(data))
  {
    C.SaveThenGet(store, RequestHash(request, sha).value, data, now);
  }

  /** Headers and method do not matter: two requests for the same URL file
      their downloads under the same key. */
  lemma SameUrlSameCacheKey(store: C.Store, a: UrlRequest, b: UrlRequest, id: nat, data: Bytes,
                            now: Date, sha: string -> Digest)
    requires a.url == b.url
    ensures DidFinishDownloading(store, Task(id, Some(a)), Some(data), now, sha)
         == DidFinishDownloading(store, Task(id, Some(b)), Some(data), now, sha)
  {
    RequestHashIgnoresMethodAndHeaders(a, b, sha);
  }

  /** A request whose URL has no query has no fingerprint, so its download is
      dropped. */
  lemma QuerylessDownloadIsDropped(store: C.Store, request: UrlRequest, c: Components, id: nat,
                                   location: Option<Bytes>, now: Date, sha: string -> Digest)
    requires request.url == Some(Url(Some(c))) && c.queryItems.None?
    ensures DidFinishDownloading(store, Task(id, Some(request)), location, now, sha) == store
  {
  }

  /** `urlSessionDidFinishEvents(forBackgroundURLSession:)`: the stored
      completion handler, if any, is called once. The result lists the
      handlers called. */
  function DidFinishEvents<H>(completion: Option<H>): (calls: seq<H>)
    ensures completion.None? <==> calls == []
    ensures completion.Some? ==> calls == [completion.value]
  {
    match completion
    case None => []
    case Some(h) => [h]
  }
}

=== FILE: cache_store.dfy ===
/** The shared core package's cache file manager: departure boards filed as
    `<key>.json` in the caches directory, behind one serial dispatch queue.
    Every public operation runs inside `serialQueue.sync`; a call made while
    already on that queue never returns, which the model reports as
    `Deadlock`. Effects that happen before a throw persist, so each call yields
    the directory it leaves behind together with its result. */
module CacheStore {
  import opened Wrappers
  import opened Strings
  import opened Seqs
  import opened ServerDates
  import opened FileSystem

  /** The caches directory, `None` when the system reports none. */
  type Store = Option<Directory>

  datatype CacheError = NoCacheFolderFound | FileFailed(e: FileError) | Deadlock

  /** The store after a call, and what the call returned or threw. */
  datatype Outcome<T> = Outcome(store: Store, result: Result<T, CacheError>)

  function JsonName(key: string): string
  {
    key + ".json"
  }

  lemma JsonNameInjective(a: string, b: string)
    ensures JsonName(a) == JsonName(b) <==> a == b
  {
    if JsonName(a) == JsonName(b) {
      assert a == JsonName(a)[..|a|];
      assert b == JsonName(b)[..|b|];
    }
  }

  /** The key's file, if the store has one. */
  function Entry(store: Store, key: string): Option<File>
  {
    if store.Some? && JsonName(key) in store.value then Some(store.value[JsonName(key)]) else None
  }

  /** `deleteFile(named:)`: removes the key's file if there is one. */
  function DeleteFile(dir: Directory, key: string): (r: Directory)
    ensures r.Keys == dir.Keys - {JsonName(key)}
    ensures forall n :: n in r ==> r[n] == dir[n]
  {
    if JsonName(key) in dir then RemoveItem(dir, JsonName(key)).value else dir
  }

  /** `saveCacheFile(named:from:)`: deletes the key's file, then copies the
      downloaded file (`source`, `None` when it is missing) in its place. */
  function SaveCacheFile(store: Store, key: string, source: Option<Bytes>, now: Date, onQueue: bool): (o: Outcome<()>)
    ensures onQueue ==> o == Outcome(store, Failure(Deadlock))
    ensures !onQueue && store.None? ==> o == Outcome(store, Failure(NoCacheFolderFound))
    ensures o.result.Success? <==> !onQueue && store.Some? && source.Some?
    ensures o.result.Success? ==> o.store == Some(store.value[JsonName(key) := File(source.value, now)])
    ensures !onQueue && store.Some? && source.None? ==> o.store == Some(DeleteFile(store.value, key))
  {
    if onQueue then Outcome(store, Failure(Deadlock))
    else
      match store
      case None => Outcome(store, Failure(NoCacheFolderFound))
      case Some(dir) =>
        var cleared := DeleteFile(dir, key);
        match CopyItem(cleared, source, JsonName(key), now)
        case Failure(e) => Outcome(Some(cleared), Failure(FileFailed(e)))
        case Success(d) =>
          assert d == dir[JsonName(key) := File(source.value, now)];
          Outcome(Some(d), Success(()))
  }

  /** `getCachedData(named:)`: the key's bytes, `nil` for an absent key. */
  function GetCachedData(store: Store, key: string, onQueue: bool): (o: Outcome<Option<Bytes>>)
    ensures o.store == store
    ensures onQueue ==> o.result == Failure(Deadlock)
    ensures !onQueue && store.None? ==> o.result == Failure(NoCacheFolderFound)
    ensures !onQueue && store.Some? ==> o.result.Success?
    ensures o.result.Success? ==> (o.result.value.Some? <==> Entry(store, key).Some?)
    ensures o.result.Success? && o.result.value.Some? ==> o.result.value.value == Entry(store, key).value.data
  {
    if onQueue then Outcome(store, Failure(Deadlock))
    else
      match store
      case None => Outcome(store, Failure(NoCacheFolderFound))
      case Some(dir) =>
        if JsonName(key) in dir then Outcome(store, Success(Some(dir[JsonName(key)].data)))
        else Outcome(store, Success(None))
  }

  /** `getCacheDate(named:)`: the creation date of the key's file. */
  function GetCacheDate(store: Store, key: string, onQueue: bool): (o: Outcome<Option<Date>>)
    ensures o.store == store
    ensures onQueue ==> o.result == Failure(Deadlock)
    ensures !onQueue && store.None? ==> o.result == Failure(NoCacheFolderFound)
    ensures !onQueue && store.Some? ==> o.result.Success?
    ensures o.result.Success? ==> (o.result.value.None? <==> Entry(store, key).None?)
    ensures o.result.Success? && o.result.value.Some? ==> o.result.value.value == Entry(store, key).value.created
  {
    if onQueue then Outcome(store, Failure(Deadlock))
    else
      match store
      case None => Outcome(store, Failure(NoCacheFolderFound))
      case Some(dir) =>
        if JsonName(key) in dir then Outcome(store, Success(Some(dir[JsonName(key)].created)))
        else Outcome(store, Success(None))
  }

  /** `renameCacheFile(named:to:)`: deletes the new key's file, then moves
      the old key's file there. */
  function RenameCacheFile(store: Store, oldKey: string, newKey: string, onQueue: bool): (o: Outcome<()>)
    ensures onQueue ==> o == Outcome(store, Failure(Deadlock))
    ensures !onQueue && store.None? ==> o == Outcome(store, Failure(NoCacheFolderFound))
    ensures o.result.Success? <==> !onQueue && Entry(store, oldKey).Some? && oldKey != newKey
    ensures !onQueue && store.Some? ==> Entry(o.store, newKey) == (if oldKey != newKey then Entry(store, oldKey) else None)
    ensures !onQueue && store.Some? ==> Entry(o.store, oldKey).None?
    ensures !onQueue && store.Some? ==> o.store.Some? && forall n :: n != JsonName(oldKey) && n != JsonName(newKey) ==>
              (n in o.store.value <==> n in store.value) && (n in store.value ==> o.store.value[n] == store.value[n])
  {
    if onQueue then Outcome(store, Failure(Deadlock))
    else
      match store
      case None => Outcome(store, Failure(NoCacheFolderFound))
      case Some(dir) =>
        var cleared := DeleteFile(dir, newKey);
        JsonNameInjective(oldKey, newKey);
        match MoveItem(cleared, JsonName(oldKey), JsonName(newKey))
        case Failure(e) => Outcome(Some(cleared), Failure(FileFailed(e)))
        case Success(d) => Outcome(Some(d), Success(()))
  }

  /** Renaming touches only the two keys' files: every other key keeps its
      entry, and every file that is not a cache entry stays as it was. */
  lemma RenameLeavesOtherKeys(store: Store, oldKey: string, newKey: string, k: string, n: string)
    requires store.Some?
    requires k != oldKey && k != newKey
    requires n in store.value && !IsJsonFile(n)
    ensures Entry(RenameCacheFile(store, oldKey, newKey, false).store, k) == Entry(store, k)
    ensures var o := RenameCacheFile(store, oldKey, newKey, false).store;
            o.Some? && n in o.value && o.value[n] == store.value[n]
  {
    JsonNameInjective(k, oldKey);
    JsonNameInjective(k, newKey);
    StemOfJsonName(oldKey);
    StemOfJsonName(newKey);
  }

  predicate IsJsonFile(name: string) {
    '.' in name && PathExtension(name) == "json"
  }

  /** A `.json` file is the file of its stem. */
  lemma JsonFileOfStem(name: string)
    requires IsJsonFile(name)
    ensures JsonName(PathStem(name)) == name
  {
    DottedNameSplits(name);
    var stem := PathStem(name);
    assert stem + "." + "json" == stem + ".json";
  }

  /** A key's file is a `.json` file whose stem is the key. */
  lemma StemOfJsonName(key: string)
    ensures IsJsonFile(JsonName(key)) && PathStem(JsonName(key)) == key
  {
    StemOfDottedName(key, "json");
    assert key + "." + "json" == JsonName(key);
    assert JsonName(key)[|key|] == '.';
  }

  /** `getCacheFilenames()`: the stems of the `.json` files, in the order
      `contents` (`contentsOfDirectory(at:)`) lists the directory. */
  function GetCacheFilenames(store: Store, contents: Directory -> seq<string>, onQueue: bool): (o: Outcome<seq<string>>)
    ensures o.store == store
    ensures onQueue ==> o.result == Failure(Deadlock)
    ensures !onQueue && store.None? ==> o.result == Failure(NoCacheFolderFound)
    ensures !onQueue && store.Some? ==> o.result.Success?
    ensures o.result.Success? ==> forall k :: k in o.result.value ==> JsonName(k) in contents(store.value)
  {
    if onQueue then Outcome(store, Failure(Deadlock))
    else
      match store
      case None => Outcome(store, Failure(NoCacheFolderFound))
      case Some(dir) =>
        var names := Filter(contents(dir), IsJsonFile);
        var stems := Map(names, PathStem);
        assert forall k :: k in stems ==> JsonName(k) in contents(dir) by {
          forall k | k in stems
            ensures JsonName(k) in contents(dir)
          {
            var i :| 0 <= i < |stems| && stems[i] == k;
            JsonFileOfStem(names[i]);
          }
        }
        Outcome(store, Success(stems))
  }

  /** When `contents` lists exactly the directory, the listing names exactly
      the keys that have a file. */
  lemma GetCacheFilenamesListsKeys(dir: Directory, contents: Directory -> seq<string>, key: string)
    requires forall n :: n in contents(dir) <==> n in dir
    ensures var o := GetCacheFilenames(Some(dir), contents, false);
            key in o.result.value <==> JsonName(key) in dir
  {
    var names := Filter(contents(dir), IsJsonFile);
    var stems := Map(names, PathStem);
    if JsonName(key) in dir {
      StemOfJsonName(key);
      assert JsonName(key) in names;
      var j :| 0 <= j < |names| && names[j] == JsonName(key);
      assert stems[j] == key;
    }
  }

  /** `clearCacheFile(named:)`: removes only the key's file; a no-op for an
      absent key. */
  function ClearCacheFile(store: Store, key: string, onQueue: bool): (o: Outcome<()>)
    ensures onQueue ==> o == Outcome(store, Failure(Deadlock))
    ensures !onQueue && store.None? ==> o == Outcome(store, Failure(NoCacheFolderFound))
    ensures !onQueue && store.Some? ==> o == Outcome(Some(DeleteFile(store.value, key)), Success(()))
  {
    if onQueue then Outcome(store, Failure(Deadlock))
    else
      match store
      case None => Outcome(store, Failure(NoCacheFolderFound))
      case Some(dir) => Outcome(Some(DeleteFile(dir, key)), Success(()))
  }

  /** The body `clearAllCacheFiles()` runs on the queue: list the keys, then
      delete each. `listingOnQueue` says whether the listing is requested
      while the queue is held. */
  function ClearAllBody(store: Store, contents: Directory -> seq<string>, listingOnQueue: bool): (o: Outcome<()>)
    ensures listingOnQueue ==> o == Outcome(store, Failure(Deadlock))
  {
    var listing := GetCacheFilenames(store, contents, listingOnQueue);
    match listing.result
    case Failure(e) => Outcome(store, Failure(e))
    case Success(keys) => Outcome(Some(DeleteAll(store.value, keys)), Success(()))
  }

  /** `clearAllCacheFiles()` as written: inside its own `serialQueue.sync` it
      calls `getCacheFilenames()`, which syncs on the same queue again. */
  function ClearAllCacheFiles(store: Store, contents: Directory -> seq<string>, onQueue: bool): (o: Outcome<()>)
    ensures o.store == store
    ensures o.result == Failure(Deadlock)
  {
    if onQueue then Outcome(store, Failure(Deadlock))
    else ClearAllBody(store, contents, true)
  }

  /** Deleting the files of several keys, one after the other. */
  function DeleteAll(dir: Directory, keys: seq<string>): (r: Directory)
    ensures r.Keys == dir.Keys - set k | k in keys :: JsonName(k)
    ensures forall n :: n in r ==> r[n] == dir[n]
  {
    if |keys| == 0 then dir
    else
      var r := DeleteAll(DeleteFile(dir, keys[0]), keys[1..]);
      assert forall k :: k in keys <==> k == keys[0] || k in keys[1..];
      r
  }

  /** `clearAllCacheFiles()` with the listing taken on the queue it already
      holds, as evidently intended. */
  function ClearAllCacheFilesFixed(store: Store, contents: Directory -> seq<string>, onQueue: bool): (o: Outcome<()>)
    ensures onQueue ==> o == Outcome(store, Failure(Deadlock))
    ensures !onQueue && store.None? ==> o == Outcome(store, Failure(NoCacheFolderFound))
    ensures !onQueue && store.Some? ==> o.result.Success?
  {
    if onQueue then Outcome(store, Failure(Deadlock))
    else ClearAllBody(store, contents, false)
  }

  /** The corrected call leaves no `.json` file behind and keeps every other
      file. */
  lemma ClearAllFixedEmptiesStore(dir: Directory, contents: Directory -> seq<string>)
    requires forall n :: n in contents(dir) <==> n in dir
    ensures var o := ClearAllCacheFilesFixed(Some(dir), contents, false);
            o.store.Some?
            && (forall n :: n in o.store.value ==> !IsJsonFile(n) && o.store.value[n] == dir[n])
            && (forall n :: n in dir && !IsJsonFile(n) ==> n in o.store.value)
  {
    var o := ClearAllCacheFilesFixed(Some(dir), contents, false);
    var keys := GetCacheFilenames(Some(dir), contents, false).result.value;
    assert o.store == Some(DeleteAll(dir, keys));
    forall n | n in o.store.value
      ensures !IsJsonFile(n)
    {
      if IsJsonFile(n) {
        JsonFileOfStem(n);
        GetCacheFilenamesListsKeys(dir, contents, PathStem(n));
      }
    }
    forall n | n in dir && !IsJsonFile(n)
      ensures n in o.store.value
    {
      forall k | k in keys
        ensures JsonName(k) != n
      {
        StemOfJsonName(k);
      }
    }
  }

  /** A saved file reads back as the saved bytes, with the save's date. */
  lemma SaveThenGet(store: Store, key: string, data: Bytes, now: Date)
    requires store.Some?
    ensures var saved := SaveCacheFile(store, key, Some(data), now, false).store;
            GetCachedData(saved, key, false).result == Success(Some(data))
            && GetCacheDate(saved, key, false).result == Success(Some(now))
  {
  }

  /** Saving touches no other key. */
  lemma SaveLeavesOtherKeys(store: Store, key: string, other: string, source: Option<Bytes>, now: Date)
    requires store.Some? && other != key
    ensures Entry(SaveCacheFile(store, key, source, now, false).store, other) == Entry(store, other)
  {
    JsonNameInjective(other, key);
  }

  /** Saving from a missing download still deletes the key's previous file. */
  lemma SaveFromMissingSourceLosesEntry(store: Store, key: string, now: Date)
    requires store.Some?
    ensures var o := SaveCacheFile(store, key, None, now, false);
            o.result.Failure? && Entry(o.store, key).None?
  {
  }

  /** Clearing touches no other key, and clearing an absent key changes
      nothing. */
  lemma ClearLeavesOtherKeys(store: Store, key: string, other: string)
    requires store.Some?
    ensures other != key ==> Entry(ClearCacheFile(store, key, false).store, other) == Entry(store, other)
    ensures Entry(store, key).None? ==> ClearCacheFile(store, key, false).store == store
  {
    JsonNameInjective(other, key);
    if Entry(store, key).None? {
      assert DeleteFile(store.value, key) == store.value;
    }
  }

  /** Renaming a missing key fails, but the newKey key's file is gone already. */
  lemma RenameMissingLosesTarget(store: Store, oldKey: string, newKey: string)
    requires store.Some? && Entry(store, oldKey).None?
    ensures var o := RenameCacheFile(store, oldKey, newKey, false);
            o.result.Failure? && Entry(o.store, newKey).None?
  {
  }

  /** Renaming a key onto itself deletes it. */
  lemma RenameToSelfLosesEntry(store: Store, key: string)
    requires store.Some?
    ensures var o := RenameCacheFile(store, key, key, false);
            o.result.Failure? && Entry(o.store, key).None?
  {
  }

  /** No call of the manager that re-enters its own queue returns. */
  lemma ClearAllNeverClears(store: Store, contents: Directory -> seq<string>)
    ensures ClearAllCacheFiles(store, contents, false) == Outcome(store, Failure(Deadlock))
  {
  }
}

=== FILE: core_models.dfy ===
/** The domain records of the shared core package and how they are built from
    the response records: a departure with its messages, and a stop location. */
module CoreModels {
  import opened Wrappers
  import opened TransportCategories
  import opened ServerDates
  import opened Urls
  import opened Seqs
  import R = CoreResponses

  datatype Message = Message(
    isActive: bool,
    header: string,
    text: string,
    urlDescription: Option<string>,
    url: Option<Url>)

  datatype Departure = Departure(
    name: string,
    stop: string,
    stopId: string,
    category: TransportCategory,
    lineId: string,
    scheduledTime: Option<Date>,
    realTime: Option<Date>,
    isCancelled: bool,
    isReachable: bool,
    direction: string,
    directionId: string,
    messages: seq<Message>)

  /** `Departure.time`: the real-time estimate when there is one, the
      timetable time otherwise. */
  function Time(d: Departure): (t: Option<Date>)
    ensures t.None? <==> d.realTime.None? && d.scheduledTime.None?
    ensures t.Some? ==> t == d.realTime || t == d.scheduledTime
    ensures d.realTime.Some? ==> t == d.realTime
  {
    if d.realTime.Some? then d.realTime else d.scheduledTime
  }

  /** Everything `Departure.init?(_:)` insists on: name, a first product with
      `catOut` and `line`, stop, stop id, direction, and a direction id in the
      journey reference. */
  predicate HasRequiredFields(r: R.DepartureResponse) {
    && r.name.Some?
    && r.product.Some? && |r.product.value| > 0
    && r.stop.Some?
    && r.stopid.Some?
    && r.product.value[0].catOut.Some?
    && r.product.value[0].line.Some?
    && r.direction.Some?
    && R.DirectionId(r).Some?
  }

  /** A channel whose url list is present and not empty. */
  predicate HasUrls(c: R.ChannelResponse) {
    |c.url.GetOr([])| > 0
  }

  /** An url entry whose url is present and not empty. */
  predicate HasUrlText(u: R.UrlResponse) {
    |u.url.GetOr("")| > 0
  }

  /** The url entry a message links to: the first entry with a url in the
      first channel that has entries at all. */
  function MessageLink(m: R.MessageResponse): (u: Option<R.UrlResponse>)
    ensures u.Some? ==> HasUrlText(u.value)
    ensures u.Some? ==> exists c :: Some(c) == FirstWhere(m.channel.GetOr([]), HasUrls) && u.value in c.url.value
  {
    match FirstWhere(m.channel.GetOr([]), HasUrls)
    case None => None
    case Some(c) => FirstWhere(c.url.value, HasUrlText)
  }

  /** One entry of `getMessages()`, with `parseUrl` for `URL(string:)`. */
  function MessageOf(m: R.MessageResponse, parseUrl: string -> Option<Url>): (msg: Message)
    ensures msg.isActive == m.act.GetOr(false)
    ensures msg.header == m.head.GetOr("") && msg.text == m.text.GetOr("")
    ensures MessageLink(m).None? ==> msg.urlDescription.None? && msg.url.None?
    ensures MessageLink(m).Some? ==>
              msg.urlDescription == MessageLink(m).value.name && msg.url == parseUrl(MessageLink(m).value.url.value)
  {
    var link := MessageLink(m);
    Message(
      m.act.GetOr(false),
      m.head.GetOr(""),
      m.text.GetOr(""),
      if link.Some? then link.value.name else None,
      if link.Some? then parseUrl(link.value.url.value) else None)
  }

  /** `getMessages()`: one message per entry of the messages block, none when
      the block or its list is missing. */
  function GetMessages(r: R.DepartureResponse, parseUrl: string -> Option<Url>): (ms: seq<Message>)
    ensures r.messages.None? || r.messages.value.message.None? ==> ms == []
    ensures r.messages.Some? && r.messages.value.message.Some? ==>
              |ms| == |r.messages.value.message.value|
              && forall i :: 0 <= i < |ms| ==> ms[i] == MessageOf(r.messages.value.message.value[i], parseUrl)
  {
    match r.messages
    case None => []
    case Some(block) =>
      match block.message
      case None => []
      case Some(list) => Map(list, m => MessageOf(m, parseUrl))
  }

  /** A message with no flags, texts or channels reads as inactive, with
      empty header and text and no link. */
  lemma MessageDefaults(m: R.MessageResponse, parseUrl: string -> Option<Url>)
    requires m.act.None? && m.head.None? && m.text.None?
    requires forall i :: 0 <= i < |m.channel.GetOr([])| ==> !HasUrls(m.channel.GetOr([])[i])
    ensures MessageOf(m, parseUrl) == Message(false, "", "", None, None)
  {
  }

  /** The link comes from the first entry with a url text in the first
      channel with entries: earlier channels without entries are skipped. */
  lemma MessageLinkFound(m: R.MessageResponse, quiet: seq<R.ChannelResponse>, c: R.ChannelResponse,
                         blank: seq<R.UrlResponse>, u: R.UrlResponse, rest: seq<R.UrlResponse>,
                         others: seq<R.ChannelResponse>)
    requires forall i :: 0 <= i < |quiet| ==> !HasUrls(quiet[i])
    requires forall i :: 0 <= i < |blank| ==> !HasUrlText(blank[i])
    requires HasUrlText(u)
    requires c.url == Some(blank + [u] + rest)
    requires m.channel == Some(quiet + [c] + others)
    ensures MessageLink(m) == Some(u)
  {
    assert HasUrls(c) by {
      assert |blank + [u] + rest| > 0;
    }
    FirstWhereFinds(quiet, c, others, HasUrls);
    FirstWhereFinds(blank, u, rest, HasUrlText);
  }

  /** Only the first channel with entries is consulted: when none of its
      entries has a url text there is no link, whatever later channels hold. */
  lemma MessageLinkStopsAtFirstChannel(m: R.MessageResponse, quiet: seq<R.ChannelResponse>, c: R.ChannelResponse,
                                       others: seq<R.ChannelResponse>)
    requires forall i :: 0 <= i < |quiet| ==> !HasUrls(quiet[i])
    requires HasUrls(c)
    requires forall i :: 0 <= i < |c.url.value| ==> !HasUrlText(c.url.value[i])
    requires m.channel == Some(quiet + [c] + others)
    ensures MessageLink(m) == None
  {
    FirstWhereFinds(quiet, c, others, HasUrls);
  }

  /** `Departure.init?(_:)`, with `parseDate` for the server date formatter
      and `parseUrl` for `URL(string:)`. */
  function FromResponse(r: R.DepartureResponse, parseDate: string -> Option<Date>, parseUrl: string -> Option<Url>)
    : (d: Option<Departure>)
    ensures d.Some? <==> HasRequiredFields(r)
    ensures d.Some? ==>
              && d.value.name == r.name.value
              && d.value.stop == r.stop.value
              && d.value.stopId == r.stopid.value
              && d.value.lineId == r.product.value[0].line.value
              && d.value.direction == r.direction.value
              && d.value.directionId == R.DirectionId(r).value
    ensures d.Some? ==> d.value.category == CategoryOrUnknown(r.product.value[0].catOut.value)
    ensures d.Some? ==> d.value.scheduledTime == ServerDate(r.date, r.time, parseDate)
                        && d.value.realTime == ServerDate(r.rtDate, r.rtTime, parseDate)
    ensures d.Some? ==> d.value.isCancelled == r.cancelled.GetOr(false)
                        && d.value.isReachable == r.reachable.GetOr(true)
    ensures d.Some? ==> d.value.messages == GetMessages(r, parseUrl)
  {
    if !HasRequiredFields(r) then None
    else
      var product := r.product.value[0];
      Some(Departure(
        r.name.value,
        r.stop.value,
        r.stopid.value,
        CategoryOrUnknown(product.catOut.value),
        product.line.value,
        ServerDate(r.date, r.time, parseDate),
        ServerDate(r.rtDate, r.rtTime, parseDate),
        r.cancelled.GetOr(false),
        r.reachable.GetOr(true),
        r.direction.value,
        R.DirectionId(r).value,
        GetMessages(r, parseUrl)))
  }

  /** An empty product list, as in the unit tests, makes the mapping fail. */
  lemma NoProductNoDeparture(r: R.DepartureResponse, parseDate: string -> Option<Date>, parseUrl: string -> Option<Url>)
    requires r.product == Some([])
    ensures FromResponse(r, parseDate, parseUrl).None?
  {
  }

  /** A `catOut` that names no category maps to `.unknown`. */
  lemma UnrecognisedCategoryIsUnknown(r: R.DepartureResponse, parseDate: string -> Option<Date>, parseUrl: string -> Option<Url>)
    requires HasRequiredFields(r)
    requires forall c :: RawValue(c) != r.product.value[0].catOut.value
    ensures FromResponse(r, parseDate, parseUrl).value.category == Unknown
  {
  }

  /** Without flags a departure is neither cancelled nor unreachable. */
  lemma FlagDefaults(r: R.DepartureResponse, parseDate: string -> Option<Date>, parseUrl: string -> Option<Url>)
    requires HasRequiredFields(r) && r.cancelled.None? && r.reachable.None?
    ensures !FromResponse(r, parseDate, parseUrl).value.isCancelled
    ensures FromResponse(r, parseDate, parseUrl).value.isReachable
  {
  }

  /** The line id is the product's `line`; its `lineId` field plays no part. */
  lemma LineIdIgnoresProductLineId(r: R.DepartureResponse, other: Option<string>,
                                   parseDate: string -> Option<Date>, parseUrl: string -> Option<Url>)
    requires r.product.Some? && |r.product.value| > 0
    ensures var p := r.product.value[0];
            var r' := r.(product := Some(r.product.value[0 := p.(lineId := other)]));
            FromResponse(r', parseDate, parseUrl) == FromResponse(r, parseDate, parseUrl)
  {
  }

  /** A departure without a date or time string has no timetable time. */
  lemma MissingScheduleHasNoScheduledTime(r: R.DepartureResponse, parseDate: string -> Option<Date>, parseUrl: string -> Option<Url>)
    requires HasRequiredFields(r) && (r.date.None? || r.time.None?)
    ensures FromResponse(r, parseDate, parseUrl).value.scheduledTime.None?
  {
  }

  /** A stop location of the shared core, with optional coordinates. */
  datatype StopLocation = StopLocation(
    locationId: string,
    name: string,
    latitude: Option<real>,
    longitude: Option<real>)

  datatype Coordinate = Coordinate(latitude: real, longitude: real)

  /** `StopLocation.init(locationId:name:latitude:longitude:)`, coordinates
      defaulting to nil. */
  function MakeStopLocation(locationId: string, name: string,
                            latitude: Option<real> := None, longitude: Option<real> := None): (s: StopLocation)
    ensures s.locationId == locationId && s.name == name
    ensures s.latitude == latitude && s.longitude == longitude
  {
    StopLocation(locationId, name, latitude, longitude)
  }

  /** `StopLocation.location`: a coordinate only when both halves are known. */
  function Location(s: StopLocation): (l: Option<Coordinate>)
    ensures l.Some? <==> s.latitude.Some? && s.longitude.Some?
    ensures l.Some? ==> l.value.latitude == s.latitude.value && l.value.longitude == s.longitude.value
  {
    match (s.latitude, s.longitude)
    case (Some(lat), Some(lon)) => Some(Coordinate(lat, lon))
    case _ => None
  }

  /** A stop made without coordinates has no location. */
  lemma DefaultStopHasNoLocation(locationId: string, name: string)
    ensures Location(MakeStopLocation(locationId, name)).None?
  {
  }

  /** `StopLocation.init?(_:)`: needs `extId` and name, takes the location id
      from `extId`, and copies the coordinates. */
  function StopFromResponse(r: R.StopLocationResponse): (s: Option<StopLocation>)
    ensures s.Some? <==> r.extId.Some? && r.name.Some?
    ensures s.Some? ==> s.value.locationId == r.extId.value && s.value.name == r.name.value
    ensures s.Some? ==> s.value.latitude == r.lat && s.value.longitude == r.lon
  {
    match (r.extId, r.name)
    case (Some(extId), Some(name)) => Some(MakeStopLocation(extId, name, r.lat, r.lon))
    case _ => None
  }

  /** The HAFAS id string plays no part in the stop location. */
  lemma StopFromResponseIgnoresId(r: R.StopLocationResponse, id: Option<string>)
    ensures StopFromResponse(r.(id := id)) == StopFromResponse(r)
  {
  }

  /** `sortedByDistance(from:)`. The distance ordering used when a location is
      given is the parameter `byDistance`. */
  function SortedByDistance(stops: seq<StopLocation>, from: Option<Coordinate>,
                            byDistance: (seq<StopLocation>, Coordinate) -> seq<StopLocation>): (r: seq<StopLocation>)
    ensures from.None? ==> r == stops
    ensures from.Some? ==> r == byDistance(stops, from.value)
  {
    match from
    case None => stops
    case Some(c) => byDistance(stops, c)
  }
}

=== FILE: core_responses.dfy ===
/** The departure-board response records of the shared core package, as far
    as the app reads them, and the two values it extracts from a departure's
    journey reference: the direction stop id after `TO` and the line title
    after `ZB`. Decoding JSON into these records is Foundation's and is not
    part of this model. */
module CoreResponses {
  import opened Wrappers
  import opened Strings
  import opened JourneyRef

  datatype JourneyDetailRefResponse = JourneyDetailRefResponse(ref: Option<string>)

  datatype ProductResponse = ProductResponse(
    name: Option<string>,
    line: Option<string>,
    lineId: Option<string>,
    catOut: Option<string>)

  datatype UrlResponse = UrlResponse(name: Option<string>, url: Option<string>)

  datatype ChannelResponse = ChannelResponse(name: Option<string>, url: Option<seq<UrlResponse>>)

  datatype MessageResponse = MessageResponse(
    id: Option<string>,
    channel: Option<seq<ChannelResponse>>,
    act: Option<bool>,
    head: Option<string>,
    lead: Option<string>,
    text: Option<string>)

  datatype MessagesResponse = MessagesResponse(message: Option<seq<MessageResponse>>)

  datatype DepartureResponse = DepartureResponse(
    journeyDetailRef: Option<JourneyDetailRefResponse>,
    product: Option<seq<ProductResponse>>,
    name: Option<string>,
    stop: Option<string>,
    stopid: Option<string>,
    stopExtId: Option<string>,
    time: Option<string>,
    date: Option<string>,
    rtTime: Option<string>,
    rtDate: Option<string>,
    reachable: Option<bool>,
    cancelled: Option<bool>,
    direction: Option<string>,
    messages: Option<MessagesResponse>)

  /** The stop records of the location search, with the fields the app reads. */
  datatype StopLocationResponse = StopLocationResponse(
    id: Option<string>,
    extId: Option<string>,
    name: Option<string>,
    lon: Option<real>,
    lat: Option<real>)

  /** `journeyDetailRef?.ref`. */
  function Ref(r: DepartureResponse): Option<string>
  {
    match r.journeyDetailRef
    case None => None
    case Some(j) => j.ref
  }

  /** The component after the first `TO` of the journey reference: the Core
      package's copy of `ApiResponses.DirectionId`, over its own response type. */
  function DirectionId(r: DepartureResponse): (d: Option<string>)
    ensures Ref(r).None? ==> d.None?
    ensures d.Some? ==> d.value in RefComponents(Ref(r)) && IsPiece(d.value, '#')
  {
    ComponentAfter(RefComponents(Ref(r)), "TO")
  }

  /** The component after the first `ZB` of the journey reference: the Core
      package's copy of `ApiResponses.Title`, over its own response type. */
  function Title(r: DepartureResponse): (t: Option<string>)
    ensures Ref(r).None? ==> t.None?
    ensures t.Some? ==> t.value in RefComponents(Ref(r)) && IsPiece(t.value, '#')
  {
    ComponentAfter(RefComponents(Ref(r)), "ZB")
  }

  /** A response with only a journey reference, as the unit tests build it. */
  function MockResponse(ref: Option<string>): DepartureResponse
  {
    DepartureResponse(Some(JourneyDetailRefResponse(ref)), Some([]), None, None, None, None,
                      None, None, None, None, None, None, None, None)
  }

  /** A missing reference yields neither value. */
  lemma NilRefYieldsNothing()
    ensures DirectionId(MockResponse(None)) == None
    ensures Title(MockResponse(None)) == None
  {
  }

  lemma RefOfPieces(parts: seq<string>)
    requires forall i :: 0 <= i < |parts| ==> IsPiece(parts[i], '#')
    ensures RefComponents(Some(Terminated(parts, '#'))) == parts
    ensures RefComponents(Some(['#'] + Terminated(parts, '#'))) == parts
  {
    SplitTerminated(parts, '#');
    SplitDropsLeadingSeparator(Terminated(parts, '#'), '#');
  }

  /** The test reference `#ZB#Bus M32#PC#` has the title "Bus M32": the empty
      segments at either end are dropped. */
  lemma TitleOfShortRef()
    ensures Title(MockResponse(Some(['#'] + Terminated(["ZB", "Bus M32", "PC"], '#')))) == Some("Bus M32")
  {
    var parts := ["ZB", "Bus M32", "PC"];
    RefOfPieces(parts);
    ComponentAfterFindsValue([], "ZB", "Bus M32", ["PC"]);
    assert [] + ["ZB", "Bus M32"] + ["PC"] == parts;
  }

  /** The test reference `2|#VN#FT#1331#TO#3000529#TT#` has the direction "3000529". */
  lemma DirectionIdOfShortRef()
    ensures DirectionId(MockResponse(Some(Terminated(["2|", "VN", "FT", "1331", "TO", "3000529", "TT"], '#'))))
            == Some("3000529")
  {
    var parts := ["2|", "VN", "FT", "1331", "TO", "3000529", "TT"];
    assert RefComponents(Some(Terminated(parts, '#'))) == parts by {
      ShortRefPartsArePieces(parts);
      RefOfPieces(parts);
    }
    assert ComponentAfter(parts, "TO") == Some("3000529") by {
      var before, after := ["2|", "VN", "FT", "1331"], ["TT"];
      assert parts == before + ["TO", "3000529"] + after;
      ComponentAfterFindsValue(before, "TO", "3000529", after);
    }
  }

  lemma ShortRefPartsArePieces(parts: seq<string>)
    requires parts == ["2|", "VN", "FT", "1331", "TO", "3000529", "TT"]
    ensures forall i :: 0 <= i < |parts| ==> IsPiece(parts[i], '#')
  {
    forall i | 0 <= i < |parts|
      ensures IsPiece(parts[i], '#')
    {
    }
  }

  /** `#ZB#` has no title and `#TO#` no direction: the key is the last component. */
  lemma KeyInLastPositionYieldsNothing()
    ensures Title(MockResponse(Some(['#'] + Terminated(["ZB"], '#')))) == None
    ensures DirectionId(MockResponse(Some(['#'] + Terminated(["TO"], '#')))) == None
  {
    RefOfPieces(["ZB"]);
    RefOfPieces(["TO"]);
    ComponentAfterLastKey([], "ZB");
    ComponentAfterLastKey([], "TO");
    assert [] + ["ZB"] == ["ZB"];
    assert [] + ["TO"] == ["TO"];
  }

  /** The full reference of the unit tests,
      `2|#VN#1#ST#...#ZE#M32#ZB#Bus M32#PC#6#FR#3001204#FT#1331#TO#3000529#TT#1402#`,
      in three runs around its `ZB` and `TO` entries. */
  function FullMockLead(): seq<string>
  {
    ["2|", "VN", "1", "ST", "1734717291", "PI", "0", "ZI", "54529", "TA",
     "1", "DA", "251224", "1S", "3001204", "1T", "1331", "LS", "3000529",
     "LT", "1402", "PU", "80", "RT", "1", "CA", "1aE", "ZE", "M32"]
  }

  function FullMockMiddle(): seq<string>
  {
    ["PC", "6", "FR", "3001204", "FT", "1331"]
  }

  function FullMockEnd(): seq<string>
  {
    ["TT", "1402"]
  }

  function FullMockParts(): seq<string>
  {
    FullMockLead() + ["ZB", "Bus M32"] + FullMockMiddle() + ["TO", "3000529"] + FullMockEnd()
  }

  lemma AppendAssociative(a: seq<string>, b: seq<string>, c: seq<string>)
    ensures a + b + c == a + (b + c)
  {
  }

  lemma FullMockPartsArePieces()
    ensures forall i :: 0 <= i < |FullMockParts()| ==> IsPiece(FullMockParts()[i], '#')
  {
    var parts := FullMockParts();
    forall i | 0 <= i < |parts|
      ensures IsPiece(parts[i], '#')
    {
    }
  }

  /** On the full reference the title is "Bus M32" ... */
  lemma FullMockTitle()
    ensures Title(MockResponse(Some(Terminated(FullMockParts(), '#')))) == Some("Bus M32")
  {
    FullMockPartsArePieces();
    var rest := FullMockMiddle() + ["TO", "3000529"] + FullMockEnd();
    AppendAssociative(FullMockLead() + ["ZB", "Bus M32"], FullMockMiddle(), ["TO", "3000529"] + FullMockEnd());
    AppendAssociative(FullMockMiddle(), ["TO", "3000529"], FullMockEnd());
    AppendAssociative(FullMockLead() + ["ZB", "Bus M32"] + FullMockMiddle(), ["TO", "3000529"], FullMockEnd());
    ComponentAfterInTerminatedRef(FullMockParts(), FullMockLead(), "ZB", "Bus M32", rest);
  }

  /** ... and the direction is "3000529". */
  lemma FullMockDirectionId()
    ensures DirectionId(MockResponse(Some(Terminated(FullMockParts(), '#')))) == Some("3000529")
  {
    FullMockPartsArePieces();
    var before := FullMockLead() + ["ZB", "Bus M32"] + FullMockMiddle();
    ComponentAfterInTerminatedRef(FullMockParts(), before, "TO", "3000529", FullMockEnd());
  }
}

=== FILE: deep_link.dfy ===
/** The app side of the widget link: `URL.getStopScheduleParameters()` reads
    the stop and the trips back out of a `gotostop://widget` link. Its trip
    reading is stricter than the widget's own: the category must be known. */
module DeepLinks {
  import opened Wrappers
  import opened Strings
  import opened Seqs
  import opened Urls
  import opened TransportCategories
  import opened ScheduleItems
  import IP = IntentParameters
  import Api = ApiModels
  import Core = CoreModels
  import W = WidgetEntries

  datatype StopScheduleParameters = StopScheduleParameters(stopLocation: Api.StopLocation, tripItems: seq<TripItem>)

  /** The app's private `Trip.init?(_ string:)`: five `#`-separated pieces and
      a known category, with no fallback. */
  function StrictTrip(s: string): (t: Option<Api.Trip>)
    ensures t.Some? <==> |Split(s, '#')| == 5 && FromRawValue(Split(s, '#')[2]).Some?
    ensures t.Some? ==>
              var parts := Split(s, '#');
              && t.value.name == parts[0] && t.value.direction == parts[1]
              && RawValue(t.value.category) == parts[2]
              && t.value.lineId == parts[3] && t.value.directionId == parts[4]
  {
    var parts := Split(s, '#');
    if |parts| != 5 then None
    else match FromRawValue(parts[2])
      case None => None
      case Some(category) => Some(Api.Trip(parts[0], parts[1], category, parts[3], parts[4]))
  }

  /** Whatever the app accepts, the widget accepts too, with the same fields. */
  lemma StrictTripImpliesWidgetTrip(s: string)
    requires StrictTrip(s).Some?
    ensures var t := IP.TripFromIdentifier(s);
            && t.Some? && t.value.name == StrictTrip(s).value.name
            && t.value.direction == StrictTrip(s).value.direction
            && t.value.category == StrictTrip(s).value.category
            && t.value.lineId == StrictTrip(s).value.lineId
            && t.value.directionId == StrictTrip(s).value.directionId
  {
    var c := StrictTrip(s).value.category;
    RawValueRoundTrip(c);
  }

  /** The widget reads an unknown category as `.unknown`; the app drops it. */
  lemma UnknownCategoryOnlyWidgetAccepts(name: string, direction: string, category: string, lineId: string, directionId: string)
    requires IP.Serialisable(name) && IP.Serialisable(direction) && IP.Serialisable(category)
    requires IP.Serialisable(lineId) && IP.Serialisable(directionId)
    requires FromRawValue(category).None?
    ensures var s := Join([name, direction, category, lineId, directionId], '#');
            StrictTrip(s).None? && IP.TripFromIdentifier(s).Some?
  {
    SplitJoin([name, direction, category, lineId, directionId], '#');
  }

  function ItemValue(q: QueryItem): Option<string> {
    q.value
  }

  /** The values of the `trip` items, in order; items without a value are
      skipped. */
  function LinkValues(items: seq<QueryItem>): seq<string> {
    CompactMap(AllNamed(items, "trip"), ItemValue)
  }

  /** The trips of a link: every `trip` value, in order, that the app can
      read; the others are dropped without notice. */
  function LinkTrips(items: seq<QueryItem>): seq<Api.Trip> {
    CompactMap(LinkValues(items), StrictTrip)
  }

  lemma LinkValuesAppend(a: seq<QueryItem>, b: seq<QueryItem>)
    ensures LinkValues(a + b) == LinkValues(a) + LinkValues(b)
  {
    AllNamedAppend(a, b, "trip");
    CompactMapAppend(AllNamed(a, "trip"), AllNamed(b, "trip"), ItemValue);
  }

  /** Every trip read from a link comes from one of its `trip` items. */
  lemma LinkTripFromItem(items: seq<QueryItem>, t: Api.Trip)
    requires t in LinkTrips(items)
    ensures exists s :: StrictTrip(s) == Some(t) && QueryItem("trip", Some(s)) in items
  {
    var values := LinkValues(items);
    var named := AllNamed(items, "trip");
    var i :| 0 <= i < |values| && StrictTrip(values[i]) == Some(t);
    assert values[i] in values;
    var j :| 0 <= j < |named| && ItemValue(named[j]) == Some(values[i]);
    assert named[j] == QueryItem("trip", Some(values[i]));
  }

  lemma LinkValuesOfOne(s: string)
    ensures LinkValues([QueryItem("trip", Some(s))]) == [s]
  {
    var q := [QueryItem("trip", Some(s))];
    assert q[1..] == [];
    assert AllNamed(q, "trip") == q;
    assert CompactMap(q, ItemValue) == [s] by {
      assert ItemValue(q[0]) == Some(s);
    }
  }

  lemma UnreadableValueDropped(s: string)
    requires StrictTrip(s).None?
    ensures CompactMap([s], StrictTrip) == []
  {
    assert [s][1..] == [];
  }

  /** A trip item the app cannot read leaves the other trips as they are. */
  lemma UnreadableTripDropped(before: seq<QueryItem>, s: string, after: seq<QueryItem>)
    requires StrictTrip(s).None?
    ensures LinkTrips(before + [QueryItem("trip", Some(s))] + after) == LinkTrips(before + after)
  {
    var q := [QueryItem("trip", Some(s))];
    var va, vb := LinkValues(before), LinkValues(after);
    assert LinkValues(before + q + after) == va + [s] + vb by {
      LinkValuesAppend(before + q, after);
      LinkValuesAppend(before, q);
      LinkValuesOfOne(s);
    }
    assert LinkValues(before + after) == va + vb by {
      LinkValuesAppend(before, after);
    }
    CompactMapAppend(va + [s], vb, StrictTrip);
    CompactMapAppend(va, [s], StrictTrip);
    CompactMapAppend(va, vb, StrictTrip);
    UnreadableValueDropped(s);
  }

  /** `TripItem(trip: .init(category:lineId:name:direction:directionId:))`
      for each trip, each with a fresh identifier. */
  function NumberTrips(trips: seq<Api.Trip>, nextId: nat): (items: seq<TripItem>)
    ensures |items| == |trips|
    ensures forall i :: 0 <= i < |trips| ==> items[i].id == nextId + i
    ensures forall i :: 0 <= i < |trips| ==>
              items[i].trip == TripValue(trips[i].category, trips[i].lineId, trips[i].name,
                                         trips[i].direction, trips[i].directionId)
    decreases |trips|
  {
    if |trips| == 0 then []
    else
      var t := trips[0];
      [TripItem(nextId, TripValue(t.category, t.lineId, t.name, t.direction, t.directionId))]
      + NumberTrips(trips[1..], nextId + 1)
  }

  /** `URL.getStopScheduleParameters()`: nothing unless the link has query
      items and its first `stop` item has a value of exactly two `#`-pieces. */
  function GetStopScheduleParameters(url: Url, nextId: nat): (p: Option<StopScheduleParameters>)
    ensures p.Some? <==>
              && url.components.Some? && url.components.value.queryItems.Some?
              && |url.components.value.queryItems.value| > 0
              && ValueNamed(url.components.value.queryItems.value, "stop").Some?
              && |Split(ValueNamed(url.components.value.queryItems.value, "stop").value, '#')| == 2
    ensures p.Some? ==>
              var items := url.components.value.queryItems.value;
              var parts := Split(ValueNamed(items, "stop").value, '#');
              && p.value.stopLocation == Api.StopLocation(parts[0], parts[1])
              && p.value.tripItems == NumberTrips(LinkTrips(items), nextId)
  {
    match url.components
    case None => None
    case Some(components) =>
      match components.queryItems
      case None => None
      case Some(items) =>
        if |items| == 0 then None
        else match ValueNamed(items, "stop")
          case None => None
          case Some(stopString) =>
            var parts := Split(stopString, '#');
            if |parts| != 2 then None
            else Some(StopScheduleParameters(Api.StopLocation(parts[0], parts[1]), NumberTrips(LinkTrips(items), nextId)))
  }

  /** The trips the widget was configured with, as the widget makes them. */
  function WidgetTrips(departures: seq<Core.Departure>): (trips: seq<IP.Trip>)
    ensures |trips| == |departures|
    ensures forall i :: 0 <= i < |departures| ==> trips[i] == IP.TripOf(departures[i])
  {
    Map(departures, IP.TripOf)
  }

  predicate SerialisableDeparture(d: Core.Departure) {
    IP.Serialisable(d.name) && IP.Serialisable(d.direction) && IP.Serialisable(d.lineId) && IP.Serialisable(d.directionId)
  }

  lemma TripIdReadBack(d: Core.Departure)
    requires SerialisableDeparture(d)
    ensures StrictTrip(IP.TripOf(d).id) == Some(Api.Trip(d.name, d.direction, d.category, d.lineId, d.directionId))
  {
    IP.RawValueIsPiece(d.category);
    SplitJoin(IP.TripFields(d), '#');
    RawValueRoundTrip(d.category);
  }

  /** The stop item of the widget's link reads back as its stop. */
  lemma WidgetLinkStop(stop: Api.StopLocation, tripItems: seq<QueryItem>)
    requires IP.Serialisable(stop.locationId) && IP.Serialisable(stop.name)
    ensures var items := [QueryItem("stop", Some(IP.StopOf(stop).id))] + tripItems;
            && ValueNamed(items, "stop") == Some(IP.StopOf(stop).id)
            && Split(IP.StopOf(stop).id, '#') == [stop.locationId, stop.name]
  {
    var items := [QueryItem("stop", Some(IP.StopOf(stop).id))] + tripItems;
    assert FirstNamed(items, "stop") == Some(items[0]);
    SplitJoin([stop.locationId, stop.name], '#');
  }

  lemma LinkValuesOfOther(first: QueryItem)
    requires first.name != "trip"
    ensures LinkValues([first]) == []
  {
    assert [first][1..] == [];
    assert AllNamed([first], "trip") == [];
  }

  /** The values of the widget's trip items are the trips' identifiers. */
  lemma WidgetLinkValues(trips: seq<IP.Trip>)
    ensures |LinkValues(Map(trips, W.TripQueryItem))| == |trips|
    ensures forall i :: 0 <= i < |trips| ==> LinkValues(Map(trips, W.TripQueryItem))[i] == trips[i].id
  {
    var tripItems := Map(trips, W.TripQueryItem);
    AllNamedOfUniform(tripItems, "trip");
    CompactMapAllSome(tripItems, ItemValue);
  }

  /** The trip items of the widget's link read back, in order, as the
      departures' trips. */
  lemma WidgetLinkTrips(first: QueryItem, departures: seq<Core.Departure>)
    requires first.name != "trip"
    requires forall i :: 0 <= i < |departures| ==> SerialisableDeparture(departures[i])
    ensures var trips := LinkTrips([first] + Map(WidgetTrips(departures), W.TripQueryItem));
            && |trips| == |departures|
            && forall i :: 0 <= i < |departures| ==>
                 trips[i] == Api.Trip(departures[i].name, departures[i].direction, departures[i].category,
                                      departures[i].lineId, departures[i].directionId)
  {
    var tripItems := Map(WidgetTrips(departures), W.TripQueryItem);
    var values := LinkValues(tripItems);
    assert LinkValues([first] + tripItems) == values by {
      LinkValuesAppend([first], tripItems);
      LinkValuesOfOther(first);
    }
    WidgetLinkValues(WidgetTrips(departures));
    forall i | 0 <= i < |values|
      ensures StrictTrip(values[i]) == Some(Api.Trip(departures[i].name, departures[i].direction, departures[i].category,
                                                     departures[i].lineId, departures[i].directionId))
    {
      TripIdReadBack(departures[i]);
    }
    CompactMapAllSome(values, StrictTrip);
  }

  /** Opening the widget's link recovers its stop and, in order, the trip of
      every departure it was configured with, when no field is empty or
      contains `#`. */
  lemma WidgetLinkRoundTrip(stop: Api.StopLocation, departures: seq<Core.Departure>, date: int,
                            data: W.WidgetData, nextId: nat)
    requires IP.Serialisable(stop.locationId) && IP.Serialisable(stop.name)
    requires forall i :: 0 <= i < |departures| ==> SerialisableDeparture(departures[i])
    ensures var entry := W.MakeEntry(date, data, Some(IP.StopOf(stop)), WidgetTrips(departures));
            var p := GetStopScheduleParameters(W.MakeWidgetUrl(entry).value, nextId);
            && p.Some? && p.value.stopLocation == stop
            && |p.value.tripItems| == |departures|
            && forall i :: 0 <= i < |departures| ==> p.value.tripItems[i] == TripItem(nextId + i, TripValueOf(departures[i]))
  {
    var s := IP.StopOf(stop);
    var items := W.WidgetQueryItems(Some(s), WidgetTrips(departures));
    WidgetLinkItems(stop, departures);
    var entry := W.MakeEntry(date, data, Some(s), WidgetTrips(departures));
    var trips := Map(departures, LinkTripOf);
    ParametersOfItems(W.MakeWidgetUrl(entry).value, items, s.id, stop, trips, nextId);
    NumberLinkTrips(departures, nextId);
  }

  /** The trip the app reads back from a departure's trip item. */
  function LinkTripOf(d: Core.Departure): Api.Trip {
    Api.Trip(d.name, d.direction, d.category, d.lineId, d.directionId)
  }

  /** The widget link's items carry the stop's id first and read back as the
      departures' trips. */
  lemma WidgetLinkItems(stop: Api.StopLocation, departures: seq<Core.Departure>)
    requires IP.Serialisable(stop.locationId) && IP.Serialisable(stop.name)
    requires forall i :: 0 <= i < |departures| ==> SerialisableDeparture(departures[i])
    ensures var items := W.WidgetQueryItems(Some(IP.StopOf(stop)), WidgetTrips(departures));
            && ValueNamed(items, "stop") == Some(IP.StopOf(stop).id)
            && Split(IP.StopOf(stop).id, '#') == [stop.locationId, stop.name]
            && LinkTrips(items) == Map(departures, LinkTripOf)
  {
    var s := IP.StopOf(stop);
    var first := QueryItem("stop", Some(s.id));
    var tripItems := Map(WidgetTrips(departures), W.TripQueryItem);
    var items := W.WidgetQueryItems(Some(s), WidgetTrips(departures));
    assert items == [first] + tripItems;
    WidgetLinkStop(stop, tripItems);
    WidgetLinkTrips(first, departures);
  }

  /** Numbering the trips read back gives each departure's trip its id. */
  lemma NumberLinkTrips(departures: seq<Core.Departure>, nextId: nat)
    ensures var items := NumberTrips(Map(departures, LinkTripOf), nextId);
            && |items| == |departures|
            && forall i :: 0 <= i < |departures| ==> items[i] == TripItem(nextId + i, TripValueOf(departures[i]))
  {
  }

  /** A link whose stop value splits into the stop's two fields opens that
      stop with the link's readable trips. */
  lemma ParametersOfItems(url: Url, items: seq<QueryItem>, stopId: string, stop: Api.StopLocation,
                          trips: seq<Api.Trip>, nextId: nat)
    requires url.components.Some? && url.components.value.queryItems == Some(items)
    requires ValueNamed(items, "stop") == Some(stopId)
    requires Split(stopId, '#') == [stop.locationId, stop.name]
    requires LinkTrips(items) == trips
    ensures GetStopScheduleParameters(url, nextId) == Some(StopScheduleParameters(stop, NumberTrips(trips, nextId)))
  {
  }

  /** A link without a stop opens nothing, whatever trips it carries. */
  lemma NoStopNoSchedule(date: int, data: W.WidgetData, trips: seq<IP.Trip>, nextId: nat)
    ensures GetStopScheduleParameters(W.MakeWidgetUrl(W.MakeEntry(date, data, None, trips)).value, nextId).None?
  {
    var items := W.WidgetQueryItems(None, trips);
    assert FirstNamed(items, "stop").None?;
  }
}

=== FILE: file_system.dfy ===
/** A directory of files as Foundation's `FileManager` presents it: file names
    mapped to contents and creation dates, and the three changes the app makes
    to it. `moveItem` and `copyItem` refuse a missing source and an existing
    destination; `removeItem` refuses a missing file. */
module FileSystem {
  import opened Wrappers
  import opened ServerDates

  type Bytes = seq<bv8>

  datatype File = File(data: Bytes, created: Date)

  type Directory = map<string, File>

  datatype FileError = NoSuchFile | FileExists

  /** `removeItem(at:)`. */
  function RemoveItem(dir: Directory, name: string): (r: Result<Directory, FileError>)
    ensures r.Failure? <==> name !in dir
    ensures r.Success? ==> r.value.Keys == dir.Keys - {name}
    ensures r.Success? ==> forall n :: n in r.value ==> r.value[n] == dir[n]
  {
    if name in dir then Success(map n | n in dir && n != name :: dir[n]) else Failure(NoSuchFile)
  }

  /** `moveItem(at:to:)` within one directory: the file keeps its contents and
      creation date under its new name. */
  function MoveItem(dir: Directory, from: string, to: string): (r: Result<Directory, FileError>)
    ensures r.Failure? <==> from !in dir || to in dir
    ensures r.Success? ==> r.value.Keys == dir.Keys - {from} + {to}
    ensures r.Success? ==> r.value[to] == dir[from]
    ensures r.Success? ==> forall n :: n in r.value && n != to ==> r.value[n] == dir[n]
  {
    if from !in dir then Failure(NoSuchFile)
    else if to in dir then Failure(FileExists)
    else Success((map n | n in dir && n != from :: dir[n])[to := dir[from]])
  }

  /** `copyItem(at:to:)` of a file from elsewhere (`source`, missing when
      `None`); the copy is created at time `now`. */
  function CopyItem(dir: Directory, source: Option<Bytes>, to: string, now: Date): (r: Result<Directory, FileError>)
    ensures r.Failure? <==> source.None? || to in dir
    ensures r.Success? ==> r.value == dir[to := File(source.value, now)]
  {
    if source.None? then Failure(NoSuchFile)
    else if to in dir then Failure(FileExists)
    else Success(dir[to := File(source.value, now)])
  }

  /** Moving a file away and back restores the directory. */
  lemma MoveItemBack(dir: Directory, from: string, to: string)
    requires MoveItem(dir, from, to).Success?
    ensures MoveItem(MoveItem(dir, from, to).value, to, from) == Success(dir)
  {
    var moved := MoveItem(dir, from, to).value;
    var back := MoveItem(moved, to, from);
    assert back.Success?;
    assert back.value.Keys == dir.Keys;
    forall n | n in dir
      ensures back.value[n] == dir[n]
    {
      if n != from {
        assert moved[n] == dir[n];
      }
    }
    assert back.value == dir;
  }
}

=== FILE: fingerprint.dfy ===
/** The request fingerprint: the name under which the widget and the
    background session file a downloaded departure board. It is the first 16
    hex characters of SHA-256 over the URL path followed by every query item's
    `name + value`, the items taken in name order. SHA-256 itself is a
    parameter `sha`, any function that yields 64 lowercase hex characters. */
module Fingerprint {
  import opened Wrappers
  import opened Strings
  import Sorting
  import Seqs
  import opened Urls

  predicate IsLowerHex(ch: char) {
    '0' <= ch <= '9' || 'a' <= ch <= 'f'
  }

  predicate AllLowerHex(s: string) {
    forall i :: 0 <= i < |s| ==> IsLowerHex(s[i])
  }

  /** `n` zero digits: the witness that the digest type is inhabited. */
  function Zeros(n: nat): (s: string)
    ensures |s| == n && AllLowerHex(s)
  {
    if n == 0 then "" else "0" + Zeros(n - 1)
  }

  /** A hex-encoded SHA-256 digest. */
  type Digest = s: string | |s| == 64 && AllLowerHex(s)
    witness Zeros(64)

  /** `SortDescriptor(\.name)`: query items ordered by name. */
  predicate NameLe(a: QueryItem, b: QueryItem) {
    LexLe(a.name, b.name)
  }

  lemma NameLeIsTotalPreorder()
    ensures Sorting.TotalPreorder(NameLe)
  {
    forall a: QueryItem, b: QueryItem
      ensures NameLe(a, b) || NameLe(b, a)
    {
      LexLeTotal(a.name, b.name);
    }
    forall a: QueryItem, b: QueryItem, c: QueryItem | NameLe(a, b) && NameLe(b, c)
      ensures NameLe(a, c)
    {
      LexLeTransitive(a.name, b.name, c.name);
    }
  }

  /** `.map { $0.name + ($0.value ?? "") }.joined()`. */
  function ItemsString(items: seq<QueryItem>): string
  {
    if |items| == 0 then "" else items[0].name + items[0].value.GetOr("") + ItemsString(items[1..])
  }

  /** The text that is hashed: the path, then the items in name order. */
  function HashedText(path: string, items: seq<QueryItem>): string
  {
    path + ItemsString(Sorting.SortBy(items, NameLe))
  }

  /** `URLComponents.hashString`. */
  function ComponentsHash(c: Components, sha: string -> Digest): (r: Option<string>)
    ensures r.None? <==> c.queryItems.None?
    ensures r.Some? ==> |r.value| == 16 && AllLowerHex(r.value)
    ensures r.Some? ==> HasPrefix(sha(HashedText(c.path, c.queryItems.value)), r.value)
  {
    match c.queryItems
    case None => None
    case Some(items) => Some(sha(HashedText(c.path, items))[..16])
  }

  /** An empty item list hashes the path alone. */
  lemma EmptyItemsHashPath(c: Components, sha: string -> Digest)
    requires c.queryItems == Some([])
    ensures ComponentsHash(c, sha) == Some(sha(c.path)[..16])
  {
    assert HashedText(c.path, []) == c.path;
  }

  /** Scheme, host and port do not enter the fingerprint. */
  lemma HashIgnoresSchemeHostPort(c: Components, d: Components, sha: string -> Digest)
    requires c.path == d.path && c.queryItems == d.queryItems
    ensures ComponentsHash(c, sha) == ComponentsHash(d, sha)
  {
  }

  predicate DistinctNames(items: seq<QueryItem>) {
    forall i, j :: 0 <= i < j < |items| ==> items[i].name != items[j].name
  }

  lemma DistinctNamesNoTies(items: seq<QueryItem>)
    requires DistinctNames(items)
    ensures Sorting.NoTies(items, NameLe)
  {
    forall i, j | 0 <= i < |items| && 0 <= j < |items| && NameLe(items[i], items[j]) && NameLe(items[j], items[i])
      ensures items[i] == items[j]
    {
      LexLeAntisymmetric(items[i].name, items[j].name);
    }
  }

  /** Reordering items with pairwise distinct names does not change the
      fingerprint. */
  lemma HashPermutationInvariant(c: Components, d: Components, sha: string -> Digest)
    requires c.path == d.path && c.queryItems.Some? && d.queryItems.Some?
    requires multiset(c.queryItems.value) == multiset(d.queryItems.value)
    requires DistinctNames(c.queryItems.value)
    ensures ComponentsHash(c, sha) == ComponentsHash(d, sha)
  {
    NameLeIsTotalPreorder();
    DistinctNamesNoTies(c.queryItems.value);
    Sorting.SortByPermutationInvariant(c.queryItems.value, d.queryItems.value, NameLe);
  }

  /** An item as the fingerprint sees it: a missing value read as "". */
  function Normalize(q: QueryItem): (r: QueryItem)
    ensures r.name == q.name && r.value.Some?
    ensures q.value.Some? ==> r == q
    ensures q.value.None? ==> r.value == Some("")
  {
    QueryItem(q.name, Some(q.value.GetOr("")))
  }

  function NormalizeAll(items: seq<QueryItem>): (r: seq<QueryItem>)
    ensures |r| == |items|
    ensures forall i :: 0 <= i < |items| ==> r[i] == Normalize(items[i])
  {
    Seqs.Map(items, Normalize)
  }

  lemma SortByNormalize(xs: seq<QueryItem>)
    ensures NormalizeAll(Sorting.SortBy(xs, NameLe)) == Sorting.SortBy(NormalizeAll(xs), NameLe)
  {
    Sorting.SortByMap(xs, NameLe, Normalize, NameLe);
  }

  lemma {:induction false} ItemsStringNormalize(xs: seq<QueryItem>)
    ensures ItemsString(NormalizeAll(xs)) == ItemsString(xs)
    decreases |xs|
  {
    if |xs| > 0 {
      ItemsStringNormalize(xs[1..]);
      assert NormalizeAll(xs)[1..] == NormalizeAll(xs[1..]);
    }
  }

  /** Item lists that agree once a missing value is read as "" have the same
      fingerprint. */
  lemma HashSeesValuesAsNormalized(c: Components, d: Components, sha: string -> Digest)
    requires c.path == d.path && c.queryItems.Some? && d.queryItems.Some?
    requires NormalizeAll(c.queryItems.value) == NormalizeAll(d.queryItems.value)
    ensures ComponentsHash(c, sha) == ComponentsHash(d, sha)
  {
    var xs, ys := c.queryItems.value, d.queryItems.value;
    SortByNormalize(xs);
    SortByNormalize(ys);
    ItemsStringNormalize(Sorting.SortBy(xs, NameLe));
    ItemsStringNormalize(Sorting.SortBy(ys, NameLe));
  }

  /** A nil value and an empty value fingerprint identically. */
  lemma NilValueHashesAsEmpty(c: Components, k: nat, sha: string -> Digest)
    requires c.queryItems.Some? && k < |c.queryItems.value|
    requires c.queryItems.value[k].value.None?
    ensures var items := c.queryItems.value;
            ComponentsHash(c.(queryItems := Some(items[k := QueryItem(items[k].name, Some(""))])), sha)
            == ComponentsHash(c, sha)
  {
    var items := c.queryItems.value;
    var d := c.(queryItems := Some(items[k := QueryItem(items[k].name, Some(""))]));
    assert NormalizeAll(d.queryItems.value) == NormalizeAll(items);
    HashSeesValuesAsNormalized(d, c, sha);
  }

  /** With no separator between name and value, moving characters across that
      boundary goes unnoticed: `("ab", "c")` and `("a", "bc")` collide. */
  lemma NameValueBoundaryCollision(c: Components, a: string, b: string, v: string, sha: string -> Digest)
    requires c.queryItems == Some([QueryItem(a + b, Some(v))])
    ensures [QueryItem(a + b, Some(v))] != [QueryItem(a, Some(b + v))] <== |b| > 0
    ensures ComponentsHash(c, sha) == ComponentsHash(c.(queryItems := Some([QueryItem(a, Some(b + v))])), sha)
  {
    var one := [QueryItem(a + b, Some(v))];
    var two := [QueryItem(a, Some(b + v))];
    assert Sorting.SortBy(one, NameLe) == one;
    assert Sorting.SortBy(two, NameLe) == two;
    assert ItemsString(one) == a + b + v + "";
    assert ItemsString(two) == a + (b + v) + "";
    assert a + b + v + "" == a + (b + v) + "";
    if |b| > 0 {
      assert |(a + b)| != |a|;
    }
  }

  /** `URLRequest.hashString`: the fingerprint of the request URL's components. */
  function RequestHash(req: UrlRequest, sha: string -> Digest): (r: Option<string>)
    ensures req.url.None? ==> r.None?
    ensures req.url.Some? && req.url.value.components.None? ==> r.None?
    ensures r.Some? <==> req.url.Some? && req.url.value.components.Some?
                         && req.url.value.components.value.queryItems.Some?
    ensures r.Some? ==> |r.value| == 16 && AllLowerHex(r.value)
  {
    match req.url
    case None => None
    case Some(url) =>
      match url.components
      case None => None
      case Some(c) => ComponentsHash(c, sha)
  }

  /** Only the URL matters: method and headers do not enter the fingerprint. */
  lemma RequestHashIgnoresMethodAndHeaders(req: UrlRequest, other: UrlRequest, sha: string -> Digest)
    requires req.url == other.url
    ensures RequestHash(req, sha) == RequestHash(other, sha)
  {
  }

  /** A request whose URL parses into components hashes as those components do. */
  lemma RequestHashOfComponents(req: UrlRequest, c: Components, sha: string -> Digest)
    requires req.url == Some(Url(Some(c)))
    ensures RequestHash(req, sha) == ComponentsHash(c, sha)
  {
  }

  /** The network manager's own private `URLRequest.hashString`, written out
      in one piece: it demands URL, components and query items together. */
  function PrivateRequestHash(req: UrlRequest, sha: string -> Digest): (r: Option<string>)
    ensures r.Some? ==> |r.value| == 16 && AllLowerHex(r.value)
  {
    if req.url.Some? && req.url.value.components.Some? && req.url.value.components.value.queryItems.Some? then
      var c := req.url.value.components.value;
      Some(sha(c.path + ItemsString(Sorting.SortBy(c.queryItems.value, NameLe)))[..16])
    else None
  }

  /** The private copy and the public extension compute the same fingerprint. */
  lemma PrivateRequestHashAgrees(req: UrlRequest, sha: string -> Digest)
    ensures PrivateRequestHash(req, sha) == RequestHash(req, sha)
  {
  }
}

=== FILE: intent_parameters.dfy ===
/** The widget's intent parameters, `Trip` and `StopLocation`: records whose
    identifier is their fields joined with `#`, so that the system can hand
    the widget a chosen trip or stop back as a string. */
module IntentParameters {
  import opened Wrappers
  import opened Strings
  import opened TransportCategories
  import Core = CoreModels
  import Api = ApiModels

  const IdSeparator: char := '#'

  datatype Trip = Trip(
    id: string,
    name: string,
    direction: string,
    category: TransportCategory,
    lineId: string,
    directionId: string)

  /** `Trip.init?(identifier:)`: exactly five `#`-separated pieces; a category
      piece that is no raw value reads as `.unknown`. The identifier is kept
      as given. */
  function TripFromIdentifier(identifier: string): (t: Option<Trip>)
    ensures t.Some? <==> |Split(identifier, IdSeparator)| == 5
    ensures t.Some? ==>
              var parts := Split(identifier, IdSeparator);
              && t.value.id == identifier
              && t.value.name == parts[0] && t.value.direction == parts[1]
              && t.value.category == CategoryOrUnknown(parts[2])
              && t.value.lineId == parts[3] && t.value.directionId == parts[4]
  {
    var parts := Split(identifier, IdSeparator);
    if |parts| != 5 then None
    else Some(Trip(identifier, parts[0], parts[1], CategoryOrUnknown(parts[2]), parts[3], parts[4]))
  }

  /** The five fields a trip identifier is made of, in order. */
  function TripFields(d: Core.Departure): seq<string>
  {
    [d.name, d.direction, RawValue(d.category), d.lineId, d.directionId]
  }

  /** `Trip.init(_ departure:)`. */
  function TripOf(d: Core.Departure): (t: Trip)
    ensures t.id == Join(TripFields(d), IdSeparator)
    ensures t.name == d.name && t.direction == d.direction && t.category == d.category
    ensures t.lineId == d.lineId && t.directionId == d.directionId
  {
    Trip(Join(TripFields(d), IdSeparator), d.name, d.direction, d.category, d.lineId, d.directionId)
  }

  /** No raw value of a category is empty or contains the separator. */
  lemma RawValueIsPiece(c: TransportCategory)
    ensures IsPiece(RawValue(c), IdSeparator)
  {
  }

  /** A field the identifier can carry: non-empty and free of `#`. */
  predicate Serialisable(s: string) {
    IsPiece(s, IdSeparator)
  }

  /** A trip made from a departure is read back from its identifier, as long
      as no text field is empty or contains `#`. */
  lemma TripRoundTrip(d: Core.Departure)
    requires Serialisable(d.name) && Serialisable(d.direction)
    requires Serialisable(d.lineId) && Serialisable(d.directionId)
    ensures TripFromIdentifier(TripOf(d).id) == Some(TripOf(d))
  {
    RawValueIsPiece(d.category);
    SplitJoin(TripFields(d), IdSeparator);
    RawValueRoundTrip(d.category);
  }

  /** An identifier whose third piece is no category still parses, as an
      unknown-category trip. */
  lemma UnknownCategoryFallsBack(name: string, direction: string, category: string, lineId: string, directionId: string)
    requires Serialisable(name) && Serialisable(direction) && Serialisable(category)
    requires Serialisable(lineId) && Serialisable(directionId)
    requires FromRawValue(category).None?
    ensures var t := TripFromIdentifier(Join([name, direction, category, lineId, directionId], IdSeparator));
            t.Some? && t.value.category == Unknown && t.value.name == name && t.value.directionId == directionId
  {
    SplitJoin([name, direction, category, lineId, directionId], IdSeparator);
  }

  /** `Trip.mock()`. */
  function MockTrip(): Trip
  {
    Trip("Tram 66#Somewhere#Tram#66#1234567", "Tram 66", "Somewhere", Tram, "66", "1234567")
  }

  /** The mock's identifier parses to exactly the mock. */
  lemma MockTripParses()
    ensures TripFromIdentifier(MockTrip().id) == Some(MockTrip())
  {
    var parts := MockParts();
    MockPartsJoin();
    MockPartsArePieces();
    SplitJoin(parts, IdSeparator);
    assert Split(MockTrip().id, IdSeparator) == parts;
    assert CategoryOrUnknown(parts[2]) == Tram by {
      RawValueRoundTrip(Tram);
    }
  }

  function MockParts(): seq<string>
  {
    ["Tram 66", "Somewhere", "Tram", "66", "1234567"]
  }

  lemma MockPartsJoin()
    ensures Join(MockParts(), IdSeparator) == MockTrip().id
  {
  }

  lemma MockPartsArePieces()
    ensures forall i :: 0 <= i < |MockParts()| ==> IsPiece(MockParts()[i], IdSeparator)
  {
    var parts := MockParts();
    forall i | 0 <= i < |parts|
      ensures IsPiece(parts[i], IdSeparator)
    {
      MockPartIsPiece(parts, i);
    }
  }

  lemma MockPartIsPiece(parts: seq<string>, i: nat)
    requires parts == ["Tram 66", "Somewhere", "Tram", "66", "1234567"] && i < |parts|
    ensures IsPiece(parts[i], IdSeparator)
  {
  }

  datatype StopLocation = StopLocation(id: string, locationId: string, name: string)

  /** `StopLocation.init?(identifier:)`: exactly two `#`-separated pieces,
      location id and name; the identifier is kept as given. */
  function StopFromIdentifier(identifier: string): (s: Option<StopLocation>)
    ensures s.Some? <==> |Split(identifier, IdSeparator)| == 2
    ensures s.Some? ==> s.value.id == identifier
                        && s.value.locationId == Split(identifier, IdSeparator)[0]
                        && s.value.name == Split(identifier, IdSeparator)[1]
  {
    var parts := Split(identifier, IdSeparator);
    if |parts| != 2 then None else Some(StopLocation(identifier, parts[0], parts[1]))
  }

  /** `StopLocation.init(_ stopLocation:)` from the API package's stop. */
  function StopOf(s: Api.StopLocation): (r: StopLocation)
    ensures r.id == Join([s.locationId, s.name], IdSeparator)
    ensures r.locationId == s.locationId && r.name == s.name
  {
    StopLocation(Join([s.locationId, s.name], IdSeparator), s.locationId, s.name)
  }

  /** A stop is read back from its identifier when location id and name are
      non-empty and free of `#`. */
  lemma StopRoundTrip(s: Api.StopLocation)
    requires Serialisable(s.locationId) && Serialisable(s.name)
    ensures StopFromIdentifier(StopOf(s).id) == Some(StopOf(s))
  {
    SplitJoin([s.locationId, s.name], IdSeparator);
  }

  /** A name containing `#` breaks the identifier into too many pieces. */
  lemma StopNameWithSeparatorIsLost(locationId: string, a: string, b: string)
    requires Serialisable(locationId) && Serialisable(a) && Serialisable(b)
    ensures StopFromIdentifier(StopOf(Api.StopLocation(locationId, a + "#" + b)).id).None?
  {
    var id := StopOf(Api.StopLocation(locationId, a + "#" + b)).id;
    var name := a + "#" + b;
    assert [locationId, name][1..] == [name];
    assert [a, b][1..] == [b];
    assert [locationId, a, b][1..] == [a, b];
    assert "#" == [IdSeparator];
    assert Join([a, b], IdSeparator) == a + [IdSeparator] + b;
    assert Join([locationId, a, b], IdSeparator) == locationId + [IdSeparator] + (a + [IdSeparator] + b);
    assert Join([name], IdSeparator) == name;
    assert Join([locationId, name], IdSeparator) == locationId + [IdSeparator] + Join([name], IdSeparator);
    assert id == Join([locationId, name], IdSeparator);
    SplitJoin([locationId, a, b], IdSeparator);
  }
}

=== FILE: journey_ref.dfy ===
/** The HAFAS journey reference, a `#`-separated list of key and value
    components such as `2|#VN#1#...#ZB#Bus M32#...#TO#3000529#TT#1402#`, and
    the lookup "the component right after the first occurrence of a key" that
    both response-model copies use for the direction stop and the line title. */
module JourneyRef {
  import opened Wrappers
  import opened Strings

  /** `(ref ?? "").split(separator: "#")`: a missing reference has no
      components, and empty segments are dropped. */
  function RefComponents(ref: Option<string>): (parts: seq<string>)
    ensures ref.None? ==> parts == []
    ensures forall i :: 0 <= i < |parts| ==> IsPiece(parts[i], '#')
  {
    Split(ref.GetOr(""), '#')
  }

  /** The component following the first `key`, or `None` when `key` does not
      occur or is the last component. */
  function ComponentAfter(parts: seq<string>, key: string): (r: Option<string>)
    ensures r.Some? <==> key in parts && FirstIndexOf(parts, key).value + 1 < |parts|
    ensures r.Some? ==> r.value == parts[FirstIndexOf(parts, key).value + 1]
  {
    match FirstIndexOf(parts, key)
    case None => None
    case Some(i) => if i + 1 < |parts| then Some(parts[i + 1]) else None
  }

  /** The value right after a key is found when the key does not occur earlier. */
  lemma ComponentAfterFindsValue(before: seq<string>, key: string, value: string, after: seq<string>)
    requires key !in before
    ensures ComponentAfter(before + [key, value] + after, key) == Some(value)
  {
    var parts := before + [key, value] + after;
    assert parts[|before|] == key;
    assert parts[|before| + 1] == value;
    assert forall i :: 0 <= i < |before| ==> parts[i] == before[i];
  }

  /** The same for a reference written out with a `#` after every component. */
  lemma ComponentAfterInTerminatedRef(parts: seq<string>, before: seq<string>, key: string, value: string, after: seq<string>)
    requires forall i :: 0 <= i < |parts| ==> IsPiece(parts[i], '#')
    requires parts == before + [key, value] + after && key !in before
    ensures ComponentAfter(RefComponents(Some(Terminated(parts, '#'))), key) == Some(value)
  {
    SplitTerminated(parts, '#');
    ComponentAfterFindsValue(before, key, value, after);
  }

  /** A key that is the last component has no value. */
  lemma ComponentAfterLastKey(before: seq<string>, key: string)
    requires key !in before
    ensures ComponentAfter(before + [key], key) == None
  {
    var parts := before + [key];
    assert parts[|before|] == key;
    assert forall i :: 0 <= i < |before| ==> parts[i] == before[i];
  }

  /** Only the first occurrence counts: later occurrences of the key are ignored. */
  lemma ComponentAfterUsesFirstKey(before: seq<string>, key: string, value: string, after: seq<string>, later: string)
    requires key !in before
    ensures ComponentAfter(before + [key, value] + after + [key, later], key) == Some(value)
  {
    ComponentAfterFindsValue(before, key, value, after + [key, later]);
    assert before + [key, value] + after + [key, later] == before + [key, value] + (after + [key, later]);
  }

  /** Surrounding the reference with separators changes none of its components. */
  lemma RefComponentsIgnoreOuterSeparators(ref: string)
    ensures RefComponents(Some("#" + ref + "#")) == RefComponents(Some(ref))
  {
    SplitDropsLeadingSeparator(ref, '#');
    SplitDropsTrailingSeparator("#" + ref, '#');
    assert "#" + ref + "#" == ("#" + ref) + "#";
    assert "#" + ref == ['#'] + ref;
  }

  /** Parsing a reference assembled from components gives the components back. */
  lemma RefComponentsOfJoined(parts: seq<string>)
    requires forall i :: 0 <= i < |parts| ==> IsPiece(parts[i], '#')
    ensures RefComponents(Some(Join(parts, '#'))) == parts
  {
    SplitJoin(parts, '#');
  }
}

=== FILE: legacy_cache_store.dfy ===
/** The API package's older cache file manager. Its operations are the core
    package's, minus renaming; `getCacheFile(named:)` is the core's
    `getCachedData(named:)`. */
module LegacyCacheStore {
  import opened Wrappers
  import opened ServerDates
  import opened FileSystem
  import C = CacheStore

  function SaveCacheFile(store: C.Store, key: string, source: Option<Bytes>, now: Date, onQueue: bool): C.Outcome<()>
  {
    C.SaveCacheFile(store, key, source, now, onQueue)
  }

  function GetCacheFile(store: C.Store, key: string, onQueue: bool): C.Outcome<Option<Bytes>>
  {
    C.GetCachedData(store, key, onQueue)
  }

  function GetCacheDate(store: C.Store, key: string, onQueue: bool): C.Outcome<Option<Date>>
  {
    C.GetCacheDate(store, key, onQueue)
  }

  function GetCacheFilenames(store: C.Store, contents: Directory -> seq<string>, onQueue: bool): C.Outcome<seq<string>>
  {
    C.GetCacheFilenames(store, contents, onQueue)
  }

  function ClearCacheFile(store: C.Store, key: string, onQueue: bool): C.Outcome<()>
  {
    C.ClearCacheFile(store, key, onQueue)
  }

  function ClearAllCacheFiles(store: C.Store, contents: Directory -> seq<string>, onQueue: bool): C.Outcome<()>
  {
    C.ClearAllBody(store, contents, true)
  }

  /** Saving replaces any previous file, and reading it returns the saved
      bytes; every other key keeps its file. */
  lemma SaveThenGetCacheFile(store: C.Store, key: string, other: string, data: Bytes, now: Date)
    requires store.Some?
    ensures var saved := SaveCacheFile(store, key, Some(data), now, false).store;
            GetCacheFile(saved, key, false).result == Success(Some(data))
            && GetCacheDate(saved, key, false).result == Success(Some(now))
            && (other != key ==> C.Entry(saved, other) == C.Entry(store, other))
  {
    C.SaveThenGet(store, key, data, now);
    if other != key {
      C.SaveLeavesOtherKeys(store, key, other, Some(data), now);
    }
  }

  /** An absent key reads as `nil`, without an error, and has no date. */
  lemma AbsentKeyReadsNil(store: C.Store, key: string)
    requires store.Some? && C.Entry(store, key).None?
    ensures GetCacheFile(store, key, false).result == Success(None)
    ensures GetCacheDate(store, key, false).result == Success(None)
  {
  }

  /** Clearing removes only the key's file and is a no-op for an absent key. */
  lemma ClearOnlyTheKey(store: C.Store, key: string, other: string)
    requires store.Some?
    ensures C.Entry(ClearCacheFile(store, key, false).store, key).None?
    ensures other != key ==> C.Entry(ClearCacheFile(store, key, false).store, other) == C.Entry(store, other)
    ensures C.Entry(store, key).None? ==> ClearCacheFile(store, key, false).store == store
  {
    C.ClearLeavesOtherKeys(store, key, other);
  }

  /** The listing names exactly the keys with a file. */
  lemma ListingNamesKeys(dir: Directory, contents: Directory -> seq<string>, key: string)
    requires forall n :: n in contents(dir) <==> n in dir
    ensures var o := GetCacheFilenames(Some(dir), contents, false);
            o.result.Success? && (key in o.result.value <==> C.JsonName(key) in dir)
  {
    C.GetCacheFilenamesListsKeys(dir, contents, key);
  }

  /** The same re-entrant listing: clearing everything never returns. */
  lemma ClearAllDeadlocks(store: C.Store, contents: Directory -> seq<string>)
    ensures ClearAllCacheFiles(store, contents, false) == C.Outcome(store, Failure(C.Deadlock))
  {
  }

  /** Every call fails with `noCacheFolderFound` when there is no caches
      directory. */
  lemma NoFolderFails(key: string, source: Option<Bytes>, now: Date, contents: Directory -> seq<string>)
    ensures SaveCacheFile(None, key, source, now, false).result == Failure(C.NoCacheFolderFound)
    ensures GetCacheFile(None, key, false).result == Failure(C.NoCacheFolderFound)
    ensures GetCacheDate(None, key, false).result == Failure(C.NoCacheFolderFound)
    ensures GetCacheFilenames(None, contents, false).result == Failure(C.NoCacheFolderFound)
    ensures ClearCacheFile(None, key, false).result == Failure(C.NoCacheFolderFound)
  {
  }
}

=== FILE: network_manager.dfy ===
/** The API package's network manager: how it turns a search text or a
    departure-board request into an authorised URL request for the RMV HAFAS
    API, how it maps the decoded answers to domain records, and how the
    background session's received bytes are collected in the temporary
    directory and filed under the request fingerprint. The transport, the JSON
    decoding and the app bundle are not modelled: decoded answers, the
    bundle's info dictionary and directory listings are parameters. */
module NetworkManager {
  import opened Wrappers
  import opened Strings
  import opened Seqs
  import opened ServerDates
  import opened Urls
  import opened Fingerprint
  import opened FileSystem
  import opened RequestModels
  import R = ApiResponses
  import M = ApiModels

  datatype NetworkManagerError = WrongUrl | WrongRequest | NoApiBearer

  // ---------------------------------------------------------------------------
  // The API bearer

  /** A value of the bundle's info dictionary, as far as the bearer lookup
      cares: a string or something else. */
  datatype PlistValue = PlistString(s: string) | PlistOther

  /** `apiBearer`: the `API_BEARER` entry of the info dictionary, when it is a
      non-empty string. */
  function ApiBearer(info: Option<map<string, PlistValue>>): (b: Option<string>)
    ensures b.Some? <==> info.Some? && "API_BEARER" in info.value
                         && info.value["API_BEARER"].PlistString? && |info.value["API_BEARER"].s| > 0
    ensures b.Some? ==> b.value == info.value["API_BEARER"].s
  {
    match info
    case None => None
    case Some(d) =>
      if "API_BEARER" in d && d["API_BEARER"].PlistString? && |d["API_BEARER"].s| > 0
      then Some(d["API_BEARER"].s) else None
  }

  // ---------------------------------------------------------------------------
  // URL components

  /** `URLComponents(string: "https://www.rmv.de/hapi" + endpoint)` with the
      query items set. */
  function EndpointComponents(endpoint: string, items: seq<QueryItem>): (c: Components)
    ensures c.scheme == Some("https") && c.host == Some("www.rmv.de") && c.port.None?
    ensures c.path == "/hapi" + endpoint
    ensures c.queryItems == Some(items)
  {
    Components(Some("https"), Some("www.rmv.de"), None, "/hapi" + endpoint, Some(items))
  }

  /** The query of `getStopLocations(input:)`: the search text, stops only,
      no product list. */
  function StopLocationsQueryItems(input: string): (items: seq<QueryItem>)
    ensures |items| == 3
    ensures items[0] == QueryItem("input", Some(input))
    ensures items[1] == QueryItem("type", Some("S")) && items[2] == QueryItem("withProducts", Some("0"))
  {
    [QueryItem("input", Some(input)), QueryItem("type", Some("S")), QueryItem("withProducts", Some("0"))]
  }

  function StopLocationsComponents(input: string): (c: Option<Components>)
    ensures c == Some(EndpointComponents("/location.name", StopLocationsQueryItems(input)))
  {
    Some(EndpointComponents("/location.name", StopLocationsQueryItems(input)))
  }

  function DurationText(duration: Option<int>): (t: Option<string>)
    ensures t.Some? <==> duration.Some?
    ensures t.Some? ==> ParseDecimal(t.value) == duration
  {
    match duration
    case None => None
    case Some(minutes) =>
      IntToDecimalRoundTrip(minutes);
      Some(IntToDecimal(minutes))
  }

  /** Every parameter the departure board can be asked for, in the order the
      query lists them; an unset field has no value. */
  function BoardFields(req: DepartureBoardRequest): seq<QueryItem>
  {
    [QueryItem("id", Some(req.stopId)),
     QueryItem("direction", req.directionId),
     QueryItem("lines", req.lineId),
     QueryItem("date", req.date),
     QueryItem("time", req.time),
     QueryItem("duration", DurationText(req.duration))]
  }

  lemma BoardFieldsDistinct(req: DepartureBoardRequest)
    ensures DistinctNames(BoardFields(req))
  {
  }

  /** Each optional field is found at its own place in the full list. */
  lemma BoardFieldsValues(req: DepartureBoardRequest)
    ensures var all := BoardFields(req);
            && ValueNamed(all, "direction") == req.directionId
            && ValueNamed(all, "lines") == req.lineId
            && ValueNamed(all, "date") == req.date
            && ValueNamed(all, "time") == req.time
            && ValueNamed(all, "duration") == DurationText(req.duration)
  {
    var all := BoardFields(req);
    BoardFieldsDistinct(req);
    FieldValueAt(all, 1);
    FieldValueAt(all, 2);
    FieldValueAt(all, 3);
    FieldValueAt(all, 4);
    FieldValueAt(all, 5);
  }

  lemma FieldValueAt(items: seq<QueryItem>, k: nat)
    requires DistinctNames(items) && k < |items|
    ensures ValueNamed(items, items[k].name) == items[k].value
  {
    var r := FirstNamed(items, items[k].name);
    assert r.Some?;
    var j :| 0 <= j < |items| && items[j] == r.value && forall i :: 0 <= i < j ==> items[i].name != items[k].name;
    assert j == k;
  }

  predicate HasValue(q: QueryItem) {
    q.value.Some?
  }

  /** The item for `name` when it has a value, and nothing otherwise. */
  function Opt(name: string, v: Option<string>): seq<QueryItem> {
    if v.Some? then [QueryItem(name, v)] else []
  }

  lemma FilterCons(q: QueryItem, rest: seq<QueryItem>)
    ensures Filter([q] + rest, HasValue) == Opt(q.name, q.value) + Filter(rest, HasValue)
  {
    assert ([q] + rest)[1..] == rest;
  }

  /** Dropping the unset fields leaves the set ones in their fixed order. */
  lemma FilterBoardFields(req: DepartureBoardRequest)
    ensures Filter(BoardFields(req), HasValue)
            == [QueryItem("id", Some(req.stopId))] + (Opt("direction", req.directionId) + (Opt("lines", req.lineId)
               + (Opt("date", req.date) + (Opt("time", req.time) + Opt("duration", DurationText(req.duration))))))
  {
    var q0, q1, q2 := QueryItem("id", Some(req.stopId)), QueryItem("direction", req.directionId), QueryItem("lines", req.lineId);
    var q3, q4, q5 := QueryItem("date", req.date), QueryItem("time", req.time), QueryItem("duration", DurationText(req.duration));
    var t5 := [q5];
    var t4 := [q4] + t5;
    var t3 := [q3] + t4;
    var t2 := [q2] + t3;
    var t1 := [q1] + t2;
    var t0 := [q0] + t1;
    assert BoardFields(req) == t0;
    assert Filter(t5, HasValue) == Opt(q5.name, q5.value) by {
      assert t5 == [q5] + [];
      FilterCons(q5, []);
    }
    FilterCons(q4, t5);
    FilterCons(q3, t4);
    FilterCons(q2, t3);
    FilterCons(q1, t2);
    FilterCons(q0, t1);
  }

  /** The query of `prepareDepartureBoardUrlComponents(_:)`: the stop id first,
      then direction, lines, date, time and duration, each appended only when
      it is set. The journey limit is never sent. */
  function DepartureBoardQueryItems(req: DepartureBoardRequest): (items: seq<QueryItem>)
    ensures |items| >= 1 && items[0] == QueryItem("id", Some(req.stopId))
    ensures forall i :: 0 <= i < |items| ==> items[i].value.Some?
    ensures DistinctNames(items)
    ensures ValueNamed(items, "direction") == req.directionId
    ensures ValueNamed(items, "lines") == req.lineId
    ensures ValueNamed(items, "date") == req.date
    ensures ValueNamed(items, "time") == req.time
    ensures ValueNamed(items, "duration") == DurationText(req.duration)
    ensures items == [QueryItem("id", Some(req.stopId))] + (Opt("direction", req.directionId) + (Opt("lines", req.lineId)
                     + (Opt("date", req.date) + (Opt("time", req.time) + Opt("duration", DurationText(req.duration))))))
  {
    var all := BoardFields(req);
    FilterBoardFields(req);
    BoardFieldsDistinct(req);
    BoardFieldsValues(req);
    var items := Filter(all, HasValue);
    FilterKeepsDistinct(all, HasValue);
    FilterKeepsValues(all, "direction");
    FilterKeepsValues(all, "lines");
    FilterKeepsValues(all, "date");
    FilterKeepsValues(all, "time");
    FilterKeepsValues(all, "duration");
    assert items[0] == all[0];
    items
  }

  /** A filter keeps names distinct. */
  lemma {:induction false} FilterKeepsDistinct(xs: seq<QueryItem>, p: QueryItem -> bool)
    requires DistinctNames(xs)
    ensures DistinctNames(Filter(xs, p))
    decreases |xs|
  {
    if |xs| > 0 {
      FilterKeepsDistinct(xs[1..], p);
      var rest := Filter(xs[1..], p);
      forall i | 0 <= i < |rest|
        ensures rest[i].name != xs[0].name
      {
        var j :| 0 <= j < |xs[1..]| && xs[1..][j] == rest[i];
        assert xs[j + 1] == rest[i];
      }
    }
  }

  /** Dropping the items without a value leaves each name's value as it was,
      when every name occurs once. */
  lemma {:induction false} FilterKeepsValues(xs: seq<QueryItem>, name: string)
    requires DistinctNames(xs)
    ensures ValueNamed(Filter(xs, HasValue), name) == ValueNamed(xs, name)
    decreases |xs|
  {
    if |xs| > 0 {
      var rest := Filter(xs[1..], HasValue);
      assert DistinctNames(xs[1..]);
      if xs[0].name == name {
        if !HasValue(xs[0]) {
          forall i | 0 <= i < |rest|
            ensures rest[i].name != name
          {
            var j :| 0 <= j < |xs[1..]| && xs[1..][j] == rest[i];
            assert xs[j + 1] == rest[i];
          }
        }
      } else {
        FilterKeepsValues(xs[1..], name);
      }
    }
  }

  /** `prepareDepartureBoardUrlComponents(_:)`. */
  function DepartureBoardComponents(req: DepartureBoardRequest): (c: Option<Components>)
    ensures c == Some(EndpointComponents("/departureBoard", DepartureBoardQueryItems(req)))
  {
    Some(EndpointComponents("/departureBoard", DepartureBoardQueryItems(req)))
  }

  /** How the server reads a departure-board query back into a request; the
      independent reading the query builder is checked against. */
  function RequestOfItems(items: seq<QueryItem>): (r: Option<DepartureBoardRequest>)
    ensures r.Some? <==> ValueNamed(items, "id").Some?
    ensures r.Some? ==> r.value.stopId == ValueNamed(items, "id").value && r.value.maxJourneys.None?
  {
    match ValueNamed(items, "id")
    case None => None
    case Some(id) =>
      var duration := match ValueNamed(items, "duration")
                      case None => None
                      case Some(t) => ParseDecimal(t);
      Some(DepartureBoardRequest(id, ValueNamed(items, "lines"), ValueNamed(items, "direction"),
                                 ValueNamed(items, "date"), ValueNamed(items, "time"), duration, None))
  }

  /** The query carries every field of the request except the journey limit:
      reading it back gives the request with `maxJourneys` cleared. */
  lemma DepartureBoardQueryRoundTrip(req: DepartureBoardRequest)
    ensures RequestOfItems(DepartureBoardQueryItems(req)) == Some(req.(maxJourneys := None))
  {
    var items := DepartureBoardQueryItems(req);
    assert FirstNamed(items, "id") == Some(items[0]);
    if req.duration.Some? {
      assert ParseDecimal(DurationText(req.duration).value) == req.duration;
    }
  }

  predicate NoneNamed(items: seq<QueryItem>, name: string) {
    forall i :: 0 <= i < |items| ==> items[i].name != name
  }

  lemma NoneNamedConcat(a: seq<QueryItem>, b: seq<QueryItem>, name: string)
    requires NoneNamed(a, name) && NoneNamed(b, name)
    ensures NoneNamed(a + b, name)
  {
    forall i | 0 <= i < |a + b|
      ensures (a + b)[i].name != name
    {
      if i >= |a| { assert (a + b)[i] == b[i - |a|]; }
    }
  }

  lemma OptNotNamed(n: string, v: Option<string>, name: string)
    requires |n| != |name| || v.None?
    ensures NoneNamed(Opt(n, v), name)
  {
  }

  /** No item of the board's query carries the name of a field left unset. */
  lemma NoneNamedInBoard(req: DepartureBoardRequest, name: string)
    requires || (name == "direction" && req.directionId.None?)
             || (name == "lines" && req.lineId.None?)
             || (name == "duration" && req.duration.None?)
    ensures NoneNamed(DepartureBoardQueryItems(req), name)
  {
    var p5 := Opt("duration", DurationText(req.duration));
    var t4 := Opt("time", req.time) + p5;
    var t3 := Opt("date", req.date) + t4;
    var t2 := Opt("lines", req.lineId) + t3;
    var t1 := Opt("direction", req.directionId) + t2;
    OptNotNamed("id", Some(req.stopId), name);
    OptNotNamed("direction", req.directionId, name);
    OptNotNamed("lines", req.lineId, name);
    OptNotNamed("date", req.date, name);
    OptNotNamed("time", req.time, name);
    OptNotNamed("duration", DurationText(req.duration), name);
    NoneNamedConcat(Opt("time", req.time), p5, name);
    NoneNamedConcat(Opt("date", req.date), t4, name);
    NoneNamedConcat(Opt("lines", req.lineId), t3, name);
    NoneNamedConcat(Opt("direction", req.directionId), t2, name);
    assert Opt("id", Some(req.stopId)) == [QueryItem("id", Some(req.stopId))];
    NoneNamedConcat([QueryItem("id", Some(req.stopId))], t1, name);
  }

  /** An unset field sends no item at all. */
  lemma UnsetFieldsNotSent(req: DepartureBoardRequest)
    ensures var items := DepartureBoardQueryItems(req);
            && (req.directionId.None? ==> forall i :: 0 <= i < |items| ==> items[i].name != "direction")
            && (req.lineId.None? ==> forall i :: 0 <= i < |items| ==> items[i].name != "lines")
            && (req.duration.None? ==> forall i :: 0 <= i < |items| ==> items[i].name != "duration")
  {
    if req.directionId.None? { NoneNamedInBoard(req, "direction"); }
    if req.lineId.None? { NoneNamedInBoard(req, "lines"); }
    if req.duration.None? { NoneNamedInBoard(req, "duration"); }
  }

  // ---------------------------------------------------------------------------
  // URL requests

  /** `prepareUrlRequest(_:)`: a missing bearer is reported before a missing
      URL; the request carries the bearer token and asks for JSON. */
  function PrepareUrlRequest(components: Option<Components>, bearer: Option<string>): (r: Result<UrlRequest, NetworkManagerError>)
    ensures bearer.None? ==> r == Failure(NoApiBearer)
    ensures bearer.Some? && components.None? ==> r == Failure(WrongUrl)
    ensures r.Success? <==> bearer.Some? && components.Some?
    ensures r.Success? ==> r.value.url == Some(Url(components)) && r.value.httpMethod == "GET"
    ensures r.Success? ==> Header("Authorization", "Bearer " + bearer.value) in r.value.headers
                           && Header("Accept", "application/json") in r.value.headers
  {
    if bearer.None? then Failure(NoApiBearer)
    else if components.None? then Failure(WrongUrl)
    else
      Success(UrlRequest(Some(Url(components)), "GET",
                         [Header("Authorization", "Bearer " + bearer.value), Header("Accept", "application/json")]))
  }

  /** The fingerprint of a prepared request is that of its components: the
      bearer plays no part. */
  lemma PreparedRequestFingerprint(c: Components, bearer: string, sha: string -> Digest)
    ensures PrepareUrlRequest(Some(c), Some(bearer)).Success?
    ensures RequestHash(PrepareUrlRequest(Some(c), Some(bearer)).value, sha) == ComponentsHash(c, sha)
  {
  }

  /** `requestDepartures(_:)`: the request handed to the background session. */
  function RequestDepartures(req: DepartureBoardRequest, bearer: Option<string>): (r: Result<UrlRequest, NetworkManagerError>)
    ensures r.Failure? <==> bearer.None?
    ensures r.Failure? ==> r.error == NoApiBearer
    ensures r.Success? ==> r.value.url == Some(Url(DepartureBoardComponents(req)))
  {
    PrepareUrlRequest(DepartureBoardComponents(req), bearer)
  }

  /** Every departure-board request has a fingerprint, and two requests that
      differ only in their journey limit share it, so they share one cache
      entry. */
  lemma DepartureFingerprintIgnoresMaxJourneys(req: DepartureBoardRequest, m: Option<int>, bearer: string,
                                               sha: string -> Digest)
    ensures RequestHash(RequestDepartures(req, Some(bearer)).value, sha).Some?
    ensures RequestHash(RequestDepartures(req, Some(bearer)).value, sha)
         == RequestHash(RequestDepartures(req.(maxJourneys := m), Some(bearer)).value, sha)
  {
    assert DepartureBoardQueryItems(req) == DepartureBoardQueryItems(req.(maxJourneys := m));
  }

  // ---------------------------------------------------------------------------
  // Decoded answers

  /** An entry of the `stopLocationOrCoordLocation` list. */
  datatype LocationEntry = CoordLocation | StopEntry(stop: R.StopLocationResponse)

  function StopOfEntry(e: LocationEntry): (s: Option<M.StopLocation>)
    ensures e.CoordLocation? ==> s.None?
    ensures e.StopEntry? ==> s == M.StopFromResponse(e.stop)
  {
    match e
    case CoordLocation => None
    case StopEntry(stop) => M.StopFromResponse(stop)
  }

  /** What `getStopLocations(input:)` makes of the decoded locations: the stop
      entries that map to a stop, in order. */
  function StopLocations(locations: seq<LocationEntry>): (r: seq<M.StopLocation>)
    ensures |r| <= |locations|
    ensures forall s :: s in r ==> exists i :: 0 <= i < |locations| && locations[i].StopEntry?
                                               && M.StopFromResponse(locations[i].stop) == Some(s)
  {
    CompactMap(locations, StopOfEntry)
  }

  /** Coordinate entries are dropped wherever they appear. */
  lemma CoordinatesDropped(before: seq<LocationEntry>, after: seq<LocationEntry>)
    ensures StopLocations(before + [CoordLocation] + after) == StopLocations(before + after)
  {
    CompactMapAppend(before + [CoordLocation], after, StopOfEntry);
    CompactMapAppend(before, [CoordLocation], StopOfEntry);
    CompactMapAppend(before, after, StopOfEntry);
  }

  /** A stop with id and name is kept, after the stops before it. */
  lemma StopEntryKept(before: seq<LocationEntry>, stop: R.StopLocationResponse, after: seq<LocationEntry>)
    requires stop.extId.Some? && stop.name.Some?
    ensures StopLocations(before + [StopEntry(stop)] + after)
         == StopLocations(before) + [M.StopLocation(stop.extId.value, stop.name.value)] + StopLocations(after)
  {
    CompactMapAppend(before + [StopEntry(stop)], after, StopOfEntry);
    CompactMapAppend(before, [StopEntry(stop)], StopOfEntry);
    assert CompactMap([StopEntry(stop)], StopOfEntry) == [M.StopLocation(stop.extId.value, stop.name.value)] by {
      assert [StopEntry(stop)][1..] == [];
    }
  }

  /** What `getDepartures(_:)` makes of the decoded board: the departures that
      map, in order, and none when the board has no departure list. */
  function Departures(departures: Option<seq<R.DepartureResponse>>, parseDate: string -> Option<Date>): (r: seq<M.Departure>)
    ensures departures.None? ==> r == []
    ensures departures.Some? ==> |r| <= |departures.value|
    ensures forall d :: d in r ==> exists i :: 0 <= i < |departures.value|
                                               && M.FromResponse(departures.value[i], parseDate) == Some(d)
  {
    match departures
    case None => []
    case Some(ds) => CompactMap(ds, (x: R.DepartureResponse) => M.FromResponse(x, parseDate))
  }

  /** A departure without its required fields is dropped and does not disturb
      the others. */
  lemma IncompleteDepartureDropped(before: seq<R.DepartureResponse>, x: R.DepartureResponse,
                                   after: seq<R.DepartureResponse>, parseDate: string -> Option<Date>)
    requires !M.HasRequiredFields(x)
    ensures Departures(Some(before + [x] + after), parseDate) == Departures(Some(before + after), parseDate)
  {
    var f := (y: R.DepartureResponse) => M.FromResponse(y, parseDate);
    CompactMapAppend(before + [x], after, f);
    CompactMapAppend(before, [x], f);
    CompactMapAppend(before, after, f);
  }

  /** A departure that maps is kept in its place, between the departures
      before and after it. */
  lemma CompleteDepartureKept(before: seq<R.DepartureResponse>, x: R.DepartureResponse,
                              after: seq<R.DepartureResponse>, parseDate: string -> Option<Date>, d: M.Departure)
    requires M.FromResponse(x, parseDate) == Some(d)
    ensures Departures(Some(before + [x] + after), parseDate)
         == Departures(Some(before), parseDate) + [d] + Departures(Some(after), parseDate)
  {
    var f := (y: R.DepartureResponse) => M.FromResponse(y, parseDate);
    CompactMapAppend(before + [x], after, f);
    CompactMapAppend(before, [x], f);
    assert CompactMap([x], f) == [d] by {
      assert [x][1..] == [];
    }
  }

  // ---------------------------------------------------------------------------
  // The temporary directory of the background data tasks

  /** `"\(task.taskIdentifier).tmp"`. */
  function TempName(id: nat): (n: string)
    ensures PathStem(n) == IntToDecimal(id) && PathExtension(n) == "tmp"
  {
    StemOfDottedName(IntToDecimal(id), "tmp");
    IntToDecimal(id) + ".tmp"
  }

  /** `"\(jsonName).\(task.taskIdentifier)"`. */
  function CompletedName(hash: string, id: nat): (n: string)
    ensures PathStem(n) == hash && PathExtension(n) == IntToDecimal(id)
  {
    DecimalHasNoDot(id);
    StemOfDottedName(hash, IntToDecimal(id));
    hash + "." + IntToDecimal(id)
  }

  /** `saveReceivedData(_:for:)`: a chunk is appended to the task's temporary
      file, which the first chunk creates at time `now`. */
  function SaveReceivedData(temp: Directory, id: nat, data: Bytes, now: Date): (r: Directory)
    ensures TempName(id) in r && r.Keys == temp.Keys + {TempName(id)}
    ensures TempName(id) in temp ==> r[TempName(id)] == temp[TempName(id)].(data := temp[TempName(id)].data + data)
    ensures TempName(id) !in temp ==> r[TempName(id)] == File(data, now)
    ensures forall n :: n in temp && n != TempName(id) ==> r[n] == temp[n]
  {
    var name := TempName(id);
    if name in temp then temp[name := temp[name].(data := temp[name].data + data)]
    else temp[name := File(data, now)]
  }

  /** The chunks of a download, one after the other. */
  function Concat(chunks: seq<Bytes>): Bytes
  {
    if |chunks| == 0 then [] else chunks[0] + Concat(chunks[1..])
  }

  /** `urlSession(_:dataTask:didReceive:)` for each chunk in turn. */
  function ReceiveAll(temp: Directory, id: nat, chunks: seq<Bytes>, now: Date): (r: Directory)
    decreases |chunks|
  {
    if |chunks| == 0 then temp else ReceiveAll(SaveReceivedData(temp, id, chunks[0], now), id, chunks[1..], now)
  }

  /** Receiving chunks into an existing temporary file appends them all, in
      order, and touches no other file. */
  lemma {:induction false} ReceiveAllAppends(temp: Directory, id: nat, chunks: seq<Bytes>, now: Date)
    requires TempName(id) in temp
    ensures var r := ReceiveAll(temp, id, chunks, now);
            && r.Keys == temp.Keys
            && r[TempName(id)] == temp[TempName(id)].(data := temp[TempName(id)].data + Concat(chunks))
            && forall n :: n in temp && n != TempName(id) ==> r[n] == temp[n]
    decreases |chunks|
  {
    if |chunks| > 0 {
      var next := SaveReceivedData(temp, id, chunks[0], now);
      ReceiveAllAppends(next, id, chunks[1..], now);
      assert temp[TempName(id)].data + chunks[0] + Concat(chunks[1..])
          == temp[TempName(id)].data + Concat(chunks);
    } else {
      assert temp[TempName(id)].data + Concat(chunks) == temp[TempName(id)].data;
    }
  }

  /** A whole download lands in a fresh temporary file created with the first
      chunk. */
  lemma ReceiveAllCollects(temp: Directory, id: nat, chunks: seq<Bytes>, now: Date)
    requires TempName(id) !in temp && |chunks| > 0
    ensures var r := ReceiveAll(temp, id, chunks, now);
            && r.Keys == temp.Keys + {TempName(id)}
            && r[TempName(id)] == File(Concat(chunks), now)
            && forall n :: n in temp ==> r[n] == temp[n]
  {
    var first := SaveReceivedData(temp, id, chunks[0], now);
    ReceiveAllAppends(first, id, chunks[1..], now);
  }

  /** `handleCompletedDataTask(_:)`: the temporary file is renamed to the
      fingerprint of the task's request, followed by the task identifier.
      Without a fingerprint, or when the rename fails, the directory stays as
      it was. */
  function HandleCompletedDataTask(temp: Directory, task: Task, sha: string -> Digest): (r: Directory)
    ensures task.originalRequest.None? || PrivateRequestHash(task.originalRequest.value, sha).None? ==> r == temp
    ensures task.originalRequest.Some? && PrivateRequestHash(task.originalRequest.value, sha).Some? ==>
              var name := CompletedName(PrivateRequestHash(task.originalRequest.value, sha).value, task.identifier);
              r == match MoveItem(temp, TempName(task.identifier), name)
                   case Failure(_) => temp
                   case Success(d) => d
  {
    match task.originalRequest
    case None => temp
    case Some(request) =>
      match PrivateRequestHash(request, sha)
      case None => temp
      case Some(hash) =>
        match MoveItem(temp, TempName(task.identifier), CompletedName(hash, task.identifier))
        case Failure(_) => temp
        case Success(d) => d
  }

  /** `getSavedResponse(for:)`: the data of the first listed file whose name
      without extension is the request's fingerprint. `listing` is the order in
      which the directory is enumerated; a listed name that is missing reads
      as no response. */
  function GetSavedResponse(temp: Directory, listing: seq<string>, request: UrlRequest, sha: string -> Digest): (r: Option<Bytes>)
    ensures PrivateRequestHash(request, sha).None? ==> r.None?
    ensures r.Some? ==> exists n :: n in listing && n in temp && PathStem(n) == PrivateRequestHash(request, sha).value
                                    && r.value == temp[n].data
    ensures (PrivateRequestHash(request, sha).Some?
             && forall i :: 0 <= i < |listing| ==> PathStem(listing[i]) != PrivateRequestHash(request, sha).value)
            ==> r.None?
  {
    match PrivateRequestHash(request, sha)
    case None => None
    case Some(hash) =>
      match FirstWhere(listing, (n: string) => PathStem(n) == hash)
      case None => None
      case Some(n) => if n in temp then Some(temp[n].data) else None
  }

  /** A completed download is found again under its request: once its
      temporary file has been renamed, and while no other file carries the
      same fingerprint, looking the request up yields the downloaded bytes. */
  lemma CompletedTaskIsFound(temp: Directory, task: Task, listing: seq<string>, sha: string -> Digest)
    requires task.originalRequest.Some? && PrivateRequestHash(task.originalRequest.value, sha).Some?
    requires TempName(task.identifier) in temp
    requires forall n :: n in temp ==> PathStem(n) != PrivateRequestHash(task.originalRequest.value, sha).value
    requires var done := HandleCompletedDataTask(temp, task, sha);
             forall n :: n in listing <==> n in done
    ensures GetSavedResponse(HandleCompletedDataTask(temp, task, sha), listing, task.originalRequest.value, sha)
         == Some(temp[TempName(task.identifier)].data)
  {
    var request := task.originalRequest.value;
    var hash := PrivateRequestHash(request, sha).value;
    var name := CompletedName(hash, task.identifier);
    assert name !in temp;
    var done := HandleCompletedDataTask(temp, task, sha);
    assert done == MoveItem(temp, TempName(task.identifier), name).value;
    assert name in listing;
    var p := (n: string) => PathStem(n) == hash;
    var found := FirstWhere(listing, p);
    assert found.Some? by {
      var k :| 0 <= k < |listing| && listing[k] == name;
      assert p(listing[k]);
    }
    assert found.value in done;
    assert found.value == name;
  }
}

=== FILE: request_models.dfy ===
/** The departure-board request of the shared core package: a stop id and
    optional filters. Nothing is validated: the duration's documented range
    of 1 to 1439 minutes and `maxJourneys` are taken as given. */
module RequestModels {
  import opened Wrappers

  datatype DepartureBoardRequest = DepartureBoardRequest(
    stopId: string,
    lineId: Option<string>,
    directionId: Option<string>,
    date: Option<string>,
    time: Option<string>,
    duration: Option<int>,
    maxJourneys: Option<int>)

  /** `DepartureBoardRequest.init(stopId:lineId:directionId:date:time:duration:maxJourneys:)`. */
  function MakeRequest(stopId: string, lineId: Option<string> := None, directionId: Option<string> := None,
                       date: Option<string> := None, time: Option<string> := None,
                       duration: Option<int> := None, maxJourneys: Option<int> := None): (r: DepartureBoardRequest)
    ensures r.stopId == stopId && r.lineId == lineId && r.directionId == directionId
    ensures r.date == date && r.time == time
    ensures r.duration == duration && r.maxJourneys == maxJourneys
  {
    DepartureBoardRequest(stopId, lineId, directionId, date, time, duration, maxJourneys)
  }

  /** Only the stop id is required; every filter defaults to nil. */
  lemma OnlyStopIdRequired(stopId: string)
    ensures var r := MakeRequest(stopId);
            r.lineId.None? && r.directionId.None? && r.date.None? && r.time.None?
            && r.duration.None? && r.maxJourneys.None?
  {
  }

  /** Any duration and any journey limit are stored, in range or not. */
  lemma NoValidation(stopId: string, duration: int, maxJourneys: int)
    ensures MakeRequest(stopId, duration := Some(duration), maxJourneys := Some(maxJourneys)).duration == Some(duration)
    ensures MakeRequest(stopId, duration := Some(duration), maxJourneys := Some(maxJourneys)).maxJourneys == Some(maxJourneys)
  {
  }
}

=== FILE: schedule_item.dfy ===
/** The app's schedule rows and selected-trip records on the stop schedule
    screen: a `ScheduleItem` shows one departure with its countdown, and a
    `TripItem` is one line and direction the schedule is fetched for. */
module ScheduleItems {
  import opened Wrappers
  import opened ServerDates
  import opened TransportCategories
  import Sorting
  import Core = CoreModels

  datatype ScheduleItem = ScheduleItem(
    name: string,
    direction: string,
    scheduledTime: Option<Date>,
    realTime: Option<Date>,
    isReachable: bool,
    isCancelled: bool)

  /** `ScheduleItem.time`: the real-time estimate, else the timetable time. */
  function Time(s: ScheduleItem): (t: Option<Date>)
    ensures t.None? <==> s.realTime.None? && s.scheduledTime.None?
    ensures s.realTime.Some? ==> t == s.realTime
    ensures s.realTime.None? ==> t == s.scheduledTime
  {
    if s.realTime.Some? then s.realTime else s.scheduledTime
  }

  /** `ceil(seconds / 60)` over whole seconds. */
  function CeilMinutes(seconds: int): (m: int)
    ensures 60 * (m - 1) < seconds <= 60 * m
  {
    -((-seconds) / 60)
  }

  /** `ScheduleItem.minutesLeft` at time `now`: whole minutes until the
      departure, rounded up and never below zero. */
  function MinutesLeft(s: ScheduleItem, now: Date): (m: Option<nat>)
    ensures m.None? <==> Time(s).None?
    ensures m.Some? ==> (m.value == 0 <==> Time(s).value <= now)
    ensures m.Some? && m.value > 0 ==> 60 * (m.value - 1) < Time(s).value - now <= 60 * m.value
  {
    match Time(s)
    case None => None
    case Some(t) =>
      var minutes := CeilMinutes(t - now);
      Some(if minutes < 0 then 0 else minutes)
  }

  /** A departure that has left shows zero minutes, however long ago it left. */
  lemma DepartedShowsZero(s: ScheduleItem, now: Date, later: Date)
    requires Time(s).Some? && Time(s).value <= now <= later
    ensures MinutesLeft(s, later) == Some(0) && MinutesLeft(s, now) == Some(0)
  {
  }

  /** The countdown never grows as time passes. */
  lemma MinutesLeftNeverGrows(s: ScheduleItem, now: Date, later: Date)
    requires Time(s).Some? && now <= later
    ensures MinutesLeft(s, later).value <= MinutesLeft(s, now).value
  {
  }

  /** `ScheduleItem.timeDiffers`: both times are known and they differ. */
  function TimeDiffers(s: ScheduleItem): (b: bool)
    ensures b <==> s.realTime.Some? && s.scheduledTime.Some? && s.realTime.value != s.scheduledTime.value
  {
    match (s.realTime, s.scheduledTime)
    case (Some(r), Some(t)) => r != t
    case _ => false
  }

  /** `ScheduleItem.init?(_ departure:)`: it never fails. */
  function ScheduleItemOf(d: Core.Departure): (s: Option<ScheduleItem>)
    ensures s.Some?
    ensures s.value.name == d.name && s.value.direction == d.direction
    ensures s.value.scheduledTime == d.scheduledTime && s.value.realTime == d.realTime
    ensures s.value.isReachable == d.isReachable && s.value.isCancelled == d.isCancelled
  {
    Some(ScheduleItem(d.name, d.direction, d.scheduledTime, d.realTime, d.isReachable, d.isCancelled))
  }

  /** A row shows the departure's own time. */
  lemma ScheduleItemKeepsTime(d: Core.Departure)
    ensures Time(ScheduleItemOf(d).value) == Core.Time(d)
  {
  }

  /** `SortDescriptor(\.time)` on rows. */
  predicate TimeLe(a: ScheduleItem, b: ScheduleItem) {
    OptionalDateLe(Time(a), Time(b))
  }

  lemma TimeLeIsTotalPreorder()
    ensures Sorting.TotalPreorder(TimeLe)
  {
  }

  /** `TripItem.Trip`: a line and direction at the stop. */
  datatype TripValue = TripValue(
    category: TransportCategory,
    lineId: string,
    name: string,
    direction: string,
    directionId: string)

  /** `TripItem`: a trip and the `UUID` it was given. */
  datatype TripItem = TripItem(id: nat, trip: TripValue)

  /** `TripItem.Trip.init(_ departure:)`. */
  function TripValueOf(d: Core.Departure): (t: TripValue)
    ensures t.category == d.category && t.lineId == d.lineId && t.name == d.name
    ensures t.direction == d.direction && t.directionId == d.directionId
  {
    TripValue(d.category, d.lineId, d.name, d.direction, d.directionId)
  }

  /** Departures of one line and direction give the same trip, whatever their
      times and flags. */
  lemma TripValueIgnoresTimes(d: Core.Departure, e: Core.Departure)
    requires d.category == e.category && d.lineId == e.lineId && d.name == e.name
    requires d.direction == e.direction && d.directionId == e.directionId
    ensures TripValueOf(d) == TripValueOf(e)
  {
  }
}

=== FILE: select_trips.dfy ===
/** The trip picker of the app: it lists the lines and directions that leave
    from the chosen stop, one row per distinct trip in a fixed order, and
    keeps the rows the user has tapped. */
module SelectTrips {
  import opened Wrappers
  import opened Strings
  import opened Seqs
  import Sorting
  import R = ApiResponses

  /** `TripItem.Trip` of the picker: the category stays a string. */
  datatype TripValue = TripValue(category: string, line: string, name: string, direction: string, directionId: string)

  /** A row; its identifier is a fresh `UUID()`, so two rows for the same trip
      are different rows. */
  datatype TripItem = TripItem(id: nat, trip: TripValue)

  function RemoveAt<T>(xs: seq<T>, k: nat): (r: seq<T>)
    requires k < |xs|
    ensures |r| == |xs| - 1
  {
    xs[..k] + xs[k + 1..]
  }

  /** `handleTripTap(_:)`: a selected row is unselected at its first
      occurrence, any other row is appended. */
  function HandleTripTap(selected: seq<TripItem>, item: TripItem): (r: seq<TripItem>)
    ensures item !in selected ==> r == selected + [item]
    ensures item in selected ==>
              var k := FirstIndexOf(selected, item).value;
              && r == selected[..k] + selected[k + 1..]
              && (forall i :: 0 <= i < k ==> selected[i] != item)
  {
    match FirstIndexOf(selected, item)
    case None => selected + [item]
    case Some(k) => RemoveAt(selected, k)
  }

  /** Two taps on a row that was not selected leave the selection as it was. */
  lemma TapTwiceRestores(selected: seq<TripItem>, item: TripItem)
    requires item !in selected
    ensures HandleTripTap(HandleTripTap(selected, item), item) == selected
  {
    var once := selected + [item];
    assert FirstIndexOf(once, item) == Some(|selected|) by {
      FirstIndexOfAppend(selected, item);
    }
    assert once[..|selected|] == selected;
  }

  lemma {:induction false} FirstIndexOfAppend<T>(xs: seq<T>, x: T)
    requires x !in xs
    ensures FirstIndexOf(xs + [x], x) == Some(|xs|)
    decreases |xs|
  {
    if |xs| > 0 {
      assert (xs + [x])[1..] == xs[1..] + [x];
      FirstIndexOfAppend(xs[1..], x);
    } else {
      assert (xs + [x])[0] == x;
    }
  }

  predicate NoDuplicates<T(==)>(xs: seq<T>) {
    forall i, j :: 0 <= i < j < |xs| ==> xs[i] != xs[j]
  }

  /** Unselecting removes the row and keeps the others and their order. */
  lemma UntapKeepsOthers(selected: seq<TripItem>, item: TripItem)
    requires NoDuplicates(selected) && item in selected
    ensures var r := HandleTripTap(selected, item);
            && NoDuplicates(r) && item !in r
            && forall x :: x != item ==> (x in r <==> x in selected)
  {
    var r := HandleTripTap(selected, item);
    var k := FirstIndexOf(selected, item).value;
    assert forall i :: 0 <= i < |r| ==> r[i] == selected[if i < k then i else i + 1];
    forall x | x in selected && x != item
      ensures x in r
    {
      var i :| 0 <= i < |selected| && selected[i] == x;
      assert r[if i < k then i else i - 1] == x;
    }
  }

  /** Selecting appends the row and keeps the others. */
  lemma TapKeepsOthers(selected: seq<TripItem>, item: TripItem)
    requires NoDuplicates(selected) && item !in selected
    ensures var r := HandleTripTap(selected, item);
            && NoDuplicates(r) && item in r
            && forall x :: x != item ==> (x in r <==> x in selected)
  {
    var r := HandleTripTap(selected, item);
    assert forall i :: 0 <= i < |selected| ==> r[i] == selected[i];
  }

  /** A tap flips the tapped row's membership and no other's, and a selection
      without repeats keeps none. */
  lemma TapFlipsMembership(selected: seq<TripItem>, item: TripItem)
    requires NoDuplicates(selected)
    ensures var r := HandleTripTap(selected, item);
            && NoDuplicates(r)
            && (item in r <==> item !in selected)
            && forall x :: x != item ==> (x in r <==> x in selected)
  {
    if item in selected {
      UntapKeepsOthers(selected, item);
    } else {
      TapKeepsOthers(selected, item);
    }
  }

  /** Two rows for one trip are selected side by side. */
  lemma SameTripTwoSelections(t: TripValue, a: nat, b: nat)
    requires a != b
    ensures HandleTripTap(HandleTripTap([], TripItem(a, t)), TripItem(b, t)) == [TripItem(a, t), TripItem(b, t)]
  {
    assert TripItem(b, t) !in [TripItem(a, t)];
  }

  /** The private `StopLocation.locationId` of this screen: the first
      `@`-component of the id that starts with `L=`, prefix and all. */
  function LocationIdWithPrefix(stop: R.StopLocationResponse): (v: Option<string>)
    ensures v.Some? ==> HasPrefix(v.value, "L=") && v.value in R.IdComponents(stop)
    ensures stop.id.None? ==> v.None?
  {
    FirstWithPrefix(R.IdComponents(stop), "L=")
  }

  /** It is the response's own location id with `L=` put back in front. */
  lemma LocationIdWithPrefixAgrees(stop: R.StopLocationResponse)
    ensures LocationIdWithPrefix(stop).Some? <==> R.LocationId(stop).Some?
    ensures LocationIdWithPrefix(stop).Some? ==> LocationIdWithPrefix(stop).value == "L=" + R.LocationId(stop).value
  {
    assert "L" + "=" == "L=";
    var c := FirstWithPrefix(R.IdComponents(stop), "L=");
    if c.Some? {
      assert c.value == "L=" + c.value[2..];
    }
  }

  /** The mapping in `getTrips()`: a trip needs a first product with `line`
      and `catOut`, a name, a direction and a direction id. */
  function TripValueOf(r: R.DepartureResponse): (t: Option<TripValue>)
    ensures t.Some? <==>
              && r.product.Some? && |r.product.value| > 0
              && r.product.value[0].line.Some? && r.name.Some? && r.product.value[0].catOut.Some?
              && r.direction.Some? && R.DirectionId(r).Some?
    ensures t.Some? ==>
              && t.value.category == r.product.value[0].catOut.value
              && t.value.line == r.product.value[0].line.value
              && t.value.name == r.name.value && t.value.direction == r.direction.value
              && t.value.directionId == R.DirectionId(r).value
  {
    if r.product.None? || |r.product.value| == 0 then None
    else
      var product := r.product.value[0];
      if product.line.None? || r.name.None? || product.catOut.None? || r.direction.None? || R.DirectionId(r).None? then None
      else Some(TripValue(product.catOut.value, product.line.value, r.name.value, r.direction.value, R.DirectionId(r).value))
  }

  /** The filter of `getTrips()`: the departure's `stopid` contains the
      location id; without a `stopid` it is dropped. */
  predicate AtStop(locationId: string, r: R.DepartureResponse) {
    r.stopid.Some? && Contains(r.stopid.value, locationId)
  }

  /** `Array(Set(values))`: each value once. The order of a Swift set is
      unspecified; this keeps first occurrences. */
  function Dedup<T(==)>(xs: seq<T>): (r: seq<T>)
    ensures NoDuplicates(r)
    ensures forall i :: 0 <= i < |xs| ==> xs[i] in r
    ensures forall i :: 0 <= i < |r| ==> r[i] in xs
    ensures |r| <= |xs|
  {
    if |xs| == 0 then []
    else
      var rest := Dedup(xs[..|xs| - 1]);
      var last := xs[|xs| - 1];
      assert xs == xs[..|xs| - 1] + [last];
      if last in rest then rest else rest + [last]
  }

  predicate LexLt(a: string, b: string) {
    LexLe(a, b) && a != b
  }

  /** `[SortDescriptor(\.trip.category), SortDescriptor(\.trip.line),
      SortDescriptor(\.trip.direction)]`: by category, then line, then
      direction. */
  predicate KeyLe(a: TripValue, b: TripValue) {
    || LexLt(a.category, b.category)
    || (a.category == b.category && LexLt(a.line, b.line))
    || (a.category == b.category && a.line == b.line && LexLe(a.direction, b.direction))
  }

  lemma KeyLeTotal(a: TripValue, b: TripValue)
    ensures KeyLe(a, b) || KeyLe(b, a)
  {
    LexLeTotal(a.category, b.category);
    LexLeTotal(a.line, b.line);
    LexLeTotal(a.direction, b.direction);
  }

  lemma LexLtTransitive(a: string, b: string, c: string)
    requires LexLe(a, b) && LexLe(b, c) && (LexLt(a, b) || LexLt(b, c))
    ensures LexLt(a, c)
  {
    LexLeTransitive(a, b, c);
    if a == c {
      LexLeAntisymmetric(a, b);
    }
  }

  lemma KeyLeTransitive(a: TripValue, b: TripValue, c: TripValue)
    requires KeyLe(a, b) && KeyLe(b, c)
    ensures KeyLe(a, c)
  {
    LexLeTotal(a.category, a.category);
    LexLeTotal(b.category, b.category);
    LexLeTotal(a.line, a.line);
    LexLeTotal(b.line, b.line);
    if a.category != c.category {
      LexLtTransitive(a.category, b.category, c.category);
    } else if a.category != b.category {
      LexLeAntisymmetric(a.category, b.category);
    } else if a.line != c.line {
      LexLtTransitive(a.line, b.line, c.line);
    } else if a.line != b.line {
      LexLeAntisymmetric(a.line, b.line);
    } else {
      LexLeTransitive(a.direction, b.direction, c.direction);
    }
  }

  lemma KeyLeIsTotalPreorder()
    ensures Sorting.TotalPreorder(KeyLe)
  {
    forall a, b
      ensures KeyLe(a, b) || KeyLe(b, a)
    {
      KeyLeTotal(a, b);
    }
    forall a, b, c | KeyLe(a, b) && KeyLe(b, c)
      ensures KeyLe(a, c)
    {
      KeyLeTransitive(a, b, c);
    }
  }

  /** Fresh rows, one per trip, in order. */
  function NumberTrips(trips: seq<TripValue>, nextId: nat): (items: seq<TripItem>)
    ensures |items| == |trips|
    ensures forall i :: 0 <= i < |trips| ==> items[i] == TripItem(nextId + i, trips[i])
    decreases |trips|
  {
    if |trips| == 0 then [] else [TripItem(nextId, trips[0])] + NumberTrips(trips[1..], nextId + 1)
  }

  /** The trips of the departures at a stop, in board order, repeats included. */
  function StopTrips(locationId: string, departures: seq<R.DepartureResponse>): seq<TripValue> {
    CompactMap(Filter(departures, r => AtStop(locationId, r)), TripValueOf)
  }

  /** The distinct trips in row order. */
  function SortedTrips(locationId: string, departures: seq<R.DepartureResponse>): seq<TripValue> {
    Sorting.SortBy(Dedup(StopTrips(locationId, departures)), KeyLe)
  }

  /** The rows of `getTrips()` for the departures of a stop. */
  function TripRows(locationId: string, departures: seq<R.DepartureResponse>, nextId: nat): seq<TripItem> {
    NumberTrips(SortedTrips(locationId, departures), nextId)
  }

  /** `getTrips()`: nothing changes without a stop, its id or a location id
      in it, or when the board cannot be fetched; otherwise the rows for the
      departures at the stop. */
  function GetTrips<E>(rows: seq<TripItem>, stop: Option<R.StopLocationResponse>,
                       departures: Result<seq<R.DepartureResponse>, E>, nextId: nat): (r: seq<TripItem>)
    ensures stop.None? || stop.value.id.None? || LocationIdWithPrefix(stop.value).None? || departures.Failure? ==> r == rows
    ensures stop.Some? && LocationIdWithPrefix(stop.value).Some? && departures.Success? ==>
              r == TripRows(LocationIdWithPrefix(stop.value).value, departures.value, nextId)
  {
    if stop.None? || stop.value.id.None? then rows
    else match LocationIdWithPrefix(stop.value)
      case None => rows
      case Some(locationId) =>
        match departures
        case Failure(_) => rows
        case Success(ds) => TripRows(locationId, ds, nextId)
  }

  /** No trip has two rows, and no two rows share an identifier. */
  lemma TripRowsDistinct(locationId: string, departures: seq<R.DepartureResponse>, nextId: nat)
    ensures var rows := TripRows(locationId, departures, nextId);
            forall i, j :: 0 <= i < j < |rows| ==> rows[i].trip != rows[j].trip && rows[i].id != rows[j].id
  {
    var unique := Dedup(StopTrips(locationId, departures));
    var sorted := SortedTrips(locationId, departures);
    forall i, j | 0 <= i < j < |sorted|
      ensures sorted[i] != sorted[j]
    {
      PermutationNoDuplicates(unique, sorted, i, j);
    }
  }

  /** The rows are in category, line and direction order. */
  lemma TripRowsOrdered(locationId: string, departures: seq<R.DepartureResponse>, nextId: nat)
    ensures var rows := TripRows(locationId, departures, nextId);
            forall i, j :: 0 <= i < j < |rows| ==> KeyLe(rows[i].trip, rows[j].trip)
  {
    KeyLeIsTotalPreorder();
    Sorting.SortBySorted(Dedup(StopTrips(locationId, departures)), KeyLe);
  }

  /** A trip is offered exactly when some departure at the stop runs it. */
  lemma StopTripsCover(locationId: string, departures: seq<R.DepartureResponse>, t: TripValue)
    ensures t in StopTrips(locationId, departures) <==>
              exists d :: d in departures && AtStop(locationId, d) && TripValueOf(d) == Some(t)
  {
    CompactMapOfFilter(departures, r => AtStop(locationId, r), TripValueOf, t);
  }

  lemma CompactMapOfFilter<T, U>(xs: seq<T>, p: T -> bool, f: T -> Option<U>, y: U)
    ensures y in CompactMap(Filter(xs, p), f) <==> exists x :: x in xs && p(x) && f(x) == Some(y)
  {
    var kept := Filter(xs, p);
    if y in CompactMap(kept, f) {
      var k :| 0 <= k < |kept| && f(kept[k]) == Some(y);
      assert kept[k] in xs && p(kept[k]);
    }
    if exists x :: x in xs && p(x) && f(x) == Some(y) {
      var x :| x in xs && p(x) && f(x) == Some(y);
      var k :| 0 <= k < |xs| && xs[k] == x;
      assert x in kept;
      var m :| 0 <= m < |kept| && kept[m] == x;
    }
  }

  /** The sorted distinct values hold every value and nothing else. */
  lemma SortedDistinctCover<T>(values: seq<T>, le: (T, T) -> bool, t: T)
    ensures t in Sorting.SortBy(Dedup(values), le) <==> t in values
  {
    var unique := Dedup(values);
    var sorted := Sorting.SortBy(unique, le);
    assert t in sorted <==> t in unique by {
      assert multiset(sorted) == multiset(unique);
      assert t in sorted <==> t in multiset(sorted);
      assert t in unique <==> t in multiset(unique);
    }
    if t in values {
      var i :| 0 <= i < |values| && values[i] == t;
    }
    if t in unique {
      var i :| 0 <= i < |unique| && unique[i] == t;
    }
  }

  lemma NumberTripsCover(trips: seq<TripValue>, nextId: nat, t: TripValue)
    ensures var rows := NumberTrips(trips, nextId);
            (exists i :: 0 <= i < |rows| && rows[i].trip == t) <==> t in trips
  {
    var rows := NumberTrips(trips, nextId);
    if t in trips {
      var i :| 0 <= i < |trips| && trips[i] == t;
      assert rows[i].trip == t;
    }
  }

  lemma SortedTripsCover(locationId: string, departures: seq<R.DepartureResponse>, t: TripValue)
    ensures t in SortedTrips(locationId, departures) <==> t in StopTrips(locationId, departures)
  {
    SortedDistinctCover(StopTrips(locationId, departures), KeyLe, t);
  }

  /** Every trip of the stop has a row, and every row is a trip of the stop. */
  lemma TripRowsCover(locationId: string, departures: seq<R.DepartureResponse>, nextId: nat, t: TripValue)
    ensures var rows := TripRows(locationId, departures, nextId);
            (exists i :: 0 <= i < |rows| && rows[i].trip == t) <==> t in StopTrips(locationId, departures)
  {
    var sorted := SortedTrips(locationId, departures);
    assert TripRows(locationId, departures, nextId) == NumberTrips(sorted, nextId);
    NumberTripsCover(sorted, nextId, t);
    SortedTripsCover(locationId, departures, t);
  }

  lemma {:induction false} NoDuplicatesCount<T>(xs: seq<T>, x: T)
    requires NoDuplicates(xs)
    ensures multiset(xs)[x] <= 1
    decreases |xs|
  {
    if |xs| > 0 {
      assert xs == [xs[0]] + xs[1..];
      assert forall i :: 0 <= i < |xs| - 1 ==> xs[1..][i] == xs[i + 1];
      NoDuplicatesCount(xs[1..], x);
      if xs[0] == x {
        assert x !in xs[1..];
      }
    }
  }

  /** A permutation of a sequence without repeats has none. */
  lemma PermutationNoDuplicates<T>(xs: seq<T>, ys: seq<T>, i: nat, j: nat)
    requires NoDuplicates(xs) && multiset(xs) == multiset(ys) && i < j < |ys|
    ensures ys[i] != ys[j]
  {
    if ys[i] == ys[j] {
      var x := ys[i];
      assert ys == ys[..i] + [x] + ys[i + 1..j] + [x] + ys[j + 1..];
      assert multiset(ys)[x] >= 2;
      NoDuplicatesCount(xs, x);
    }
  }

  /** The order of the set does not show: any arrangement of the distinct
      trips gives the same rows when no two trips share category, line and
      direction. */
  lemma SetOrderDoesNotShow(values: seq<TripValue>, other: seq<TripValue>, nextId: nat)
    requires multiset(other) == multiset(Dedup(values))
    requires Sorting.NoTies(Dedup(values), KeyLe)
    ensures NumberTrips(Sorting.SortBy(other, KeyLe), nextId) == NumberTrips(Sorting.SortBy(Dedup(values), KeyLe), nextId)
  {
    KeyLeIsTotalPreorder();
    Sorting.SortByPermutationInvariant(Dedup(values), other, KeyLe);
  }
}

=== FILE: seqs.dfy ===
/** Sequence searches and filters the app writes with Swift's `first(where:)`,
    `filter` and `compactMap`. */
module Seqs {
  import opened Wrappers

  /** `xs.first(where: p)`. */
  function FirstWhere<T>(xs: seq<T>, p: T -> bool): (r: Option<T>)
    ensures r.Some? ==> p(r.value)
    ensures r.Some? ==> exists k :: 0 <= k < |xs| && xs[k] == r.value && forall i :: 0 <= i < k ==> !p(xs[i])
    ensures r.None? <==> forall i :: 0 <= i < |xs| ==> !p(xs[i])
  {
    if |xs| == 0 then None
    else if p(xs[0]) then Some(xs[0])
    else
      var r := FirstWhere(xs[1..], p);
      assert forall i :: 1 <= i < |xs| ==> xs[i] == xs[1..][i - 1];
      r
  }

  /** The first match wins, whatever follows it. */
  lemma {:induction false} FirstWhereFinds<T>(before: seq<T>, x: T, after: seq<T>, p: T -> bool)
    requires forall i :: 0 <= i < |before| ==> !p(before[i])
    requires p(x)
    ensures FirstWhere(before + [x] + after, p) == Some(x)
    decreases |before|
  {
    if |before| > 0 {
      FirstWhereFinds(before[1..], x, after, p);
      assert (before + [x] + after)[1..] == before[1..] + [x] + after;
    } else {
      assert (before + [x] + after)[0] == x;
    }
  }

  /** `xs.filter(p)`. */
  function Filter<T>(xs: seq<T>, p: T -> bool): (r: seq<T>)
    ensures |r| <= |xs|
    ensures forall i :: 0 <= i < |r| ==> p(r[i]) && r[i] in xs
    ensures forall i :: 0 <= i < |xs| && p(xs[i]) ==> xs[i] in r
  {
    if |xs| == 0 then []
    else
      var rest := Filter(xs[1..], p);
      assert forall i :: 1 <= i < |xs| ==> xs[i] == xs[1..][i - 1];
      if p(xs[0]) then [xs[0]] + rest else rest
  }

  /** Filtering keeps the order: it distributes over concatenation. */
  lemma {:induction false} FilterAppend<T>(a: seq<T>, b: seq<T>, p: T -> bool)
    ensures Filter(a + b, p) == Filter(a, p) + Filter(b, p)
    decreases |a|
  {
    if |a| > 0 {
      FilterAppend(a[1..], b, p);
      assert (a + b)[1..] == a[1..] + b;
      assert (a + b)[0] == a[0];
    } else {
      assert a + b == b;
    }
  }

  /** `xs.compactMap(f)`: the present results, in order. */
  function CompactMap<T, U>(xs: seq<T>, f: T -> Option<U>): (r: seq<U>)
    ensures |r| <= |xs|
    ensures forall i :: 0 <= i < |xs| && f(xs[i]).Some? ==> f(xs[i]).value in r
    ensures forall y :: y in r ==> exists i :: 0 <= i < |xs| && f(xs[i]) == Some(y)
  {
    if |xs| == 0 then []
    else
      var rest := CompactMap(xs[1..], f);
      assert forall i :: 1 <= i < |xs| ==> xs[i] == xs[1..][i - 1];
      match f(xs[0])
      case Some(y) => [y] + rest
      case None => rest
  }

  /** `compactMap` keeps the order: it distributes over concatenation. */
  lemma {:induction false} CompactMapAppend<T, U>(a: seq<T>, b: seq<T>, f: T -> Option<U>)
    ensures CompactMap(a + b, f) == CompactMap(a, f) + CompactMap(b, f)
    decreases |a|
  {
    if |a| > 0 {
      CompactMapAppend(a[1..], b, f);
      assert (a + b)[1..] == a[1..] + b;
      assert (a + b)[0] == a[0];
    } else {
      assert a + b == b;
    }
  }

  /** When every element maps to a value, `compactMap` is an element-wise map. */
  lemma {:induction false} CompactMapAllSome<T, U>(xs: seq<T>, f: T -> Option<U>)
    requires forall i :: 0 <= i < |xs| ==> f(xs[i]).Some?
    ensures |CompactMap(xs, f)| == |xs|
    ensures forall i :: 0 <= i < |xs| ==> CompactMap(xs, f)[i] == f(xs[i]).value
    decreases |xs|
  {
    if |xs| > 0 {
      CompactMapAllSome(xs[1..], f);
      var rest := CompactMap(xs[1..], f);
      assert CompactMap(xs, f) == [f(xs[0]).value] + rest;
      forall i | 1 <= i < |xs|
        ensures CompactMap(xs, f)[i] == f(xs[i]).value
      {
        assert xs[1..][i - 1] == xs[i];
      }
    }
  }

  /** `xs.map(f)`. */
  function Map<T, U>(xs: seq<T>, f: T -> U): (r: seq<U>)
    ensures |r| == |xs|
    ensures forall i :: 0 <= i < |xs| ==> r[i] == f(xs[i])
  {
    if |xs| == 0 then [] else [f(xs[0])] + Map(xs[1..], f)
  }

  /** Equal multisets map to equal multisets. */
  lemma {:induction false} MapMultiset<T, U>(xs: seq<T>, ys: seq<T>, f: T -> U)
    requires multiset(xs) == multiset(ys)
    ensures multiset(Map(xs, f)) == multiset(Map(ys, f))
    decreases |xs|
  {
    if |xs| > 0 {
      var x := xs[0];
      assert x in multiset(ys);
      var k :| 0 <= k < |ys| && ys[k] == x;
      var rest := ys[..k] + ys[k + 1..];
      RemoveMatching(xs, ys, k);
      MapMultiset(xs[1..], rest, f);
      MapRemove(ys, k, f);
      MapAppend([x], xs[1..], f);
      assert xs == [x] + xs[1..];
    }
  }

  lemma RemoveMatching<T>(xs: seq<T>, ys: seq<T>, k: nat)
    requires multiset(xs) == multiset(ys) && |xs| > 0 && k < |ys| && ys[k] == xs[0]
    ensures multiset(xs[1..]) == multiset(ys[..k] + ys[k + 1..])
  {
    assert ys == ys[..k] + [ys[k]] + ys[k + 1..];
    assert xs == [xs[0]] + xs[1..];
    assert multiset(xs[1..]) == multiset(xs) - multiset{xs[0]};
  }

  lemma MapRemove<T, U>(ys: seq<T>, k: nat, f: T -> U)
    requires k < |ys|
    ensures multiset(Map(ys, f)) == multiset(Map(ys[..k] + ys[k + 1..], f)) + multiset{f(ys[k])}
  {
    var a, b := ys[..k], ys[k + 1..];
    assert ys == a + ([ys[k]] + b);
    MapAppend(a, [ys[k]] + b, f);
    MapAppend([ys[k]], b, f);
    assert Map([ys[k]], f) == [f(ys[k])];
    MapAppend(a, b, f);
    assert Map(ys, f) == Map(a, f) + [f(ys[k])] + Map(b, f);
  }

  lemma MapAppend<T, U>(a: seq<T>, b: seq<T>, f: T -> U)
    ensures Map(a + b, f) == Map(a, f) + Map(b, f)
  {
    assert forall i :: 0 <= i < |a + b| ==> Map(a + b, f)[i] == (Map(a, f) + Map(b, f))[i];
  }
}

=== FILE: server_date.dfy ===
/** The server's date and time strings and the point in time they denote.
    Calendar arithmetic and the `yyyy-MM-dd HH:mm:ss` formatter are not part
    of this model: `parse` stands for the formatter. */
module ServerDates {
  import opened Wrappers

  /** A point in time, in whole seconds from a fixed origin. */
  type Date = int

  /** `ServerDateFormatter.date(date:time:)`: the two strings joined by a
      space and handed to the formatter, or nothing when either is missing. */
  function ServerDate(date: Option<string>, time: Option<string>, parse: string -> Option<Date>): (r: Option<Date>)
    ensures date.None? || time.None? ==> r.None?
    ensures date.Some? && time.Some? ==> r == parse(date.value + " " + time.value)
  {
    match (date, time)
    case (Some(d), Some(t)) => parse(d + " " + t)
    case _ => None
  }

  /** The order `SortDescriptor` gives an optional date: a missing date comes
      first, then the dates in time order. */
  predicate OptionalDateLe(a: Option<Date>, b: Option<Date>) {
    a.None? || (b.Some? && a.value <= b.value)
  }
}

=== FILE: sorting.dfy ===
/** Stable sorting by a comparator, the behaviour the app gets from
    `sorted(using: SortDescriptor(...))`: elements that compare equal keep
    their original relative order. */
module Sorting {
  import Seqs

  /** `le` is a total preorder: any two elements compare, and comparison chains. */
  ghost predicate TotalPreorder<T(!new)>(le: (T, T) -> bool) {
    && (forall a, b :: le(a, b) || le(b, a))
    && (forall a, b, c :: le(a, b) && le(b, c) ==> le(a, c))
  }

  predicate Sorted<T>(xs: seq<T>, le: (T, T) -> bool) {
    forall i, j :: 0 <= i < j < |xs| ==> le(xs[i], xs[j])
  }

  /** No two positions of `xs` hold different elements that `le` cannot tell apart. */
  predicate NoTies<T(==)>(xs: seq<T>, le: (T, T) -> bool) {
    forall i, j :: 0 <= i < |xs| && 0 <= j < |xs| && le(xs[i], xs[j]) && le(xs[j], xs[i]) ==> xs[i] == xs[j]
  }

  /** Places `x` after every leading element that is not greater than it. */
  function Insert<T>(x: T, xs: seq<T>, le: (T, T) -> bool): (r: seq<T>)
    ensures multiset(r) == multiset(xs) + multiset{x}
    ensures |r| == |xs| + 1
  {
    if |xs| == 0 then [x]
    else if le(xs[0], x) then
      assert xs == [xs[0]] + xs[1..];
      [xs[0]] + Insert(x, xs[1..], le)
    else [x] + xs
  }

  /** Insertion sort, taking the elements from left to right. */
  function SortBy<T>(xs: seq<T>, le: (T, T) -> bool): (r: seq<T>)
    ensures multiset(r) == multiset(xs)
    ensures |r| == |xs|
    decreases |xs|
  {
    if |xs| == 0 then []
    else
      assert xs == xs[..|xs| - 1] + [xs[|xs| - 1]];
      Insert(xs[|xs| - 1], SortBy(xs[..|xs| - 1], le), le)
  }

  lemma {:induction false} InsertSorted<T(!new)>(x: T, xs: seq<T>, le: (T, T) -> bool)
    requires TotalPreorder(le) && Sorted(xs, le)
    ensures Sorted(Insert(x, xs, le), le)
    decreases |xs|
  {
    if |xs| > 0 {
      if le(xs[0], x) {
        var tail := xs[1..];
        var rest := Insert(x, tail, le);
        InsertSorted(x, tail, le);
        forall j | 0 <= j < |rest|
          ensures le(xs[0], rest[j])
        {
          assert rest[j] in multiset(rest);
          if rest[j] != x {
            assert rest[j] in multiset(tail);
            var k :| 0 <= k < |tail| && tail[k] == rest[j];
            assert xs[k + 1] == rest[j];
          }
        }
        var r := [xs[0]] + rest;
        forall i, j | 0 <= i < j < |r|
          ensures le(r[i], r[j])
        {
          if i == 0 {
            assert r[j] == rest[j - 1];
          } else {
            assert r[i] == rest[i - 1] && r[j] == rest[j - 1];
          }
        }
      } else {
        assert le(x, xs[0]);
        var r := [x] + xs;
        forall i, j | 0 <= i < j < |r|
          ensures le(r[i], r[j])
        {
          if i == 0 {
            if j > 1 {
              assert le(xs[0], xs[j - 1]);
            }
          } else {
            assert r[i] == xs[i - 1] && r[j] == xs[j - 1];
          }
        }
      }
    }
  }

  /** Under a total preorder the result of `SortBy` is sorted. */
  lemma {:induction false} SortBySorted<T(!new)>(xs: seq<T>, le: (T, T) -> bool)
    requires TotalPreorder(le)
    ensures Sorted(SortBy(xs, le), le)
    decreases |xs|
  {
    if |xs| > 0 {
      SortBySorted(xs[..|xs| - 1], le);
      InsertSorted(xs[|xs| - 1], SortBy(xs[..|xs| - 1], le), le);
    }
  }

  /** An element that is not smaller than anything already placed goes last. */
  lemma {:induction false} InsertAfterAll<T>(x: T, xs: seq<T>, le: (T, T) -> bool)
    requires forall i :: 0 <= i < |xs| ==> le(xs[i], x)
    ensures Insert(x, xs, le) == xs + [x]
    decreases |xs|
  {
    if |xs| > 0 {
      InsertAfterAll(x, xs[1..], le);
      assert xs == [xs[0]] + xs[1..];
    }
  }

  /** Stability: a sequence already in order, ties included, is left as it is. */
  lemma {:induction false} SortBySortedIsIdentity<T>(xs: seq<T>, le: (T, T) -> bool)
    requires Sorted(xs, le)
    ensures SortBy(xs, le) == xs
    decreases |xs|
  {
    if |xs| > 0 {
      var init := xs[..|xs| - 1];
      assert Sorted(init, le);
      SortBySortedIsIdentity(init, le);
      InsertAfterAll(xs[|xs| - 1], init, le);
      assert init + [xs[|xs| - 1]] == xs;
    }
  }

  /** The smallest elements of two sorted arrangements of the same elements
      coincide when no two distinct elements tie. */
  lemma SortedSameHead<T>(xs: seq<T>, ys: seq<T>, le: (T, T) -> bool)
    requires |xs| > 0 && |ys| > 0
    requires Sorted(xs, le) && Sorted(ys, le)
    requires multiset(xs) == multiset(ys)
    requires NoTies(xs, le)
    ensures xs[0] == ys[0]
  {
    assert ys[0] in multiset(xs);
    var j :| 0 <= j < |xs| && xs[j] == ys[0];
    assert xs[0] in multiset(ys);
    var k :| 0 <= k < |ys| && ys[k] == xs[0];
    if j != 0 && k != 0 {
      assert le(xs[0], xs[j]);
      assert le(ys[0], ys[k]);
      assert le(xs[j], xs[0]);
      assert xs[0] == xs[j];
    }
  }

  lemma MultisetOfTails<T>(xs: seq<T>, ys: seq<T>)
    requires |xs| > 0 && |ys| > 0 && xs[0] == ys[0]
    requires multiset(xs) == multiset(ys)
    ensures multiset(xs[1..]) == multiset(ys[1..])
  {
    assert xs == [xs[0]] + xs[1..];
    assert ys == [ys[0]] + ys[1..];
    assert multiset(xs) == multiset{xs[0]} + multiset(xs[1..]);
    assert multiset(ys) == multiset{xs[0]} + multiset(ys[1..]);
    assert multiset(xs[1..]) == multiset(xs) - multiset{xs[0]};
    assert multiset(ys[1..]) == multiset(ys) - multiset{xs[0]};
  }

  /** Two sorted arrangements of the same elements coincide when no two
      distinct elements tie. */
  lemma {:induction false} SortedUnique<T>(xs: seq<T>, ys: seq<T>, le: (T, T) -> bool)
    requires Sorted(xs, le) && Sorted(ys, le)
    requires multiset(xs) == multiset(ys)
    requires NoTies(xs, le)
    ensures xs == ys
    decreases |xs|
  {
    assert |xs| == |multiset(xs)| == |multiset(ys)| == |ys|;
    if |xs| > 0 {
      SortedSameHead(xs, ys, le);
      MultisetOfTails(xs, ys);
      var tx := xs[1..];
      assert NoTies(tx, le) by {
        forall i, m | 0 <= i < |tx| && 0 <= m < |tx| && le(tx[i], tx[m]) && le(tx[m], tx[i])
          ensures tx[i] == tx[m]
        {
          assert tx[i] == xs[i + 1] && tx[m] == xs[m + 1];
        }
      }
      SortedUnique(tx, ys[1..], le);
      assert xs == [xs[0]] + tx;
      assert ys == [ys[0]] + ys[1..];
    }
  }

  /** Sorting forgets the original order when no two distinct elements tie. */
  lemma SortByPermutationInvariant<T(!new)>(xs: seq<T>, ys: seq<T>, le: (T, T) -> bool)
    requires TotalPreorder(le)
    requires multiset(xs) == multiset(ys)
    requires NoTies(xs, le)
    ensures SortBy(xs, le) == SortBy(ys, le)
  {
    var sx, sy := SortBy(xs, le), SortBy(ys, le);
    SortBySorted(xs, le);
    SortBySorted(ys, le);
    assert NoTies(sx, le) by {
      forall i, m | 0 <= i < |sx| && 0 <= m < |sx| && le(sx[i], sx[m]) && le(sx[m], sx[i])
        ensures sx[i] == sx[m]
      {
        assert sx[i] in multiset(xs) && sx[m] in multiset(xs);
        var a :| 0 <= a < |xs| && xs[a] == sx[i];
        var b :| 0 <= b < |xs| && xs[b] == sx[m];
      }
    }
    SortedUnique(sx, sy, le);
  }

  /** Sorting by a comparison that only looks at `f` of the elements and then
      applying `f` is sorting the images. */
  lemma {:induction false} InsertMap<T, U>(x: T, xs: seq<T>, le: (T, T) -> bool, f: T -> U, leImage: (U, U) -> bool)
    requires forall a, b :: le(a, b) == leImage(f(a), f(b))
    ensures Seqs.Map(Insert(x, xs, le), f) == Insert(f(x), Seqs.Map(xs, f), leImage)
    decreases |xs|
  {
    if |xs| > 0 {
      assert Seqs.Map(xs, f)[0] == f(xs[0]);
      assert Seqs.Map(xs, f)[1..] == Seqs.Map(xs[1..], f);
      if le(xs[0], x) {
        InsertMap(x, xs[1..], le, f, leImage);
        Seqs.MapAppend([xs[0]], Insert(x, xs[1..], le), f);
        assert Seqs.Map([xs[0]], f) == [f(xs[0])];
      } else {
        Seqs.MapAppend([x], xs, f);
        assert Seqs.Map([x], f) == [f(x)];
      }
    } else {
      assert Seqs.Map([x], f) == [f(x)];
    }
  }

  lemma {:induction false} SortByMap<T, U>(xs: seq<T>, le: (T, T) -> bool, f: T -> U, leImage: (U, U) -> bool)
    requires forall a, b :: le(a, b) == leImage(f(a), f(b))
    ensures Seqs.Map(SortBy(xs, le), f) == SortBy(Seqs.Map(xs, f), leImage)
    decreases |xs|
  {
    if |xs| > 0 {
      var init, x := xs[..|xs| - 1], xs[|xs| - 1];
      var ys := Seqs.Map(xs, f);
      assert ys[..|ys| - 1] == Seqs.Map(init, f);
      assert ys[|ys| - 1] == f(x);
      calc {
        Seqs.Map(SortBy(xs, le), f);
        Seqs.Map(Insert(x, SortBy(init, le), le), f);
        { InsertMap(x, SortBy(init, le), le, f, leImage); }
        Insert(f(x), Seqs.Map(SortBy(init, le), f), leImage);
        { SortByMap(init, le, f, leImage); }
        Insert(f(x), SortBy(Seqs.Map(init, f), leImage), leImage);
        Insert(ys[|ys| - 1], SortBy(ys[..|ys| - 1], leImage), leImage);
        SortBy(ys, leImage);
      }
    }
  }
}

=== FILE: stop_schedule.dfy ===
/** The stop schedule screen's view model: it holds a stop, the trips chosen
    for it and the schedule rows, asks the departure board for every trip
    with a window that shrinks as trips are added, and re-targets itself
    when the widget's link is opened. */
module StopSchedule {
  import opened Wrappers
  import opened Seqs
  import opened Urls
  import opened RequestModels
  import opened ScheduleItems
  import Sorting
  import Api = ApiModels
  import Core = CoreModels
  import DL = DeepLinks
  import W = WidgetEntries
  import IP = IntentParameters
  import NM = NetworkManager

  datatype State = State(stop: Api.StopLocation, trips: seq<TripItem>, scheduleItems: seq<ScheduleItem>)

  /** The screen's state after a change, with the departure-board requests the
      change sends off. */
  datatype Update = Update(state: State, requests: seq<DepartureBoardRequest>)

  function Max(a: int, b: int): int {
    if a < b then b else a
  }

  function Min(a: int, b: int): int {
    if a < b then a else b
  }

  /** The window of `fetchSchedule` as written, in minutes, for `n` trips:
      `60 * max(1, min(8 / n, 8))`. Swift traps on the integer division when
      `n` is zero, which is `None` here. */
  function FetchDurationAsWritten(n: nat): (d: Option<int>)
    ensures d.None? <==> n == 0
    ensures d.Some? ==> 60 <= d.value <= 480 && d.value % 60 == 0
  {
    if n == 0 then None else Some(60 * Max(1, Min(8 / n, 8)))
  }

  /** The window with the division guarded: with no trips it is the widest,
      and nothing is requested with it anyway. */
  function FetchDuration(n: nat): (d: int)
    ensures 60 <= d <= 480
    ensures n >= 1 ==> FetchDurationAsWritten(n) == Some(d)
    ensures n == 0 ==> d == 480
  {
    60 * Max(1, Min(8 / Max(n, 1), 8))
  }

  /** Eight hours shared out by the trips, in whole hours, never below one. */
  lemma FetchDurationTable()
    ensures FetchDuration(1) == 480 && FetchDuration(2) == 240
    ensures FetchDuration(3) == 120 && FetchDuration(4) == 120
    ensures forall n: nat :: n >= 5 ==> FetchDuration(n) == 60
  {
  }

  /** More trips never widen the window. */
  lemma FetchDurationShrinks(n: nat, m: nat)
    requires 1 <= n <= m
    ensures FetchDuration(m) <= FetchDuration(n)
  {
  }

  function TripRequest(stopId: string, duration: int, t: TripItem): DepartureBoardRequest {
    MakeRequest(stopId, lineId := Some(t.trip.lineId), directionId := Some(t.trip.directionId), duration := Some(duration))
  }

  /** The requests of `fetchSchedule(stopId:tripItems:)`: one per trip, in
      order, at the one stop, for the trip's line and direction. */
  function ScheduleRequests(stopId: string, trips: seq<TripItem>): (reqs: seq<DepartureBoardRequest>)
    ensures |reqs| == |trips|
    ensures forall i :: 0 <= i < |trips| ==>
              && reqs[i].stopId == stopId
              && reqs[i].lineId == Some(trips[i].trip.lineId)
              && reqs[i].directionId == Some(trips[i].trip.directionId)
              && reqs[i].duration == Some(FetchDuration(|trips|))
              && reqs[i].date.None? && reqs[i].time.None? && reqs[i].maxJourneys.None?
  {
    var duration := FetchDuration(|trips|);
    Map(trips, t => TripRequest(stopId, duration, t))
  }

  /** What the server is asked for each trip: the stop, the trip's line and
      direction, and the window, and nothing else. */
  lemma ScheduleRequestsQuery(stopId: string, trips: seq<TripItem>, i: nat)
    requires i < |trips|
    ensures var items := NM.DepartureBoardQueryItems(ScheduleRequests(stopId, trips)[i]);
            && items[0] == QueryItem("id", Some(stopId))
            && ValueNamed(items, "lines") == Some(trips[i].trip.lineId)
            && ValueNamed(items, "direction") == Some(trips[i].trip.directionId)
            && ValueNamed(items, "duration") == NM.DurationText(Some(FetchDuration(|trips|)))
            && ValueNamed(items, "date").None? && ValueNamed(items, "time").None?
  {
  }

  function RowOf(d: Core.Departure): ScheduleItem {
    ScheduleItemOf(d).value
  }

  /** What `fetchSchedule` makes of the answer: on an error no rows; else a
      row per departure, ordered by time with undated rows first and ties in
      the order received. */
  function ScheduleItemsOf<E>(fetched: Result<seq<Core.Departure>, E>): (rows: seq<ScheduleItem>)
    ensures fetched.Failure? ==> rows == []
    ensures fetched.Success? ==> multiset(rows) == multiset(Map(fetched.value, RowOf))
    ensures Sorting.Sorted(rows, TimeLe)
  {
    match fetched
    case Failure(_) => []
    case Success(ds) =>
      var rows := CompactMap(ds, ScheduleItemOf);
      CompactMapAllSome(ds, ScheduleItemOf);
      assert rows == Map(ds, RowOf);
      TimeLeIsTotalPreorder();
      Sorting.SortBySorted(rows, TimeLe);
      Sorting.SortBy(rows, TimeLe)
  }

  /** The task group hands the departures back in whatever order the requests
      finish; the rows do not depend on it when no two rows share a time. */
  lemma ScheduleIgnoresArrivalOrder<E>(ds: seq<Core.Departure>, es: seq<Core.Departure>)
    requires multiset(ds) == multiset(es)
    requires Sorting.NoTies(Map(ds, RowOf), TimeLe)
    ensures ScheduleItemsOf<E>(Success(ds)) == ScheduleItemsOf<E>(Success(es))
  {
    CompactMapAllSome(ds, ScheduleItemOf);
    CompactMapAllSome(es, ScheduleItemOf);
    var xs, ys := Map(ds, RowOf), Map(es, RowOf);
    assert CompactMap(ds, ScheduleItemOf) == xs;
    assert CompactMap(es, ScheduleItemOf) == ys;
    MapMultiset(ds, es, RowOf);
    TimeLeIsTotalPreorder();
    Sorting.SortByPermutationInvariant(xs, ys, TimeLe);
  }

  /** `init(stop:trips:scheduleItems:)`: the state as given, the rows passed in
      (none by default) showing until the fetch for its trips answers. */
  function Init(stop: Api.StopLocation, trips: seq<TripItem>, rows: seq<ScheduleItem>): (u: Update)
    ensures u.state == State(stop, trips, rows)
    ensures u.requests == ScheduleRequests(stop.locationId, trips)
  {
    Update(State(stop, trips, rows), ScheduleRequests(stop.locationId, trips))
  }

  /** `handleWidgetURL(_:)`: a link that does not parse changes nothing and
      fetches nothing; one that does replaces stop and trips and fetches for
      them, the old rows staying until the answer comes. */
  function HandleWidgetUrl(s: State, url: Option<Url>, nextId: nat): (u: Update)
    ensures url.None? || DL.GetStopScheduleParameters(url.value, nextId).None? ==> u == Update(s, [])
    ensures url.Some? && DL.GetStopScheduleParameters(url.value, nextId).Some? ==>
              var p := DL.GetStopScheduleParameters(url.value, nextId).value;
              && u.state == State(p.stopLocation, p.tripItems, s.scheduleItems)
              && u.requests == ScheduleRequests(p.stopLocation.locationId, p.tripItems)
  {
    match url
    case None => Update(s, [])
    case Some(link) =>
      match DL.GetStopScheduleParameters(link, nextId)
      case None => Update(s, [])
      case Some(p) => Update(State(p.stopLocation, p.tripItems, s.scheduleItems),
                             ScheduleRequests(p.stopLocation.locationId, p.tripItems))
  }

  /** The answer to a fetch replaces the rows and nothing else. */
  function FetchCompleted<E>(s: State, fetched: Result<seq<Core.Departure>, E>): (t: State)
    ensures t.stop == s.stop && t.trips == s.trips
    ensures t.scheduleItems == ScheduleItemsOf(fetched)
  {
    s.(scheduleItems := ScheduleItemsOf(fetched))
  }

  /** Opening the widget's own link asks, at its stop, for exactly the lines
      and directions of the departures it was configured with. */
  lemma WidgetLinkSchedulesItsTrips(s: State, stop: Api.StopLocation, departures: seq<Core.Departure>,
                                   date: int, data: W.WidgetData, nextId: nat)
    requires IP.Serialisable(stop.locationId) && IP.Serialisable(stop.name)
    requires forall i :: 0 <= i < |departures| ==> DL.SerialisableDeparture(departures[i])
    ensures var entry := W.MakeEntry(date, data, Some(IP.StopOf(stop)), DL.WidgetTrips(departures));
            var u := HandleWidgetUrl(s, W.MakeWidgetUrl(entry), nextId);
            && u.state.stop == stop
            && |u.requests| == |departures|
            && forall i :: 0 <= i < |departures| ==>
                 && u.requests[i].stopId == stop.locationId
                 && u.requests[i].lineId == Some(departures[i].lineId)
                 && u.requests[i].directionId == Some(departures[i].directionId)
  {
    DL.WidgetLinkRoundTrip(stop, departures, date, data, nextId);
  }

  /** The division by zero: a widget link with a stop and no trip the app can
      read opens a schedule with no trips, and the window of that fetch is
      undefined as written. */
  lemma EmptyTripsTrap(s: State, stop: Api.StopLocation, date: int, data: W.WidgetData, nextId: nat)
    requires IP.Serialisable(stop.locationId) && IP.Serialisable(stop.name)
    ensures var entry := W.MakeEntry(date, data, Some(IP.StopOf(stop)), []);
            var p := DL.GetStopScheduleParameters(W.MakeWidgetUrl(entry).value, nextId);
            && p.Some? && p.value.tripItems == []
            && FetchDurationAsWritten(|p.value.tripItems|).None?
  {
    DL.WidgetLinkRoundTrip(stop, [], date, data, nextId);
  }
}

=== FILE: strings.dfy ===
/** The String operations the app relies on, stated over `seq<char>`:
    Swift's `split(separator:)` (which drops empty pieces), `joined(separator:)`,
    prefix and substring tests, code-point order, decimal printing of `Int`, and
    the file-name stem/extension split Foundation performs on URLs. */
module Strings {
  import opened Wrappers

  // ---------------------------------------------------------------------------
  // Splitting and joining

  /** Index of the first `c` in `s`, or `|s|` when there is none: where the
      current piece ends. */
  function PieceEnd(s: string, c: char): (k: nat)
    ensures k <= |s|
    ensures forall i :: 0 <= i < k ==> s[i] != c
    ensures k < |s| ==> s[k] == c
  {
    if |s| == 0 || s[0] == c then 0 else 1 + PieceEnd(s[1..], c)
  }

  /** Swift's `s.split(separator: c)` with its default
      `omittingEmptySubsequences: true`: the maximal runs of non-`c`
      characters, left to right. */
  function Split(s: string, c: char): (parts: seq<string>)
    ensures forall i :: 0 <= i < |parts| ==> |parts[i]| > 0 && c !in parts[i]
    decreases |s|
  {
    if |s| == 0 then []
    else if s[0] == c then Split(s[1..], c)
    else
      var k := PieceEnd(s, c);
      [s[..k]] + Split(s[k..], c)
  }

  /** Swift's `parts.joined(separator: String(c))`. */
  function Join(parts: seq<string>, c: char): string
  {
    if |parts| == 0 then ""
    else if |parts| == 1 then parts[0]
    else parts[0] + [c] + Join(parts[1..], c)
  }

  /** A piece `Split` can hand back unchanged: non-empty and free of `c`. */
  predicate IsPiece(p: string, c: char) {
    |p| > 0 && c !in p
  }

  lemma PieceOfConcat(a: string, b: string, c: char)
    requires IsPiece(a, c) && c !in b
    ensures IsPiece(a + b, c)
  {
    assert forall ch :: ch in a + b ==> ch in a || ch in b;
  }

  lemma SplitOfPiece(p: string, c: char)
    requires IsPiece(p, c)
    ensures Split(p, c) == [p]
  {
    var k := PieceEnd(p, c);
    assert k == |p|;
    assert p[k..] == [];
    assert p[..k] == p;
  }

  /** A separator cuts the string in two independent halves. */
  lemma {:induction false} SplitAround(a: string, c: char, b: string)
    ensures Split(a + [c] + b, c) == Split(a, c) + Split(b, c)
    decreases |a|
  {
    var s := a + [c] + b;
    if |a| == 0 {
      assert s == [c] + b;
      assert s[1..] == b;
    } else if a[0] == c {
      assert s[1..] == a[1..] + [c] + b;
      SplitAround(a[1..], c, b);
    } else {
      var k := PieceEnd(a, c);
      if k < |a| {
        assert s == a + ([c] + b);
        PieceEndOfPrefix(a, c, [c] + b);
        assert PieceEnd(s, c) == k;
        assert s[..k] == a[..k];
        assert s[k..] == a[k..] + [c] + b;
        SplitAround(a[k..], c, b);
      } else {
        assert s == a + ([c] + b);
        PieceEndOfPrefix(a, c, [c] + b);
        assert PieceEnd(s, c) == |a|;
        assert s[..|a|] == a;
        assert s[|a|..] == [c] + b;
        assert ([c] + b)[1..] == b;
        assert a[k..] == [];
        assert a[..k] == a;
        assert Split(a, c) == [a] + Split([], c);
        assert Split(s, c) == [a] + Split([c] + b, c);
      }
    }
  }

  /** The first `c` of `a + t` is the first `c` of `a`, or the first of `t`
      when `a` has none. */
  lemma PieceEndOfPrefix(a: string, c: char, t: string)
    requires |t| > 0 && t[0] == c
    ensures PieceEnd(a + t, c) == PieceEnd(a, c)
  {
    var k := PieceEnd(a, c);
    var s := a + t;
    var m := PieceEnd(s, c);
    assert k < |s| && s[k] == c;
    assert m <= k;
  }

  /** Leading separators do not matter. */
  lemma SplitDropsLeadingSeparator(s: string, c: char)
    ensures Split([c] + s, c) == Split(s, c)
  {
    SplitAround([], c, s);
    assert [] + [c] + s == [c] + s;
  }

  /** Trailing separators do not matter. */
  lemma SplitDropsTrailingSeparator(s: string, c: char)
    ensures Split(s + [c], c) == Split(s, c)
  {
    SplitAround(s, c, []);
    assert s + [c] + [] == s + [c];
  }

  /** A leading piece followed by a separator is split off first. */
  lemma SplitCons(p: string, c: char, rest: string)
    requires IsPiece(p, c)
    ensures Split(p + [c] + rest, c) == [p] + Split(rest, c)
  {
    SplitAround(p, c, rest);
    SplitOfPiece(p, c);
  }

  /** Every piece followed by a separator, the shape of a HAFAS journey reference. */
  function Terminated(parts: seq<string>, c: char): string
  {
    if |parts| == 0 then [] else parts[0] + [c] + Terminated(parts[1..], c)
  }

  lemma {:induction false} SplitTerminated(parts: seq<string>, c: char)
    requires forall i :: 0 <= i < |parts| ==> IsPiece(parts[i], c)
    ensures Split(Terminated(parts, c), c) == parts
    decreases |parts|
  {
    if |parts| > 0 {
      SplitCons(parts[0], c, Terminated(parts[1..], c));
      SplitTerminated(parts[1..], c);
    }
  }

  /** Joining pieces and splitting again gives the pieces back. */
  lemma {:induction false} SplitJoin(parts: seq<string>, c: char)
    requires forall i :: 0 <= i < |parts| ==> IsPiece(parts[i], c)
    ensures Split(Join(parts, c), c) == parts
    decreases |parts|
  {
    if |parts| == 0 {
    } else if |parts| == 1 {
      SplitOfPiece(parts[0], c);
    } else {
      SplitAround(parts[0], c, Join(parts[1..], c));
      SplitOfPiece(parts[0], c);
      SplitJoin(parts[1..], c);
    }
  }

  // ---------------------------------------------------------------------------
  // Prefixes and substrings

  predicate HasPrefix(s: string, p: string) {
    |p| <= |s| && s[..|p|] == p
  }

  /** Swift's `s.contains(sub)` on strings: `sub` occurs somewhere in `s`. */
  predicate Contains(s: string, sub: string)
    decreases |s|
  {
    HasPrefix(s, sub) || (|s| > 0 && Contains(s[1..], sub))
  }

  /** `parts.first { $0.hasPrefix(prefix) }`. */
  function FirstWithPrefix(parts: seq<string>, prefix: string): (r: Option<string>)
    ensures r.Some? ==> HasPrefix(r.value, prefix)
    ensures r.Some? ==> exists k :: 0 <= k < |parts| && parts[k] == r.value
                          && forall i :: 0 <= i < k ==> !HasPrefix(parts[i], prefix)
    ensures r.None? <==> forall i :: 0 <= i < |parts| ==> !HasPrefix(parts[i], prefix)
  {
    if |parts| == 0 then None
    else if HasPrefix(parts[0], prefix) then Some(parts[0])
    else
      var r := FirstWithPrefix(parts[1..], prefix);
      assert forall i :: 1 <= i < |parts| ==> parts[i] == parts[1..][i - 1];
      r
  }

  /** The first match wins, whatever follows it. */
  lemma {:induction false} FirstWithPrefixFinds(before: seq<string>, p: string, after: seq<string>, prefix: string)
    requires forall i :: 0 <= i < |before| ==> !HasPrefix(before[i], prefix)
    requires HasPrefix(p, prefix)
    ensures FirstWithPrefix(before + [p] + after, prefix) == Some(p)
    decreases |before|
  {
    if |before| > 0 {
      FirstWithPrefixFinds(before[1..], p, after, prefix);
      assert (before + [p] + after)[1..] == before[1..] + [p] + after;
    } else {
      assert (before + [p] + after)[0] == p;
    }
  }

  /** Swift's `firstIndex(of:)`. */
  function FirstIndexOf<T(==)>(xs: seq<T>, x: T): (r: Option<nat>)
    ensures r.Some? ==> r.value < |xs| && xs[r.value] == x
    ensures r.Some? ==> forall i :: 0 <= i < r.value ==> xs[i] != x
    ensures r.None? <==> x !in xs
  {
    if |xs| == 0 then None
    else if xs[0] == x then Some(0)
    else match FirstIndexOf(xs[1..], x)
      case None => None
      case Some(i) => Some(i + 1)
  }

  // ---------------------------------------------------------------------------
  // Code-point order

  /** Lexicographic order on code points: `a` is a prefix of `b`, or `a` has the
      smaller character where they first differ. */
  predicate LexLe(a: string, b: string)
    decreases |a|
  {
    if |a| == 0 then true
    else if |b| == 0 then false
    else a[0] < b[0] || (a[0] == b[0] && LexLe(a[1..], b[1..]))
  }

  lemma {:induction false} LexLeTotal(a: string, b: string)
    ensures LexLe(a, b) || LexLe(b, a)
    decreases |a|
  {
    if |a| > 0 && |b| > 0 && a[0] == b[0] {
      LexLeTotal(a[1..], b[1..]);
    }
  }

  lemma {:induction false} LexLeTransitive(a: string, b: string, c: string)
    requires LexLe(a, b) && LexLe(b, c)
    ensures LexLe(a, c)
    decreases |a|
  {
    if |a| > 0 && a[0] == b[0] && b[0] == c[0] {
      LexLeTransitive(a[1..], b[1..], c[1..]);
    }
  }

  lemma {:induction false} LexLeAntisymmetric(a: string, b: string)
    requires LexLe(a, b) && LexLe(b, a)
    ensures a == b
    decreases |a|
  {
    if |a| > 0 {
      LexLeAntisymmetric(a[1..], b[1..]);
      assert a == [a[0]] + a[1..];
      assert b == [b[0]] + b[1..];
    }
  }

  // ---------------------------------------------------------------------------
  // Decimal integers

  predicate IsDigit(ch: char) {
    '0' <= ch <= '9'
  }

  predicate AllDigits(s: string) {
    forall i :: 0 <= i < |s| ==> IsDigit(s[i])
  }

  function DigitChar(d: nat): (ch: char)
    requires d < 10
    ensures IsDigit(ch) && (ch as int) - ('0' as int) == d
  {
    (('0' as int) + d) as char
  }

  /** The shortest decimal spelling of `n`. */
  function NatToDecimal(n: nat): (s: string)
    ensures |s| > 0 && AllDigits(s)
    decreases n
  {
    if n < 10 then [DigitChar(n)] else NatToDecimal(n / 10) + [DigitChar(n % 10)]
  }

  /** Swift's string interpolation `"\(n)"` of an `Int`. */
  function IntToDecimal(n: int): string
  {
    if n < 0 then "-" + NatToDecimal(-n) else NatToDecimal(n)
  }

  /** The value of a run of decimal digits. */
  function DigitsValue(s: string): nat
    requires AllDigits(s)
  {
    if |s| == 0 then 0
    else DigitsValue(s[..|s| - 1]) * 10 + ((s[|s| - 1] as int) - ('0' as int))
  }

  /** Reads an optional minus sign followed by at least one digit; the reading
      a server applies to a decimal query value. */
  function ParseDecimal(s: string): Option<int>
  {
    if |s| > 0 && s[0] == '-' then
      if |s| > 1 && AllDigits(s[1..]) then Some(0 - DigitsValue(s[1..])) else None
    else if |s| > 0 && AllDigits(s) then Some(DigitsValue(s))
    else None
  }

  lemma {:induction false} DigitsValueOfNatToDecimal(n: nat)
    ensures DigitsValue(NatToDecimal(n)) == n
    decreases n
  {
    if n >= 10 {
      var s := NatToDecimal(n);
      assert s[..|s| - 1] == NatToDecimal(n / 10);
      DigitsValueOfNatToDecimal(n / 10);
    }
  }

  /** Printing an `Int` in decimal loses nothing. */
  lemma IntToDecimalRoundTrip(n: int)
    ensures ParseDecimal(IntToDecimal(n)) == Some(n)
  {
    if n < 0 {
      var s := IntToDecimal(n);
      assert s[1..] == NatToDecimal(-n);
      DigitsValueOfNatToDecimal(-n);
    } else {
      DigitsValueOfNatToDecimal(n);
    }
  }

  // ---------------------------------------------------------------------------
  // File names

  /** Swift's `lastIndex(of:)`. */
  function LastIndexOf(s: string, c: char): (r: Option<nat>)
    ensures r.Some? ==> r.value < |s| && s[r.value] == c
    ensures r.Some? ==> forall i :: r.value < i < |s| ==> s[i] != c
    ensures r.None? <==> c !in s
  {
    if |s| == 0 then None
    else if s[|s| - 1] == c then Some(|s| - 1)
    else LastIndexOf(s[..|s| - 1], c)
  }

  /** `URL.deletingPathExtension().lastPathComponent` of a plain file name:
      everything before the last dot. */
  function PathStem(name: string): string
  {
    match LastIndexOf(name, '.')
    case None => name
    case Some(k) => name[..k]
  }

  /** `URL.pathExtension` of a plain file name: everything after the last dot. */
  function PathExtension(name: string): string
  {
    match LastIndexOf(name, '.')
    case None => ""
    case Some(k) => name[k + 1..]
  }

  /** A name built as `stem.ext`, with a dot-free `ext`, splits back into
      `stem` and `ext`. */
  lemma StemOfDottedName(stem: string, ext: string)
    requires '.' !in ext
    ensures PathStem(stem + "." + ext) == stem
    ensures PathExtension(stem + "." + ext) == ext
  {
    var name := stem + "." + ext;
    assert name[|stem|] == '.';
    var k := LastIndexOf(name, '.');
    assert k.Some?;
    assert k.value == |stem|;
    assert name[..|stem|] == stem;
    assert name[|stem| + 1..] == ext;
  }

  /** A name with an extension is its stem, a dot and its extension. */
  lemma DottedNameSplits(name: string)
    requires '.' in name
    ensures name == PathStem(name) + "." + PathExtension(name)
  {
    var k := LastIndexOf(name, '.').value;
    assert name == name[..k] + [name[k]] + name[k + 1..];
  }

  /** A decimal number has no dot, so it is a whole path extension. */
  lemma DecimalHasNoDot(n: int)
    ensures '.' !in IntToDecimal(n)
  {
    var s := NatToDecimal(if n < 0 then -n else n);
    assert forall i :: 0 <= i < |s| ==> s[i] != '.';
    if n < 0 {
      assert forall ch :: ch in "-" + s ==> ch == '-' || ch in s;
    }
  }
}

=== FILE: transport_category.dfy ===
/** The kinds of vehicle the app distinguishes, with the raw strings the
    server's `catOut` field uses for them and the emoji the app shows. */
module TransportCategories {
  import opened Wrappers

  datatype TransportCategory = Bus | Ice | S | Tram | U | Rb | Re | Ec | Unknown

  /** The enum's `rawValue`; `.unknown` has the implicit raw value "unknown". */
  function RawValue(c: TransportCategory): string
  {
    match c
    case Bus => "Bus"
    case Ice => "ICE"
    case S => "S"
    case Tram => "Tram"
    case U => "U-Bahn"
    case Rb => "RB"
    case Re => "RE"
    case Ec => "EC"
    case Unknown => "unknown"
  }

  /** `TransportCategory(rawValue:)`: the case with that raw value, if any. */
  function FromRawValue(s: string): (r: Option<TransportCategory>)
    ensures r.Some? ==> RawValue(r.value) == s
    ensures r.None? <==> forall c: TransportCategory :: RawValue(c) != s
  {
    if s == "Bus" then Some(Bus)
    else if s == "ICE" then Some(Ice)
    else if s == "S" then Some(S)
    else if s == "Tram" then Some(Tram)
    else if s == "U-Bahn" then Some(U)
    else if s == "RB" then Some(Rb)
    else if s == "RE" then Some(Re)
    else if s == "EC" then Some(Ec)
    else if s == "unknown" then Some(Unknown)
    else None
  }

  /** Every case is recovered from its raw value. */
  lemma RawValueRoundTrip(c: TransportCategory)
    ensures FromRawValue(RawValue(c)) == Some(c)
  {
  }

  /** The raw values are pairwise distinct. */
  lemma RawValueInjective(c: TransportCategory, d: TransportCategory)
    requires RawValue(c) == RawValue(d)
    ensures c == d
  {
    RawValueRoundTrip(c);
    RawValueRoundTrip(d);
  }

  /** `TransportCategory(rawValue: s) ?? .unknown`, the lenient reading. */
  function CategoryOrUnknown(s: string): (r: TransportCategory)
    ensures FromRawValue(s).Some? ==> r == FromRawValue(s).value
    ensures FromRawValue(s).None? ==> r == Unknown
  {
    FromRawValue(s).GetOr(Unknown)
  }

  predicate IsRail(c: TransportCategory) {
    c == S || c == Ice || c == Rb || c == Re || c == Ec
  }

  function Emoji(c: TransportCategory): (e: string)
    ensures IsRail(c) <==> e == "🚆"
    ensures c == Bus <==> e == "🚍"
    ensures c == Tram <==> e == "🚊"
    ensures c == U <==> e == "🚇"
    ensures c == Unknown <==> e == "🚏"
  {
    match c
    case Bus => "🚍"
    case Tram => "🚊"
    case U => "🚇"
    case S | Ice | Rb | Re | Ec => "🚆"
    case Unknown => "🚏"
  }
}

=== FILE: urls.dfy ===
/** The pieces of Foundation's URL types the app touches: query items,
    URL components, URLs and URL requests, and the two ways the app looks query
    items up by name. */
module Urls {
  import opened Wrappers

  /** Foundation's `URLQueryItem`. */
  datatype QueryItem = QueryItem(name: string, value: Option<string>)

  /** The parts of Foundation's `URLComponents` the app uses. */
  datatype Components = Components(
    scheme: Option<string>,
    host: Option<string>,
    port: Option<int>,
    path: string,
    queryItems: Option<seq<QueryItem>>)

  /** A URL, represented by what `URLComponents(url:resolvingAgainstBaseURL: false)`
      makes of it: `None` when Foundation cannot take it apart. */
  datatype Url = Url(components: Option<Components>)

  datatype Header = Header(field: string, value: string)

  /** Foundation's `URLRequest`: an optional URL plus method and headers. */
  datatype UrlRequest = UrlRequest(url: Option<Url>, httpMethod: string, headers: seq<Header>)

  /** A `URLSessionTask`: its identifier and the request it was made for. */
  datatype Task = Task(identifier: nat, originalRequest: Option<UrlRequest>)

  /** `items.first { $0.name == name }`. */
  function FirstNamed(items: seq<QueryItem>, name: string): (r: Option<QueryItem>)
    ensures r.Some? ==> r.value in items && r.value.name == name
    ensures r.None? <==> forall i :: 0 <= i < |items| ==> items[i].name != name
    ensures r.Some? ==> exists k :: 0 <= k < |items| && items[k] == r.value
                          && forall i :: 0 <= i < k ==> items[i].name != name
  {
    if |items| == 0 then None
    else if items[0].name == name then Some(items[0])
    else
      var r := FirstNamed(items[1..], name);
      assert r.Some? ==> items[1..][0] == items[1];
      r
  }

  /** `items.filter { $0.name == name }`. */
  function AllNamed(items: seq<QueryItem>, name: string): (r: seq<QueryItem>)
    ensures forall i :: 0 <= i < |r| ==> r[i].name == name && r[i] in items
    ensures forall i :: 0 <= i < |items| && items[i].name == name ==> items[i] in r
    ensures |r| <= |items|
  {
    if |items| == 0 then []
    else
      var rest := AllNamed(items[1..], name);
      assert forall i :: 1 <= i < |items| ==> items[i] == items[1..][i - 1];
      if items[0].name == name then [items[0]] + rest else rest
  }

  /** The first item with a name is the head of the items with that name. */
  lemma {:induction false} FirstNamedIsFirstOfAllNamed(items: seq<QueryItem>, name: string)
    ensures FirstNamed(items, name) == if |AllNamed(items, name)| == 0 then None else Some(AllNamed(items, name)[0])
    decreases |items|
  {
    if |items| > 0 && items[0].name != name {
      FirstNamedIsFirstOfAllNamed(items[1..], name);
    }
  }

  /** `items.first { $0.name == name }?.value`: the value of the first item
      with the name, when there is one and it has a value. */
  function ValueNamed(items: seq<QueryItem>, name: string): (v: Option<string>)
    ensures v.Some? ==> QueryItem(name, v) in items
    ensures (forall i :: 0 <= i < |items| ==> items[i].name != name) ==> v.None?
    ensures forall k :: 0 <= k < |items| && items[k].name == name && (forall i :: 0 <= i < k ==> items[i].name != name)
                        ==> v == items[k].value
  {
    match FirstNamed(items, name)
    case None => None
    case Some(q) => q.value
  }

  /** Selecting by name distributes over concatenation. */
  lemma {:induction false} AllNamedAppend(a: seq<QueryItem>, b: seq<QueryItem>, name: string)
    ensures AllNamed(a + b, name) == AllNamed(a, name) + AllNamed(b, name)
    decreases |a|
  {
    if |a| > 0 {
      var h := if a[0].name == name then [a[0]] else [];
      var x, y := AllNamed(a[1..], name), AllNamed(b, name);
      assert AllNamed(a + b, name) == h + (x + y) by {
        assert a + b == [a[0]] + (a[1..] + b);
        AllNamedCons(a[0], a[1..] + b, name);
        AllNamedAppend(a[1..], b, name);
      }
      assert AllNamed(a, name) == h + x by {
        assert a == [a[0]] + a[1..];
        AllNamedCons(a[0], a[1..], name);
      }
      assert h + (x + y) == (h + x) + y;
    } else {
      assert a + b == b;
    }
  }

  lemma AllNamedCons(x: QueryItem, rest: seq<QueryItem>, name: string)
    ensures AllNamed([x] + rest, name) == (if x.name == name then [x] else []) + AllNamed(rest, name)
  {
    assert ([x] + rest)[1..] == rest;
  }

  /** Items that all carry the name are all selected, in order. */
  lemma {:induction false} AllNamedOfUniform(items: seq<QueryItem>, name: string)
    requires forall i :: 0 <= i < |items| ==> items[i].name == name
    ensures AllNamed(items, name) == items
    decreases |items|
  {
    if |items| > 0 {
      AllNamedOfUniform(items[1..], name);
      assert items == [items[0]] + items[1..];
    }
  }
}

=== FILE: widget_coordinator.dfy ===
/** The widget's timeline provider helper. A widget is known by a hash of its
    stop and trips. The first timeline call asks the background session for
    the trips' departure boards and marks the hash active. Later calls check
    whether the downloads are done and, once they are, mark the hash ready.
    The call after that builds the timeline from the cached boards and
    clears the mark. The two marks live in the shared settings as sets. */
module WidgetCoordinator {
  import opened Wrappers
  import opened Seqs
  import opened ServerDates
  import opened Urls
  import opened RequestModels
  import Sorting
  import Strings
  import Core = CoreModels
  import IP = IntentParameters
  import W = WidgetEntries
  import NM = NetworkManager
  import F = Fingerprint

  datatype Helper = Helper(stop: IP.StopLocation, trips: seq<IP.Trip>)

  // ---------------------------------------------------------------------------
  // The widget hash

  /** What the hash reads of a trip. */
  datatype LineKey = LineKey(lineId: string, directionId: string)

  function KeyOf(t: IP.Trip): LineKey {
    LineKey(t.lineId, t.directionId)
  }

  /** `SortDescriptor(\.lineId)`. */
  predicate LineIdLe(a: IP.Trip, b: IP.Trip) {
    Strings.LexLe(a.lineId, b.lineId)
  }

  predicate KeyLe(a: LineKey, b: LineKey) {
    Strings.LexLe(a.lineId, b.lineId)
  }

  /** `map { $0.lineId + $0.directionId }.joined()`. */
  function KeysString(keys: seq<LineKey>): string {
    if |keys| == 0 then "" else keys[0].lineId + keys[0].directionId + KeysString(keys[1..])
  }

  /** `widgetHash`: SHA-256 of the location id followed by every trip's line
      id and direction id, the trips taken in line-id order. */
  function WidgetHash(h: Helper, sha: string -> F.Digest): (d: F.Digest)
    ensures d == sha(h.stop.locationId + KeysString(Sorting.SortBy(Map(h.trips, KeyOf), KeyLe)))
  {
    var sorted := Sorting.SortBy(h.trips, LineIdLe);
    Sorting.SortByMap(h.trips, LineIdLe, KeyOf, KeyLe);
    sha(h.stop.locationId + KeysString(Map(sorted, KeyOf)))
  }

  /** Names, directions, categories and identifiers of the trips, and the
      stop's name and identifier, play no part: only the location id and the
      line and direction ids do. */
  lemma WidgetHashReadsOnlyKeys(h: Helper, g: Helper, sha: string -> F.Digest)
    requires h.stop.locationId == g.stop.locationId
    requires Map(h.trips, KeyOf) == Map(g.trips, KeyOf)
    ensures WidgetHash(h, sha) == WidgetHash(g, sha)
  {
  }

  lemma LineIdLeIsTotalPreorder()
    ensures Sorting.TotalPreorder(KeyLe)
  {
    forall a: LineKey, b: LineKey
      ensures KeyLe(a, b) || KeyLe(b, a)
    {
      Strings.LexLeTotal(a.lineId, b.lineId);
    }
    forall a: LineKey, b: LineKey, c: LineKey | KeyLe(a, b) && KeyLe(b, c)
      ensures KeyLe(a, c)
    {
      Strings.LexLeTransitive(a.lineId, b.lineId, c.lineId);
    }
  }

  /** Reordering the trips leaves the hash alone when no two trips with the
      same line id differ in direction. */
  lemma WidgetHashIgnoresTripOrder(h: Helper, trips: seq<IP.Trip>, sha: string -> F.Digest)
    requires multiset(trips) == multiset(h.trips)
    requires Sorting.NoTies(Map(h.trips, KeyOf), KeyLe)
    ensures WidgetHash(h.(trips := trips), sha) == WidgetHash(h, sha)
  {
    MapMultiset(h.trips, trips, KeyOf);
    LineIdLeIsTotalPreorder();
    Sorting.SortByPermutationInvariant(Map(h.trips, KeyOf), Map(trips, KeyOf), KeyLe);
  }

  // ---------------------------------------------------------------------------
  // The link and the requests

  /** `widgetUrl`: the entry link with the stop always present. */
  function WidgetUrl(h: Helper): (u: Option<Url>)
    ensures u.Some? && u.value.components.Some?
    ensures u.value.components.value.queryItems == Some(W.WidgetQueryItems(Some(h.stop), h.trips))
  {
    var items := [QueryItem("stop", Some(h.stop.id))] + Map(h.trips, W.TripQueryItem);
    Some(Url(Some(Components(Some("gotostop"), Some("widget"), None, "", Some(items)))))
  }

  /** The helper's link is the link of an entry that names its stop and trips. */
  lemma WidgetUrlIsEntryUrl(h: Helper, date: Date, data: W.WidgetData)
    ensures WidgetUrl(h) == W.MakeWidgetUrl(W.MakeEntry(date, data, Some(h.stop), h.trips))
  {
  }

  /** The window of every widget request: sixteen hours. */
  const WidgetDuration: int := 60 * 16

  function TripRequest(h: Helper, t: IP.Trip): DepartureBoardRequest {
    MakeRequest(h.stop.locationId, lineId := Some(t.lineId), directionId := Some(t.directionId), duration := Some(WidgetDuration))
  }

  /** `getDepartureRequests()`: one request per trip, in trip order. */
  function DepartureRequests(h: Helper): (reqs: seq<DepartureBoardRequest>)
    ensures |reqs| == |h.trips|
    ensures forall i :: 0 <= i < |reqs| ==>
              && reqs[i].stopId == h.stop.locationId
              && reqs[i].lineId == Some(h.trips[i].lineId)
              && reqs[i].directionId == Some(h.trips[i].directionId)
              && reqs[i].duration == Some(960)
              && reqs[i].date.None? && reqs[i].time.None? && reqs[i].maxJourneys.None?
  {
    Map(h.trips, t => TripRequest(h, t))
  }

  /** A `for … { try … }` loop inside one `do`: the steps that succeed, up to
      the first that throws; the rest are not attempted. */
  function UntilFailure<T, U, E>(xs: seq<T>, step: T -> Result<U, E>): (done: seq<U>)
    ensures |done| <= |xs|
    ensures forall i :: 0 <= i < |done| ==> step(xs[i]) == Success(done[i])
    ensures |done| < |xs| ==> step(xs[|done|]).Failure?
  {
    if |xs| == 0 then []
    else match step(xs[0])
      case Failure(_) => []
      case Success(u) =>
        var rest := UntilFailure(xs[1..], step);
        assert forall i :: 1 <= i < |xs| ==> xs[1..][i - 1] == xs[i];
        [u] + rest
  }

  function Submit(bearer: Option<string>): DepartureBoardRequest -> Result<UrlRequest, NM.NetworkManagerError> {
    req => NM.RequestDepartures(req, bearer)
  }

  /** `requestDepartures()`: with an API bearer every trip's board is handed
      to the background session; without one none is, since the first
      request already fails. */
  lemma RequestDeparturesAllOrNothing(h: Helper, bearer: Option<string>)
    ensures var issued := UntilFailure(DepartureRequests(h), Submit(bearer));
            && (bearer.Some? ==> |issued| == |h.trips|)
            && (bearer.None? ==> issued == [])
  {
    var reqs := DepartureRequests(h);
    if bearer.None? && |reqs| > 0 {
      assert Submit(bearer)(reqs[0]).Failure?;
    }
  }

  // ---------------------------------------------------------------------------
  // Cached departures

  /** `getCachedDepartures()`: the cached boards of the requests, in request
      order; a request with nothing cached, or whose cache cannot be read, adds
      nothing. `cached` stands for `getCachedDepartures(for:)`. */
  function CachedDepartures<E>(reqs: seq<DepartureBoardRequest>,
                               cached: DepartureBoardRequest -> Result<Option<seq<Core.Departure>>, E>): seq<Core.Departure>
  {
    if |reqs| == 0 then []
    else
      var found := match cached(reqs[0])
        case Success(Some(ds)) => ds
        case _ => [];
      found + CachedDepartures(reqs[1..], cached)
  }

  /** The cached boards of two runs of requests follow each other. */
  lemma {:induction false} CachedDeparturesAppend<E>(a: seq<DepartureBoardRequest>, b: seq<DepartureBoardRequest>,
                                                     cached: DepartureBoardRequest -> Result<Option<seq<Core.Departure>>, E>)
    ensures CachedDepartures(a + b, cached) == CachedDepartures(a, cached) + CachedDepartures(b, cached)
    decreases |a|
  {
    if |a| > 0 {
      assert (a + b)[1..] == a[1..] + b;
      CachedDeparturesAppend(a[1..], b, cached);
    } else {
      assert a + b == b;
    }
  }

  /** A request whose board is missing or unreadable is skipped; a cached board
      is taken whole. */
  lemma CachedDeparturesOfOne<E>(req: DepartureBoardRequest,
                                 cached: DepartureBoardRequest -> Result<Option<seq<Core.Departure>>, E>)
    ensures cached(req).Success? && cached(req).value.Some? ==> CachedDepartures([req], cached) == cached(req).value.value
    ensures cached(req).Failure? || cached(req).value.None? ==> CachedDepartures([req], cached) == []
  {
    assert [req][1..] == [];
  }

  // ---------------------------------------------------------------------------
  // Timeline rows

  /** `ScheduledTrip`: what the widget keeps of a departure. */
  datatype ScheduledTrip = ScheduledTrip(
    name: string,
    direction: string,
    isCancelled: bool,
    isReachable: bool,
    hasWarnings: bool,
    scheduledTime: Option<Date>,
    realTime: Option<Date>)

  predicate IsActive(m: Core.Message) {
    m.isActive
  }

  /** `ScheduledTrip.init?(_ departure:)`: it never fails; a trip has
      warnings when some message of its departure is active. */
  function ScheduledTripOf(d: Core.Departure): (s: Option<ScheduledTrip>)
    ensures s.Some?
    ensures s.value.hasWarnings <==> exists i :: 0 <= i < |d.messages| && d.messages[i].isActive
    ensures s.value.name == d.name && s.value.direction == d.direction
    ensures s.value.isCancelled == d.isCancelled && s.value.isReachable == d.isReachable
    ensures s.value.scheduledTime == d.scheduledTime && s.value.realTime == d.realTime
  {
    var active := Filter(d.messages, IsActive);
    assert |active| > 0 ==> active[0] in d.messages;
    Some(ScheduledTrip(d.name, d.direction, d.isCancelled, d.isReachable, |active| > 0, d.scheduledTime, d.realTime))
  }

  /** `SortDescriptor(\.time)` on departures: undated ones first. */
  predicate DepartureTimeLe(a: Core.Departure, b: Core.Departure) {
    OptionalDateLe(Core.Time(a), Core.Time(b))
  }

  lemma DepartureTimeLeIsTotalPreorder()
    ensures Sorting.TotalPreorder(DepartureTimeLe)
  {
  }

  /** The most rows a timeline is built from. */
  const MaxScheduledTrips: nat := 100

  /** `mapDeparturesToScheduledTrips(_:)`: by time, the first hundred, each
      made a scheduled trip. */
  function ScheduledTrips(ds: seq<Core.Departure>): (ts: seq<ScheduledTrip>)
    ensures |ts| == if |ds| < MaxScheduledTrips then |ds| else MaxScheduledTrips
    ensures forall i :: 0 <= i < |ts| ==> Some(ts[i]) == ScheduledTripOf(Sorting.SortBy(ds, DepartureTimeLe)[i])
  {
    var sorted := Sorting.SortBy(ds, DepartureTimeLe);
    var kept := if |sorted| < MaxScheduledTrips then sorted else sorted[..MaxScheduledTrips];
    CompactMapAllSome(kept, ScheduledTripOf);
    CompactMap(kept, ScheduledTripOf)
  }

  /** The hundred rows are the earliest ones, in time order. */
  lemma ScheduledTripsAreEarliest(ds: seq<Core.Departure>)
    ensures var sorted := Sorting.SortBy(ds, DepartureTimeLe);
            && Sorting.Sorted(sorted, DepartureTimeLe)
            && multiset(sorted) == multiset(ds)
            && |ScheduledTrips(ds)| == if |ds| < MaxScheduledTrips then |ds| else MaxScheduledTrips
  {
    DepartureTimeLeIsTotalPreorder();
    Sorting.SortBySorted(ds, DepartureTimeLe);
  }

  /** `makeScheduledItem(relatedTime:)`. */
  function ItemAt(s: ScheduledTrip, relatedTime: Date): (w: W.WidgetItem)
    ensures w.name == s.name && w.direction == s.direction && w.relatedTime == relatedTime
    ensures w.scheduledTime == s.scheduledTime && w.realTime == s.realTime
    ensures w.isReachable == s.isReachable && w.isCancelled == s.isCancelled && w.hasWarnings == s.hasWarnings
  {
    W.WidgetItem(s.name, s.direction, s.scheduledTime, s.realTime, relatedTime, s.isReachable, s.isCancelled, s.hasWarnings)
  }

  /** The row still lies ahead at `date`. */
  predicate NotBefore(date: Date, w: W.WidgetItem) {
    W.ItemTime(w).Some? && W.ItemTime(w).value >= date
  }

  /** The rows shown at `date`: the scheduled trips seen from `date`, keeping
      those that have not left yet; rows without a time are dropped. */
  function ItemsAt(trips: seq<ScheduledTrip>, date: Date): (items: seq<W.WidgetItem>)
    ensures forall i :: 0 <= i < |items| ==> NotBefore(date, items[i]) && items[i].relatedTime == date
    ensures forall i :: 0 <= i < |trips| && NotBefore(date, ItemAt(trips[i], date)) ==> ItemAt(trips[i], date) in items
    ensures |items| <= |trips|
    ensures forall i :: 0 <= i < |items| ==> exists j :: 0 <= j < |trips| && items[i] == ItemAt(trips[j], date)
  {
    var seen := Map(trips, s => ItemAt(s, date));
    var items := Filter(seen, w => NotBefore(date, w));
    assert forall i :: 0 <= i < |items| ==> items[i] in seen;
    items
  }

  /** The rows keep the trips' order: picking them distributes over
      concatenation. */
  lemma ItemsAtAppend(a: seq<ScheduledTrip>, b: seq<ScheduledTrip>, date: Date)
    ensures ItemsAt(a + b, date) == ItemsAt(a, date) + ItemsAt(b, date)
  {
    MapAppend(a, b, s => ItemAt(s, date));
    FilterAppend(Map(a, s => ItemAt(s, date)), Map(b, s => ItemAt(s, date)), w => NotBefore(date, w));
  }

  /** A single trip shows exactly its own row, once, when that row still lies
      ahead, and nothing otherwise. */
  lemma ItemsAtOne(s: ScheduledTrip, date: Date)
    ensures ItemsAt([s], date) == if NotBefore(date, ItemAt(s, date)) then [ItemAt(s, date)] else []
  {
    var seen := Map([s], t => ItemAt(t, date));
    assert seen == [ItemAt(s, date)];
    assert seen[1..] == [];
  }

  /** `makeWidgetEntries(items:)`: one entry per update date, each with the
      rows ahead of it, all made at `now`. `dates` stands for
      `makeUpdateDates()`. */
  function WidgetEntries(h: Helper, trips: seq<ScheduledTrip>, dates: seq<Date>, now: Date): (es: seq<W.Entry>)
    ensures |es| == |dates|
    ensures forall i :: 0 <= i < |dates| ==>
              && es[i].date == dates[i]
              && es[i].data == W.WidgetData(now, h.stop.name, ItemsAt(trips, dates[i]))
              && W.MakeWidgetUrl(es[i]) == WidgetUrl(h)
  {
    Map(dates, d => W.MakeEntry(d, W.WidgetData(now, h.stop.name, ItemsAt(trips, d)), Some(h.stop), h.trips))
  }

  /** `makeEmptyEntries()`: a single entry for now, with no rows. */
  function EmptyEntries(h: Helper, now: Date): (es: seq<W.Entry>)
    ensures |es| == 1 && es[0].date == now && es[0].data == W.WidgetData(now, h.stop.name, [])
    ensures W.MakeWidgetUrl(es[0]) == WidgetUrl(h)
  {
    [W.MakeEntry(now, W.WidgetData(now, h.stop.name, []), Some(h.stop), h.trips)]
  }

  // ---------------------------------------------------------------------------
  // The timeline call

  /** `widgetsReadyToReload` and `activeWidgetRequests` of the settings. */
  datatype Marks = Marks(ready: set<string>, active: set<string>)

  /** What a timeline call does: its entries, the marks it leaves, the
      requests it hands to the background session, the requests whose cache
      it clears, and whether it starts the deferred check. */
  datatype Outcome = Outcome(
    entries: seq<W.Entry>,
    marks: Marks,
    issued: seq<UrlRequest>,
    cleared: seq<DepartureBoardRequest>,
    startsCheck: bool)

  /** The outside world a timeline call sees: the background session's cache
      (`getCachedDepartures(for:)`, `removeCachedDepartures(for:)`), the API
      bearer, the update dates and the clock. */
  datatype World<!E> = World(
    cached: DepartureBoardRequest -> Result<Option<seq<Core.Departure>>, E>,
    remove: DepartureBoardRequest -> Result<DepartureBoardRequest, E>,
    bearer: Option<string>,
    dates: seq<Date>,
    now: Date)

  /** `getWidgetEntries()`. */
  function GetWidgetEntries<E>(h: Helper, marks: Marks, world: World<E>, sha: string -> F.Digest): (o: Outcome)
    ensures var hash := WidgetHash(h, sha);
            hash in marks.ready ==>
              && o.entries == WidgetEntries(h, ScheduledTrips(CachedDepartures(DepartureRequests(h), world.cached)), world.dates, world.now)
              && o.marks == Marks(marks.ready - {hash}, marks.active)
              && o.issued == [] && !o.startsCheck
              && o.cleared == UntilFailure(DepartureRequests(h), world.remove)
    ensures var hash := WidgetHash(h, sha);
            hash !in marks.ready && hash in marks.active ==>
              o == Outcome(EmptyEntries(h, world.now), marks, [], [], true)
    ensures var hash := WidgetHash(h, sha);
            hash !in marks.ready && hash !in marks.active ==>
              o == Outcome(EmptyEntries(h, world.now), Marks(marks.ready, marks.active + {hash}),
                           UntilFailure(DepartureRequests(h), Submit(world.bearer)), [], false)
  {
    var hash := WidgetHash(h, sha);
    var reqs := DepartureRequests(h);
    if hash in marks.ready then
      var entries := WidgetEntries(h, ScheduledTrips(CachedDepartures(reqs, world.cached)), world.dates, world.now);
      Outcome(entries, Marks(marks.ready - {hash}, marks.active), [], UntilFailure(reqs, world.remove), false)
    else if hash in marks.active then
      Outcome(EmptyEntries(h, world.now), marks, [], [], true)
    else
      Outcome(EmptyEntries(h, world.now), Marks(marks.ready, marks.active + {hash}), UntilFailure(reqs, Submit(world.bearer)), [], false)
  }

  /** The deferred check: when no request is in progress any more the hash
      moves from active to ready and every timeline is reloaded; otherwise
      nothing happens. */
  function DeferredCheck(h: Helper, marks: Marks, inProgress: bool, sha: string -> F.Digest): (r: (Marks, bool))
    ensures inProgress ==> r == (marks, false)
    ensures !inProgress ==> r == (Marks(marks.ready + {WidgetHash(h, sha)}, marks.active - {WidgetHash(h, sha)}), true)
  {
    var hash := WidgetHash(h, sha);
    if inProgress then (marks, false) else (Marks(marks.ready + {hash}, marks.active - {hash}), true)
  }

  /** No hash is both ready and active. */
  predicate Disjoint(m: Marks) {
    m.ready * m.active == {}
  }

  /** A timeline call keeps the marks disjoint, never makes a hash ready, and
      touches no hash but its own. */
  lemma GetWidgetEntriesKeepsMarks<E>(h: Helper, marks: Marks, world: World<E>, sha: string -> F.Digest)
    requires Disjoint(marks)
    ensures var o := GetWidgetEntries(h, marks, world, sha);
            && Disjoint(o.marks)
            && o.marks.ready <= marks.ready
            && o.marks.ready - {WidgetHash(h, sha)} == marks.ready - {WidgetHash(h, sha)}
            && o.marks.active - {WidgetHash(h, sha)} == marks.active - {WidgetHash(h, sha)}
  {
    var hash := WidgetHash(h, sha);
    var o := GetWidgetEntries(h, marks, world, sha);
    assert || o.marks == Marks(marks.ready - {hash}, marks.active)
           || o.marks == marks
           || (hash !in marks.ready && o.marks == Marks(marks.ready, marks.active + {hash}));
    MarkStepKeepsMarks(hash, marks, o.marks);
  }

  /** The three ways a timeline call can change the marks of its own hash. */
  lemma MarkStepKeepsMarks(hash: string, marks: Marks, next: Marks)
    requires Disjoint(marks)
    requires || next == Marks(marks.ready - {hash}, marks.active)
             || next == marks
             || (hash !in marks.ready && next == Marks(marks.ready, marks.active + {hash}))
    ensures && Disjoint(next)
            && next.ready <= marks.ready
            && next.ready - {hash} == marks.ready - {hash}
            && next.active - {hash} == marks.active - {hash}
  {
  }

  /** The deferred check keeps the marks disjoint and touches no other hash. */
  lemma DeferredCheckKeepsMarks(h: Helper, marks: Marks, inProgress: bool, sha: string -> F.Digest)
    requires Disjoint(marks)
    ensures var (m, _) := DeferredCheck(h, marks, inProgress, sha);
            && Disjoint(m)
            && m.ready - {WidgetHash(h, sha)} == marks.ready - {WidgetHash(h, sha)}
            && m.active - {WidgetHash(h, sha)} == marks.active - {WidgetHash(h, sha)}
  {
  }

  /** The three calls of one widget in sequence: the first requests, the
      second waits while downloads run, the check marks the widget ready once
      they are done, and the next call builds the timeline and clears the
      marks. */
  lemma WidgetLifecycle<E>(h: Helper, world: World<E>, sha: string -> F.Digest)
    ensures var hash := WidgetHash(h, sha);
            var first := GetWidgetEntries(h, Marks({}, {}), world, sha);
            var second := GetWidgetEntries(h, first.marks, world, sha);
            var (checked, reload) := DeferredCheck(h, second.marks, false, sha);
            var third := GetWidgetEntries(h, checked, world, sha);
            && first.marks == Marks({}, {hash}) && |first.entries| == 1 && first.entries[0].data.items == []
            && second.startsCheck && second.marks == first.marks
            && reload && checked == Marks({hash}, {})
            && third.marks == Marks({}, {}) && |third.entries| == |world.dates|
  {
    var hash := WidgetHash(h, sha);
    var first := GetWidgetEntries(h, Marks({}, {}), world, sha);
    assert first.marks == Marks({}, {hash}) by {
      assert {} + {hash} == {hash};
    }
    var (checked, reload) := DeferredCheck(h, first.marks, false, sha);
    assert checked == Marks({hash}, {}) by {
      assert {} + {hash} == {hash} && {hash} - {hash} == {};
    }
    ReadyCallClearsMarks(h, world, sha);
  }

  /** A ready widget that no other widget shares the marks with leaves none
      behind. */
  lemma ReadyCallClearsMarks<E>(h: Helper, world: World<E>, sha: string -> F.Digest)
    ensures GetWidgetEntries(h, Marks({WidgetHash(h, sha)}, {}), world, sha).marks == Marks({}, {})
  {
    var hash := WidgetHash(h, sha);
    assert {hash} - {hash} == {};
  }

  /** A check on empty marks makes the widget ready. */
  lemma CheckOnEmptyMarks(h: Helper, sha: string -> F.Digest)
    ensures DeferredCheck(h, Marks({}, {}), false, sha).0 == Marks({WidgetHash(h, sha)}, {})
  {
    var hash := WidgetHash(h, sha);
    assert {} + {hash} == {hash} && {} - {hash} == {};
  }

  /** The check does not ask whether the hash is still active: a check that
      was started while the widget was waiting, and finishes after another
      call already consumed the ready mark, marks the widget ready again with
      no request behind it. */
  lemma LateCheckMarksReadyWithoutRequest<E>(h: Helper, world: World<E>, sha: string -> F.Digest)
    ensures var hash := WidgetHash(h, sha);
            var consumed := GetWidgetEntries(h, Marks({hash}, {}), world, sha).marks;
            var (late, _) := DeferredCheck(h, consumed, false, sha);
            consumed == Marks({}, {}) && late == Marks({hash}, {})
  {
    ReadyCallClearsMarks(h, world, sha);
    CheckOnEmptyMarks(h, sha);
  }
}

=== FILE: widget_entry.dfy ===
/** A widget timeline entry and the deep link it opens: the link names the
    configured stop and trips by their intent identifiers. */
module WidgetEntries {
  import opened Wrappers
  import opened ServerDates
  import opened Urls
  import opened Seqs
  import IP = IntentParameters

  /** A row of the widget: a departure as seen at one update time. */
  datatype WidgetItem = WidgetItem(
    name: string,
    direction: string,
    scheduledTime: Option<Date>,
    realTime: Option<Date>,
    relatedTime: Date,
    isReachable: bool,
    isCancelled: bool,
    hasWarnings: bool)

  /** The row's time: the real-time estimate, else the timetable time. */
  function ItemTime(w: WidgetItem): (t: Option<Date>)
    ensures t.None? <==> w.realTime.None? && w.scheduledTime.None?
    ensures w.realTime.Some? ==> t == w.realTime
    ensures w.realTime.None? ==> t == w.scheduledTime
  {
    if w.realTime.Some? then w.realTime else w.scheduledTime
  }

  /** `GoToStopWidgetData`: when it was made, the stop's name and the rows. */
  datatype WidgetData = WidgetData(updateTime: Date, stop: string, items: seq<WidgetItem>)

  datatype Entry = Entry(date: Date, data: WidgetData, stop: Option<IP.StopLocation>, trips: seq<IP.Trip>)

  /** `GoToStopWidgetEntry.init(date:data:stop:trips:)`. */
  function MakeEntry(date: Date, data: WidgetData, stop: Option<IP.StopLocation> := None, trips: seq<IP.Trip> := []): (e: Entry)
    ensures e.date == date && e.data == data && e.stop == stop && e.trips == trips
  {
    Entry(date, data, stop, trips)
  }

  /** An entry made without stop and trips links to neither. */
  lemma DefaultEntryHasNoStopOrTrips(date: Date, data: WidgetData)
    ensures MakeEntry(date, data).stop.None? && MakeEntry(date, data).trips == []
  {
  }

  function TripQueryItem(t: IP.Trip): QueryItem
  {
    QueryItem("trip", Some(t.id))
  }

  /** The query of the widget link: the stop first, when there is one, then
      one `trip` item per trip, in order. */
  function WidgetQueryItems(stop: Option<IP.StopLocation>, trips: seq<IP.Trip>): (items: seq<QueryItem>)
    ensures stop.None? ==> |items| == |trips|
    ensures stop.Some? ==> |items| == |trips| + 1 && items[0] == QueryItem("stop", Some(stop.value.id))
    ensures var offset := if stop.Some? then 1 else 0;
            forall i :: 0 <= i < |trips| ==> items[offset + i] == QueryItem("trip", Some(trips[i].id))
    ensures FirstNamed(items, "stop").Some? <==> stop.Some?
  {
    var tripItems := Map(trips, TripQueryItem);
    if stop.None? then tripItems
    else
      var items := [QueryItem("stop", Some(stop.value.id))] + tripItems;
      assert FirstNamed(items, "stop") == Some(items[0]);
      items
  }

  /** The components of the widget link: `gotostop://widget?…`. */
  function WidgetComponents(stop: Option<IP.StopLocation>, trips: seq<IP.Trip>): (c: Components)
    ensures c.scheme == Some("gotostop") && c.host == Some("widget") && c.port.None? && c.path == ""
    ensures c.queryItems == Some(WidgetQueryItems(stop, trips))
  {
    Components(Some("gotostop"), Some("widget"), None, "", Some(WidgetQueryItems(stop, trips)))
  }

  /** `GoToStopWidgetEntry.makeWidgetUrl()`: a link with scheme and host
      always has a URL. */
  function MakeWidgetUrl(e: Entry): (u: Option<Url>)
    ensures u == Some(Url(Some(WidgetComponents(e.stop, e.trips))))
  {
    Some(Url(Some(WidgetComponents(e.stop, e.trips))))
  }
}

=== FILE: widget_view_model.dfy ===
/** The widget's first view model: a line's name, its stop and its direction
    taken from the first departure, and the real-time clock times of all. */
module WidgetViewModel {
  import opened Wrappers
  import opened Seqs
  import R = ApiResponses

  datatype WidgetData = WidgetData(name: string, from: string, to: string, times: seq<string>)

  /** What stands in for a missing value. */
  const Missing: string := "-"

  function OrMissing(s: Option<string>): string {
    match s
    case Some(v) => v
    case None => Missing
  }

  function RealTime(d: R.DepartureResponse): Option<string> {
    d.rtTime
  }

  /** `mapDepartures(_:)`. */
  function MapDepartures(ds: seq<R.DepartureResponse>): (w: WidgetData)
    ensures |ds| == 0 ==> w == WidgetData(Missing, Missing, Missing, [])
    ensures |ds| > 0 ==> && (ds[0].name.Some? ==> w.name == ds[0].name.value)
                         && (ds[0].name.None? ==> w.name == Missing)
                         && (ds[0].stop.Some? ==> w.from == ds[0].stop.value)
                         && (ds[0].stop.None? ==> w.from == Missing)
                         && (ds[0].direction.Some? ==> w.to == ds[0].direction.value)
                         && (ds[0].direction.None? ==> w.to == Missing)
    ensures |w.times| <= |ds|
    ensures forall i :: 0 <= i < |ds| && ds[i].rtTime.Some? ==> ds[i].rtTime.value in w.times
    ensures forall t :: t in w.times ==> exists i :: 0 <= i < |ds| && ds[i].rtTime == Some(t)
  {
    if |ds| == 0 then WidgetData(Missing, Missing, Missing, [])
    else WidgetData(OrMissing(ds[0].name), OrMissing(ds[0].stop), OrMissing(ds[0].direction), CompactMap(ds, RealTime))
  }

  /** The times keep the departures' order: those of a later run follow
      those of an earlier one. */
  lemma TimesKeepOrder(a: seq<R.DepartureResponse>, b: seq<R.DepartureResponse>)
    ensures MapDepartures(a + b).times == MapDepartures(a).times + MapDepartures(b).times
  {
    CompactMapAppend(a, b, RealTime);
    if |a| == 0 {
      assert a + b == b;
    }
  }

  /** Only the first departure names the line, stop and direction; the rest
      add only times. */
  lemma LaterDeparturesAddOnlyTimes(d: R.DepartureResponse, rest: seq<R.DepartureResponse>)
    ensures var w := MapDepartures([d] + rest);
            var v := MapDepartures([d]);
            && w.name == v.name && w.from == v.from && w.to == v.to
            && w.times == v.times + MapDepartures(rest).times
  {
    TimesKeepOrder([d], rest);
  }

  /** `getWidgetData()`: it maps no departures, so every field is missing. */
  function GetWidgetData(): (w: WidgetData)
    ensures w.name == Missing && w.from == Missing && w.to == Missing && w.times == []
  {
    MapDepartures([])
  }
}

=== FILE: wrappers.dfy ===
/** Optional values and results with an error, the two shapes Swift expresses
    with `T?` and `throws`. */
module Wrappers {

  /** Swift's `T?`. */
  datatype Option<+T> = None | Some(value: T) {

    /** Swift's `?? default`. */
    function GetOr(default: T): T {
      match this
      case Some(v) => v
      case None => default
    }
  }

  /** The outcome of a throwing Swift call: a value or the error it threw. */
  datatype Result<+T, +E> = Success(value: T) | Failure(error: E) {

    predicate IsFailure() {
      Failure?
    }

    function PropagateFailure<U>(): Result<U, E>
      requires Failure?
    {
      Failure(error)
    }

    function Extract(): T
      requires Success?
    {
      value
    }
  }
}
